=== FILE: README.md ===
# chack-agent tools core, modelled in Dafny

This project models the deterministic core of the `chack_tools` package of
chack-agent. That package holds the tools an LLM agent calls. The core covers:

- the per-request task board (`TaskListStore.apply` and `render`);
- the sub-agent runner's retry and usage-aggregation policy;
- SerpAPI key parsing and rate-limit detection;
- the shared formatting helpers (truncation, redaction, tool-step lines);
- the request preparation and result formatting of the SerpAPI web search, Brave search, DuckDuckGo HTML search and PDF-to-text tools;
- the tool-selection rule of both toolsets, and the agents toolset's exception wrappers and shell-output post-processing.

On the task board, `clear` and `replace` come after the init check (chack_tools/task_list_state.py:121), so they are refused on an uninitialized run. Both reset `next_id` to 1 (chack_tools/task_list_state.py:159, 167), so ids may be reused. TaskBoardProperties.InitGate and TaskBoardProperties.ClearRestartsIds state this.

Every operation is a pure function over immutable datatypes.

- The network, the shell, the OpenAI Agents SDK and third-party parsers are parameters:
  - a `fetch` function from the outgoing request to a modelled reply;
  - an `oracle` for one SDK run;
  - an abstract start-tag / end-tag / data event stream for the HTML parser;
  - page texts for the PDF reader.
- "Refused before any request" is stated as: the result is the same for any two `fetch` functions.
- The Brave freshness check takes its pattern matcher as a parameter. The tool, `AgentsToolset.BraveSearchTool`, passes the pattern as written (`BraveSearch.MatchesAsWritten`). `BraveSearch.IsDateRange` is the evidently intended pattern; see "## Findings".

Modules, one per source file:

| module | file |
|---|---|
| `TaskBoard` | `task_board.dfy` |
| `TaskBoardProperties` | `task_board_properties.dfy` |
| `SubAgentRunner` | `subagent_runner.dfy` |
| `SerpapiKeys` | `serpapi_keys.dfy` |
| `Formatting` | `formatting.dfy` |
| `SerpapiWebSearch` | `serpapi_web_search.dfy` |
| `BraveSearch` | `brave_search.dfy` |
| `DuckDuckGoSearch` | `duckduckgo_search.dfy` |
| `PdfText` | `pdf_text.dfy` |
| `Toolset` | `toolset.dfy` |
| `AgentsToolset` | `agents_toolset.dfy` |

Python's string built-ins used by the source live in `Strings` (`strings.dfy`). They are `strip`, `lower`, `split`, `splitlines`, whitespace `split()`, `join` and `str(int)`. `Option` lives in `Wrappers` (`wrappers.dfy`).

## Model

| member | source | states |
|---|---|---|
| Strings.WordsOfJoin | chack_tools/duckduckgo_search.py:75 | Whitespace `split()` inverts joining: non-empty whitespace-free words joined by single spaces split back into exactly those words |
| Strings.WordsKeepText | chack_tools/serpapi_web_search.py:23 | The words of a text, put end to end, are exactly its non-whitespace characters in order |
| Strings.NonSpaceOfJoin | chack_tools/serpapi_web_search.py:23 | Joining whitespace-free words with single spaces adds no non-whitespace character and drops none |
| Strings.SplitLinesOfJoin | chack_tools/task_list_state.py:104 | `splitlines` inverts joining with newlines, for lines without a line break whose last line is not empty |
| Strings.DropEmptyKeeps | chack_tools/task_list_state.py:105 | Dropping the empty parts leaves a list with no empty part as it is |
| Strings.DropEmptyAppend | chack_tools/task_list_state.py:105 | Dropping the empty parts works piece by piece: on a concatenation it gives the kept parts of each piece, in order |
| TaskBoard.GetSession | chack_tools/task_list_state.py:55-57 | A session is found exactly when its id is in the store, and it is the stored one |
| TaskBoard.CreateSession | chack_tools/task_list_state.py:48-53 | The session is replaced by an empty one with the given title; no other session changes; existing listener lists are kept and the session gets one |
| TaskBoard.FindRunSpec | chack_tools/task_list_state.py:62 | A run is found exactly when its label is present, and the found run is the one stored under that label |
| TaskBoard.PutRun | chack_tools/task_list_state.py:65 | After storing a run under a label, looking the label up gives that run |
| TaskBoard.PutRunEntries | chack_tools/task_list_state.py:65 | Storing a run adds only that entry; every other entry is an old one |
| TaskBoard.PutRunOthers | chack_tools/task_list_state.py:65 | Storing a run leaves the lookup of every other label unchanged |
| TaskBoard.PutRunLabels | chack_tools/task_list_state.py:65 | Dict insertion order: an existing label keeps its place, a new label goes last |
| TaskBoard.EnsureRun | chack_tools/task_list_state.py:59-66 | Afterwards the run exists; an existing session and run are left exactly as they were; listeners are untouched |
| TaskBoard.EnsureRunFrame | chack_tools/task_list_state.py:59-66 | No other session or run changes; an existing title is kept, and a new session gets the default title |
| TaskBoard.SetRun | chack_tools/task_list_state.py:109-114 | Mutating the run object in place: afterwards the store holds the new run under its label |
| TaskBoard.SetRunFrame | chack_tools/task_list_state.py:109-114 | Mutating one run changes no other session, no title and no other run |
| TaskBoard.RegisterListener | chack_tools/task_list_state.py:68-70 | The callback is appended after the existing ones; sessions and other sessions' listeners are unchanged |
| TaskBoard.RemoveFirst | chack_tools/task_list_state.py:75-76 | `list.remove` takes out exactly one occurrence when present, and nothing otherwise |
| TaskBoard.UnregisterListener | chack_tools/task_list_state.py:72-76 | Removes one registration of the callback, if any, and touches nothing else |
| TaskBoard.Render | chack_tools/task_list_state.py:180-200 | An unknown session renders as "Task list session not found.". A known one starts with its title line, so `list` never answers with a `SUCCESS:` string |
| TaskBoard.ParseAction | chack_tools/task_list_state.py:107-178 | Each known action name selects its own branch, and exactly the other names fall to "unsupported" |
| TaskBoard.ParseTasks | chack_tools/task_list_state.py:103-105 | An item is parsed exactly when it is a non-empty stripped line. No item starts or ends with whitespace, and there are at most as many items as lines |
| TaskBoard.ParseTasksOfLines | chack_tools/task_list_state.py:103-105 | Lines without line breaks, written one per line, parse to those lines stripped, blank ones dropped, the rest in their order |
| TaskBoard.ParseTasksRoundTrip | chack_tools/task_list_state.py:103-105 | Round trip: stripped non-empty items written one per line parse back to exactly those items |
| TaskBoard.Load | chack_tools/task_list_state.py:109-114 | `init`/`replace` build tasks `1..n` from the items in order, all "todo" with no notes; `next_id = n + 1`; the run is initialized |
| TaskBoard.IndexOf | chack_tools/task_list_state.py:135 | `next(...)` finds the first task carrying the id, or reports that none does |
| TaskBoard.PatchFirst | chack_tools/task_list_state.py:142-153 | Patching a task in place keeps the list length and every id |
| TaskBoard.WithoutId | chack_tools/task_list_state.py:139 | The filtered list is never longer |
| TaskBoard.WithoutIdMembers | chack_tools/task_list_state.py:139 | The filter keeps exactly the tasks whose id differs |
| TaskBoard.Step | chack_tools/task_list_state.py:107-178 | Every stored run is initialized; on an uninitialized run, every action but `init` and `list` fails with the not-initialized error |
| TaskBoard.Commit | chack_tools/task_list_state.py:115-116 | A successful mutation stores the run, notifies, and answers `SUCCESS:` |
| TaskBoard.Refuse | chack_tools/task_list_state.py:121-122 | A refusal changes nothing, does not notify, and answers `ERROR:` |
| TaskBoard.ApplyAction | chack_tools/task_list_state.py:107-178 | Each branch either stores and notifies with success, or leaves the store and does not notify |
| TaskBoard.Apply | chack_tools/task_list_state.py:87-178 | Listeners are notified exactly when the answer is `SUCCESS:`. Otherwise the store is what `ensure_run` made, or untouched for a blank action. Success changes only the addressed run. Listeners are never changed |
| TaskBoard.ApplyFrame | chack_tools/task_list_state.py:87-178 | `apply` touches no other session, and no other run of its own session |
| TaskBoard.Notifications | chack_tools/task_list_state.py:78-85 | Without a mutation no listener is called; after one, every registered listener is called once |
| TaskBoardProperties.EmptyStoreWf | chack_tools/task_list_state.py:43-46 | The empty store satisfies the id invariant |
| TaskBoardProperties.PutRunWf | chack_tools/task_list_state.py:65 | Storing a well-formed run keeps the session well formed |
| TaskBoardProperties.EnsureRunWf | chack_tools/task_list_state.py:59-66 | Creating a session or run on demand keeps the store well formed |
| TaskBoardProperties.SetRunWf | chack_tools/task_list_state.py:109-114 | Storing a well-formed run keeps the store well formed |
| TaskBoardProperties.LoadWf | chack_tools/task_list_state.py:109-113 | Ids assigned by `init`/`replace` are positive, increasing and below `next_id` |
| TaskBoardProperties.WithoutIdIncreasing | chack_tools/task_list_state.py:139 | Filtering tasks keeps the ids strictly increasing |
| TaskBoardProperties.RunOfWf | chack_tools/task_list_state.py:59-66 | The run `ensure_run` hands out of a well-formed store is well formed |
| TaskBoardProperties.ParseName | chack_tools/task_list_state.py:107-164 | Round trip: parsing the name of a known action gives that action back |
| TaskBoardProperties.ApplyStores | chack_tools/task_list_state.py:98-178 | A non-blank action creates the run if needed, then does one of three things: stores the step's run with its success message, reports the step's error, or shows the board |
| TaskBoardProperties.ApplySaves | chack_tools/task_list_state.py:107-173 | When the step saves a run, exactly that run is stored and the answer is the step's success message |
| TaskBoardProperties.PatchFirstAt | chack_tools/task_list_state.py:142-155 | `complete`/`update` change only the first task with the id |
| TaskBoardProperties.DeleteWf | chack_tools/task_list_state.py:138-141 | `delete` keeps a well-formed run well formed (and `next_id` unchanged) |
| TaskBoardProperties.PatchWf | chack_tools/task_list_state.py:142-155 | `complete` and `update` keep a well-formed run well formed |
| TaskBoardProperties.TaskStepWf | chack_tools/task_list_state.py:132-155 | Every id-addressed step stores a well-formed run |
| TaskBoardProperties.StoredWf | chack_tools/task_list_state.py:107-173 | Every successful step on a well-formed run stores a well-formed run |
| TaskBoardProperties.ApplyPreservesWf | chack_tools/task_list_state.py:107-173 | Invariant kept by every action: in each run, ids are positive, strictly increasing, and all below `next_id` |
| TaskBoardProperties.InitLoadsLines | chack_tools/task_list_state.py:103-116 | `init` needs no prior init. The run becomes the stripped non-blank lines, ids `1..n`, status "todo", `next_id = n + 1`. It notifies and reports `n` |
| TaskBoardProperties.InitGate | chack_tools/task_list_state.py:118-122 | On an uninitialized run, every action but `init` and `list` (so `clear` and `replace` too) is refused with the not-initialized error. It changes nothing beyond creating the run |
| TaskBoardProperties.AddAppends | chack_tools/task_list_state.py:124-130 | `add` appends exactly one task: id = old `next_id`, stripped text, status verbatim or "todo". It then bumps `next_id` |
| TaskBoardProperties.WithoutIdDropsOne | chack_tools/task_list_state.py:139 | On increasing ids, filtering out a present id drops exactly one task |
| TaskBoardProperties.WithoutIdAbsent | chack_tools/task_list_state.py:139 | Filtering out an absent id changes nothing |
| TaskBoardProperties.DeleteRemovesExactly | chack_tools/task_list_state.py:132-141 | `delete` removes exactly the task with the id, keeps all others, and leaves `next_id` alone |
| TaskBoardProperties.CompleteMarksDone | chack_tools/task_list_state.py:142-147 | `complete` sets status "done" and overwrites notes only with non-blank stripped notes. Other tasks and `next_id` are unchanged |
| TaskBoardProperties.UpdatePatchesNonBlank | chack_tools/task_list_state.py:148-155 | `update` patches only the non-blank fields of the first task with the id, lower-casing the status. Other tasks are unchanged |
| TaskBoardProperties.UnknownTaskRefused | chack_tools/task_list_state.py:133-137 | A missing or unknown task id is an error that changes nothing and does not notify |
| TaskBoardProperties.ClearRestartsIds | chack_tools/task_list_state.py:157-162 | `clear` leaves an initialized empty run with `next_id = 1`, so ids may be reused |
| TaskBoardProperties.OtherRunsUntouched | chack_tools/task_list_state.py:87-178 | No action changes another run of the same session |
| TaskBoardProperties.ListShows | chack_tools/task_list_state.py:118-119 | `list` only creates the run, answers with the rendered board, and does not notify |
| TaskBoardProperties.ListIsRepeatable | chack_tools/task_list_state.py:118-119 | A second `list` changes nothing and answers the same |
| TaskBoardProperties.ListIsNormal | chack_tools/task_list_state.py:98 | "list" is already in normalized form |
| TaskBoardProperties.SuccessKeepsRun | chack_tools/task_list_state.py:101 | After a success the run exists, so `ensure_run` changes nothing |
| TaskBoardProperties.NotificationFidelity | chack_tools/task_list_state.py:78-85 | After a mutation, each listener is called once, in registration order, with exactly the text a following `list` returns |
| TaskBoardProperties.RenderUnknownSession | chack_tools/task_list_state.py:182-184 | An unknown session renders as "Task list session not found." |
| TaskBoardProperties.CreatedSessionRendersEmpty | chack_tools/task_list_state.py:185-188 | A fresh session renders as its title line and "- (no runs yet)" |
| TaskBoardProperties.TaskLineMark | chack_tools/task_list_state.py:196-200 | The marker is `x` exactly for "done" and `~` exactly for "doing", blank otherwise. A note line follows exactly when there are notes |
| TaskBoardProperties.TaskLinesWithoutNotes | chack_tools/task_list_state.py:196-200 | Without notes, each task renders as exactly one line, in order |
| TaskBoardProperties.EmptyRunShowsState | chack_tools/task_list_state.py:189-195 | A run without tasks renders as a blank line, its label, and `- (no tasks)` once initialized or `- (not initialized)` before. A run loaded from no items shows `- (no tasks)` |
| TaskBoardProperties.InitFromLines | chack_tools/task_list_state.py:103-116 | Round trip through `init`: items written one per line become the run's tasks in order, item `i` as task `i + 1`, "todo", with no notes |
| TaskBoardProperties.InitRendersItems | chack_tools/task_list_state.py:189-200 | Round trip: a run loaded from items renders as its label followed by `- [ ] i. item` for each item in order |
| SubAgentRunner.ResolvedModel | chack_tools/subagent_runner.py:22-29 | A non-blank configured model wins. Without an env-var name the result is none. Otherwise it is the stripped env value, or none if blank. A result is never blank |
| SubAgentRunner.ToolName | chack_tools/subagent_runner.py:132-148 | The name is the first candidate in precedence order. An empty dict `name` gives way to dict `function.name`. No candidate gives "". A non-empty name is one the payload carries |
| SubAgentRunner.CountName | chack_tools/subagent_runner.py:157-158 | An empty name is never counted; one item counts at most once |
| SubAgentRunner.CountItems | chack_tools/subagent_runner.py:150-159 | Counts never contain "" and total at most the number of items |
| SubAgentRunner.CountItemsAppend | chack_tools/subagent_runner.py:150-159 | Counting is per item: counts of a concatenation add up |
| SubAgentRunner.OutputName | chack_tools/subagent_runner.py:177-186 | Only call/tool items count. Their extracted name is used, else their `tool_name` |
| SubAgentRunner.CountOutputs | chack_tools/subagent_runner.py:169-186 | Raw output counts never contain "" and total at most the number of items |
| SubAgentRunner.CountResponses | chack_tools/subagent_runner.py:161-187 | Raw response counts never contain "" |
| SubAgentRunner.Nested | chack_tools/subagent_runner.py:189-192 | Nested usage never counts "", and a missing result counts nothing |
| SubAgentRunner.UsageOf | chack_tools/subagent_runner.py:195-216 | No responses give zero totals |
| SubAgentRunner.UsageOfNonNegative | chack_tools/subagent_runner.py:195-216 | The three totals are non-negative when every reported count is |
| SubAgentRunner.UsageOfAppend | chack_tools/subagent_runner.py:195-216 | Totals over concatenated responses are the sums of the totals |
| SubAgentRunner.Run | chack_tools/subagent_runner.py:31-100 | At most two attempts run |
| SubAgentRunner.NoAttemptWithoutPromptOrSdk | chack_tools/subagent_runner.py:39-42 | A blank prompt or a missing SDK answers the fixed error with no attempt and no usage report |
| SubAgentRunner.RetryOnlyWithoutToolCalls | chack_tools/subagent_runner.py:60-83 | The first input is the stripped prompt. A second attempt runs exactly when the first returned and counted no tool call. Its input is the stripped prompt plus the MANDATORY suffix |
| SubAgentRunner.RaisedEscapes | chack_tools/subagent_runner.py:67-71 | An exception from the last attempt escapes `run`, and then nothing is reported |
| SubAgentRunner.TwoAttemptsReport | chack_tools/subagent_runner.py:72-93 | After two attempts, tool counts are the last attempt's only, while tokens are summed over both. Tokens are reported only with a resolved model |
| SubAgentRunner.OneAttemptReport | chack_tools/subagent_runner.py:72-93 | When the first attempt made tool calls it is the only one. The report carries its tool counts, and its tokens when a model was resolved |
| SubAgentRunner.Finish | chack_tools/subagent_runner.py:85-100 | The end of a run keeps the attempted inputs and always reports. A missing result gives "sub-agent run failed", a blank output the empty-response error, anything else the stripped output |
| SubAgentRunner.ReplyIsLastOutput | chack_tools/subagent_runner.py:95-100 | For any non-blank prompt, when the last attempt `run` made returns, `run` answers with its stripped final output. A missing result or blank output gives the matching error |
| SerpapiKeys.PiecesClean | chack_tools/serpapi_keys.py:12 | Pieces of a string are stripped and comma-free |
| SerpapiKeys.ReprPiecesClean | chack_tools/serpapi_keys.py:22-24 | Pieces of a non-string value are stripped and comma-free |
| SerpapiKeys.CollectionPiecesClean | chack_tools/serpapi_keys.py:13-20 | Pieces of a list, tuple or set are stripped and comma-free |
| SerpapiKeys.Parts | chack_tools/serpapi_keys.py:7-24 | Every piece of any input is stripped and comma-free |
| SerpapiKeys.Dedup | chack_tools/serpapi_keys.py:26-33 | De-duplication never lengthens the list. Every kept part is a non-empty, not yet seen element of the input |
| SerpapiKeys.DedupSpec | chack_tools/serpapi_keys.py:26-33 | De-duplication keeps exactly the non-empty unseen pieces, each once |
| SerpapiKeys.DedupOfDistinct | chack_tools/serpapi_keys.py:26-33 | De-duplicating a distinct list of non-empty unseen keys changes nothing |
| SerpapiKeys.DedupLoop | chack_tools/serpapi_keys.py:26-33 | The source's loop with a `seen` set computes the same list as the recursive definition |
| SerpapiKeys.ParseKeys | chack_tools/serpapi_keys.py:8-9 | `None` parses into no keys |
| SerpapiKeys.ParseKeysSpec | chack_tools/serpapi_keys.py:7-33 | Keys are distinct, non-empty, stripped and comma-free. They are exactly the non-empty pieces |
| SerpapiKeys.ParseKeysIdempotent | chack_tools/serpapi_keys.py:26-33 | De-duplicating parsed keys again changes nothing |
| SerpapiKeys.HasKeysIffPiece | chack_tools/serpapi_keys.py:36-37 | There are keys exactly when some piece is non-empty |
| SerpapiKeys.Shuffle | chack_tools/serpapi_keys.py:42-45 | The shuffle is a permutation, and the identity on lists of length at most 1 |
| SerpapiKeys.ShuffledKeys | chack_tools/serpapi_keys.py:40-45 | The shuffled keys are a permutation of the parsed keys, unchanged when there is at most one |
| SerpapiKeys.IsRateLimited | chack_tools/serpapi_keys.py:48-62 | Status 429 is always rate-limited. Otherwise the lower-cased text must hold one of the four phrases, or both "quota" and "exceed" |
| SerpapiKeys.RateLimitIgnoresCase | chack_tools/serpapi_keys.py:49 | Classification does not depend on the case of the error text |
| Formatting.Truncate | chack_tools/formatting.py:5-8 | Text within the limit is unchanged. Longer text is exactly its first `limit` characters followed by the notice naming the limit |
| Formatting.TruncateShape | chack_tools/formatting.py:5-8 | A truncated result is the input, or ends with the notice and what precedes the notice is a prefix of the input |
| Formatting.TruncateCut | chack_tools/formatting.py:5-8 | Text over a non-negative limit becomes exactly its first `limit` characters followed by the notice |
| Formatting.TruncateNonEmpty | chack_tools/formatting.py:5-8 | The notice is never empty, so truncating non-empty text never gives empty text |
| Formatting.Redact | chack_tools/formatting.py:11-24 | Empty text is unchanged. Text mentioning a secret word (case-insensitive) becomes "[redacted]". Other text goes to `shorten` |
| Formatting.RedactIff | chack_tools/formatting.py:14-23 | "[redacted]" appears exactly when the lower-cased text mentions "api_key", "token", "secret" or "password" |
| Formatting.StepLine | chack_tools/formatting.py:37-41 | A step line is "- <tool>: " followed by the redacted input: whole when it fits in `max_chars`, else exactly its first `max_chars` characters followed by the truncation notice. A secret-bearing input shows only "[redacted]" |
| Formatting.Remaining | chack_tools/formatting.py:43 | `max(max_turns - idx, 0)`: the remaining turns are `max_turns - idx` or 0, never negative and never below `max_turns - idx` |
| Formatting.FormatToolSteps | chack_tools/formatting.py:33-34 | No steps format as "" |
| Formatting.StepLines | chack_tools/formatting.py:35-44 | There is one line per step plus one line per checkpoint, and the first line is the first step's line |
| Formatting.StepLinesPrefix | chack_tools/formatting.py:35-44 | Lines are only ever appended: the lines of a prefix of the steps are a prefix of all lines |
| Formatting.StepLinesSnoc | chack_tools/formatting.py:36-44 | The lines of the first `k + 1` steps are those of the first `k` followed by step `k + 1`'s block |
| Formatting.StepLinesAt | chack_tools/formatting.py:36-44 | Step `k`'s line follows the earlier steps' lines. The turns line follows it exactly at checkpoints |
| Formatting.CheckpointsEvery | chack_tools/formatting.py:42 | With both settings non-zero, `n` steps get `n / notify_every` turns lines |
| SerpapiWebSearch.Clamp | chack_tools/serpapi_web_search.py:11-12 | The result lies in range when `minimum <= maximum`, equals an in-range value, and saturates at each end |
| SerpapiWebSearch.ClampMonotone | chack_tools/serpapi_web_search.py:11-12 | Clamping preserves order |
| SerpapiWebSearch.CoerceInt | chack_tools/serpapi_web_search.py:15-19 | A value `int()` accepts is used as converted; one it rejects gives the default |
| SerpapiWebSearch.MaxResults | chack_tools/serpapi_web_search.py:36-40 | Always in `[1, 10]`. No (or non-integer) request uses the clamped config default. An in-range request is kept |
| SerpapiWebSearch.JoinWordsCollapsed | chack_tools/serpapi_web_search.py:23 | Joining whitespace-free words with single spaces leaves no leading space and no run of spaces |
| SerpapiWebSearch.CollapseSpec | chack_tools/serpapi_web_search.py:23 | Collapsed text has single spaces only and no leading or trailing whitespace. It keeps every non-whitespace character of the input, in order, and collapsing again changes nothing |
| SerpapiWebSearch.CollapseJoined | chack_tools/serpapi_web_search.py:23 | Non-empty whitespace-free words joined by single spaces collapse to themselves |
| SerpapiWebSearch.NormalizeSnippet | chack_tools/serpapi_web_search.py:22-26 | A fitting snippet is the collapsed text. A longer one is the right-stripped cut of its first `max_chars - 3` characters plus "...", at most `max_chars` long |
| SerpapiWebSearch.Page | chack_tools/serpapi_web_search.py:107 | The page is at least 1, and a valid page is kept |
| SerpapiWebSearch.Offset | chack_tools/serpapi_web_search.py:106-113 | Google's `start` is the 0-based index of the page's first result and Bing's `first` (lines 128-135) is that index plus one: both skip `n` results per earlier page. A valid page and count never give an offset below the engine's first position |
| SerpapiWebSearch.PagesAdjoin | chack_tools/serpapi_web_search.py:107-135 | Page 1 starts at 0 (Google) or 1 (Bing), and each next page starts `n` results later |
| SerpapiWebSearch.PagesDisjoint | chack_tools/serpapi_web_search.py:107-135 | Different pages never overlap |
| SerpapiWebSearch.PagesStart | chack_tools/serpapi_web_search.py:107-135 | Offsets are never below the engine's first position |
| SerpapiWebSearch.Outgoing | chack_tools/serpapi_web_search.py:104-139 | A request goes out exactly when the query and key are non-blank. It carries the query, a count in `[1, 10]`, the page offset and the stripped key |
| SerpapiWebSearch.ErrorBody | chack_tools/serpapi_web_search.py:55-60 | The HTTP error body has no newline and is at most 220 characters: the stripped body, or its first 217 characters plus "..." |
| SerpapiWebSearch.ListLinesBound | chack_tools/serpapi_web_search.py:77-94 | Each shown result adds at most three lines |
| SerpapiWebSearch.ListLinesHead | chack_tools/serpapi_web_search.py:77-90 | Every dict result gets its numbered title line, numbered from 1 |
| SerpapiWebSearch.Search | chack_tools/serpapi_web_search.py:97-139 | A blank query or a missing key is answered with the fixed error before any request. Every answer is either `SUCCESS:` or `ERROR:`, never both |
| SerpapiWebSearch.SearchFetches | chack_tools/serpapi_web_search.py:104-117 | Otherwise exactly one request is made, and its reply alone decides the answer |
| SerpapiWebSearch.Listing | chack_tools/serpapi_web_search.py:71-95 | A listing of results starts with its header naming engine, query and shown count, and is a `SUCCESS:` answer |
| SerpapiWebSearch.Decoded | chack_tools/serpapi_web_search.py:61-95 | A decoded payload is either success or error, never both. Success means no `error` and a list of results (or a non-object payload). Invalid JSON and an `error` field give their fixed errors |
| SerpapiWebSearch.Respond | chack_tools/serpapi_web_search.py:42-95 | Every reply maps to success or error, never both. Success exactly when the status is below 400 and the payload decodes to a non-object or to an error-free object with a result list |
| SerpapiWebSearch.ListingShows | chack_tools/serpapi_web_search.py:74-90 | At most `count` results are shown, in order, each with its title line, in at most 30 lines |
| BraveSearch.Normalize | chack_tools/brave_search.py:16-24 | Empty gives none. A result is always the stripped lower-cased value. The four periods are accepted. Anything else is accepted exactly when the given pattern matches |
| BraveSearch.NormalizeFreshnessAsWritten | chack_tools/brave_search.py:13-24 | The program's normaliser: a non-empty value is accepted exactly when, stripped and lower-cased, it is a period or the pattern's own literal text, and then that stripped lower-cased text is returned |
| BraveSearch.NormalizeFreshness | chack_tools/brave_search.py:13-24 | The corrected normaliser: the same with every `YYYY-MM-DDtoYYYY-MM-DD` range accepted |
| BraveSearch.AsWrittenRefusesDateRange | chack_tools/brave_search.py:13 | The pattern as written refuses a real date range and accepts only its own literal text |
| BraveSearch.DateRangeAccepted | chack_tools/brave_search.py:13-23 | With the intended pattern, every `YYYY-MM-DDtoYYYY-MM-DD` range is accepted unchanged |
| BraveSearch.NormalizeIdempotent | chack_tools/brave_search.py:16-24 | For both the as-written and the corrected normaliser, normalizing an accepted value again gives the same value |
| BraveSearch.NormalizeStable | chack_tools/brave_search.py:16-24 | For any pattern that refuses "", an accepted value is a fixed point of normalization |
| BraveSearch.ApiKey | chack_tools/brave_search.py:61 | A configured key wins; otherwise `BRAVE_API_KEY` from the environment. The key is empty exactly when neither gives a non-empty one |
| BraveSearch.Count | chack_tools/brave_search.py:66-71 | The count lies in `[1, 20]`, defaults to the configured value, and keeps an in-range request |
| BraveSearch.Prepare | chack_tools/brave_search.py:61-93 | Checks run in order: a missing key (with no `ERROR:` prefix), then a blank query, then an unusable freshness under the given pattern. A request is sent exactly when none of these applies. It carries the query, the clamped count, the key, the normalized freshness, and the country and language settings unchanged |
| BraveSearch.EntryTexts | chack_tools/brave_search.py:113-117 | One text per entry, in order |
| BraveSearch.Outcome | chack_tools/brave_search.py:110-118 | A failed connection or an HTTP 4xx/5xx raises. An answered search is "No results." or starts with a "- " result line |
| BraveSearch.Search | chack_tools/brave_search.py:61-118 | A missing key answers the fixed text. The search raises only after a request was prepared and sent |
| BraveSearch.RefusedBeforeRequest | chack_tools/brave_search.py:61-77 | For any pattern, the three refusals come before any request; only the missing-key one is not an `ERROR:` |
| BraveSearch.SearchRefusesDateRange | chack_tools/brave_search.py:72-77 | With a key and a query, the search as written refuses freshness `2024-01-01to2024-01-31` with the freshness error, while the corrected pattern sends it unchanged |
| BraveSearch.RetriesOnce | chack_tools/brave_search.py:100-109 | A 429 reply is retried exactly once, and the retry's reply is used. Any other reply is used as is |
| BraveSearch.ListingLength | chack_tools/brave_search.py:109-118 | The listing shows the first `brave_max_results` entries (the config value, not the clamped count), joined by newlines, or "No results." |
| DuckDuckGoSearch.HasClassSpec | chack_tools/duckduckgo_search.py:71-75 | When the class attribute is the space-joined list of class tokens, a name matches exactly when it is one of the tokens. An empty list means no attribute, and nothing matches |
| DuckDuckGoSearch.HasClass | chack_tools/duckduckgo_search.py:71-75 | A class matches only when the element has a non-empty class attribute and the class is a non-empty single token |
| DuckDuckGoSearch.Absolute | chack_tools/duckduckgo_search.py:57-63 | Empty stays empty. "//" gets "https:". Another leading "/" gets "https://duckduckgo.com". Anything else is unchanged |
| DuckDuckGoSearch.AbsoluteIdempotent | chack_tools/duckduckgo_search.py:57-63 | The result never starts with "/", so applying the step again changes nothing |
| DuckDuckGoSearch.NormalizeUrl | chack_tools/duckduckgo_search.py:57-68 | Empty stays empty. A redirect target, when extracted, replaces the link. Otherwise the link is made absolute and never starts with "/" |
| DuckDuckGoSearch.OnStart | chack_tools/duckduckgo_search.py:21-32 | A `result__body` div opens a fresh result at depth 1 with title and url cleared. Any other div deepens an open result and is otherwise ignored. A `result__a` link inside a result starts the title and takes its href; other links change nothing. Other tags change nothing, and no result is emitted |
| DuckDuckGoSearch.OnEnd | chack_tools/duckduckgo_search.py:34-50 | A closing link ends the title. A closing div outside a result changes nothing; inside one it leaves one level, and at depth 1 it leaves the result and clears title, url and depth. A result is appended exactly then, when title and url are both non-empty, as the stripped title with the normalized link |
| DuckDuckGoSearch.OnData | chack_tools/duckduckgo_search.py:52-54 | Data changes only the title, by extending it, and only inside a title link |
| DuckDuckGoSearch.Step | chack_tools/duckduckgo_search.py:21-54 | Each event keeps the depth invariant and only ever appends at most one result. It appends only on a closing `div` at depth 1 inside a result |
| DuckDuckGoSearch.Feed | chack_tools/duckduckgo_search.py:21-54 | Feeding events only appends results, at most one per event |
| DuckDuckGoSearch.FeedValid | chack_tools/duckduckgo_search.py:21-54 | Any event stream keeps the invariant, only appends results, and yields at most one result per event |
| DuckDuckGoSearch.DataOnlyInTitle | chack_tools/duckduckgo_search.py:52-54 | Text is collected only inside a title anchor |
| DuckDuckGoSearch.OpenResult | chack_tools/duckduckgo_search.py:21-32 | A div whose classes include `result__body` enters a result at depth 1 with title and url cleared. An anchor whose classes include `result__a` inside it starts the title and takes its href |
| DuckDuckGoSearch.OneResult | chack_tools/duckduckgo_search.py:21-54 | One well-formed result block, with any attributes that carry the two classes, yields exactly one result: stripped title, normalized href. All state is then reset |
| DuckDuckGoSearch.ResultSteps | chack_tools/duckduckgo_search.py:21-54 | The same, stated on the handler calls one by one |
| DuckDuckGoSearch.ServedResult | chack_tools/duckduckgo_search.py:21-54 | A block as DuckDuckGo serves it, with the body div's classes `links_main links_deep result__body` and a `rel` before the link's class and href, yields its one result |
| DuckDuckGoSearch.MaxResults | chack_tools/duckduckgo_search.py:95-98 | The limit lies in `[1, 20]` and keeps an in-range setting |
| DuckDuckGoSearch.Try | chack_tools/duckduckgo_search.py:119-133 | A parsed attempt keeps at most the limit of results. A refused attempt is an `ERROR:` answer |
| DuckDuckGoSearch.ResultLines | chack_tools/duckduckgo_search.py:159-161 | One numbered "title - url" line per result, numbered from 1, in order |
| DuckDuckGoSearch.BlankQueryRefused | chack_tools/duckduckgo_search.py:93-94 | A blank query is an error before any request |
| DuckDuckGoSearch.Report | chack_tools/duckduckgo_search.py:153-162 | The report is a `SUCCESS:` answer and not an `ERROR:` one. Without results it suggests another user agent; with results it is the header naming query and count, then the result lines |
| DuckDuckGoSearch.RetryRule | chack_tools/duckduckgo_search.py:131-151 | Results from the first attempt are reported. Only an empty first attempt with the default agent is retried, with the other agent |
| DuckDuckGoSearch.AtMostMax | chack_tools/duckduckgo_search.py:133 | At most `max_results`, and so at most 20, results are kept |
| DuckDuckGoSearch.Search | chack_tools/duckduckgo_search.py:85-162 | A blank query is refused with the fixed error. Every answer is either `SUCCESS:` or `ERROR:`, never both |
| PdfText.Truncate | chack_tools/pdf_text.py:11-14 | Text within the limit is unchanged. Longer text is the right-stripped cut of its first `limit` characters followed by "\n\n[truncated]", at most the limit plus the mark long |
| PdfText.Limit | chack_tools/pdf_text.py:29-33 | The limit lies in `[500, 100000]`. It is `max_chars`, else the config value, else 12000 |
| PdfText.Chunks | chack_tools/pdf_text.py:66-73 | Every kept page text is non-empty and stripped |
| PdfText.ChunksSnoc | chack_tools/pdf_text.py:66-73 | No pages give no chunks. One more page adds its stripped text after the others, unless it is blank. This fixes the chunks page by page, in page order |
| PdfText.ChunksOfClean | chack_tools/pdf_text.py:66-73 | Pages that are already stripped and non-empty are kept as they are, all of them |
| PdfText.ChunksEmptyIffBlank | chack_tools/pdf_text.py:66-76 | There is no text exactly when every page is blank |
| PdfText.FullText | chack_tools/pdf_text.py:66-75 | The text is the stripped non-blank pages joined by a blank line; the final strip changes nothing; it is empty exactly when every page is blank |
| PdfText.Report | chack_tools/pdf_text.py:78-84 | A `SUCCESS:` answer, not an `ERROR:` one: the header with URL and full length, then the text cut to the limit, which is the whole text when it fits |
| PdfText.JoinedIsTrimmed | chack_tools/pdf_text.py:74 | Joined stripped pages are already stripped, so the final `strip()` changes nothing. The join is empty exactly when there are no pages |
| PdfText.Download | chack_tools/pdf_text.py:21-84 | A blank URL is an error before any download. A non-PDF answer is refused naming the content type. Success exactly when the answer is a PDF without HTTP error whose pages hold text; every answer is `SUCCESS:` or `ERROR:`, never both |
| PdfText.ReportsPages | chack_tools/pdf_text.py:66-84 | Blank pages give the no-text error. Otherwise the report gives the full untruncated length and the text cut to the limit |
| Toolset.SelectMembers | chack_tools/toolset.py:35-77 | A tool is offered exactly when its condition holds |
| Toolset.SelectOrdered | chack_tools/toolset.py:35-77 | Each tool appears at most once, in the fixed order exec, task list, Brave, Google, Bing, web searcher, social, scientific, PDF |
| Toolset.SelectStarts | chack_tools/toolset.py:36-39 | The task list is always offered. Exec is first exactly when enabled, else the task list is first |
| Toolset.NarrowProfile | chack_tools/toolset.py:45-76 | Outside "all" and "telegram" there is no Bing, social, scientific or PDF tool |
| Toolset.GoogleWebRule | chack_tools/toolset.py:42-44 | Google web is offered exactly when a key parses and its switch is on |
| Toolset.BuildTools | chack_tools/toolset.py:35-77 | The built tools are exactly the offered ones, in registration order |
| AgentsToolset.ExecOutput | chack_tools/agents_toolset.py:31-33 | The exec tool never answers with an empty string |
| AgentsToolset.ExecOutputSpec | chack_tools/agents_toolset.py:31-33 | No output gives "(no output)", itself truncated like any output. Fitting output is the stripped concatenation. Longer output is exactly its first `max_chars` characters followed by the notice |
| AgentsToolset.Guarded | chack_tools/agents_toolset.py:81-92 | A wrapper passes the helper's answer through unchanged. A raised exception becomes "ERROR: <label> failed (...)" |
| AgentsToolset.GuardedSpec | chack_tools/agents_toolset.py:489-499 | A wrapper answers with an error exactly when its helper raised or answered with one. The raised message can be read back out |
| AgentsToolset.BraveSearchTool | chack_tools/agents_toolset.py:59-94 | The Brave tool answers the missing-key text without a key. With a key and a query it refuses a real date range with the freshness error, as the pattern is written |
| AgentsToolset.BraveErrorsReported | chack_tools/agents_toolset.py:81-92 | An HTTP error from Brave reaches the agent as "ERROR: Brave search failed (<reason>)" |
| AgentsToolset.BlankKeyParsesEmpty | chack_tools/agents_toolset.py:522 | A blank key parses into no keys, so whenever the other toolset finds a key this one does too |
| AgentsToolset.BuildTools | chack_tools/agents_toolset.py:503-561 | The built tools are exactly the ones offered under the non-blank key test, in registration order |
| AgentsToolset.OffersAtLeastToolset | chack_tools/agents_toolset.py:503-561 | The agents toolset offers every tool the other toolset offers |
| AgentsToolset.LoneCommaKeys | chack_tools/agents_toolset.py:522 | A lone comma is not blank, yet the shared key parser finds no key in it |
| AgentsToolset.LoneCommaDiffers | chack_tools/agents_toolset.py:522 | The key tests differ: "," parses into no keys but is not blank, so only the agents toolset offers Google web |

## Left out

- Network I/O:
  - `requests.get` is the `fetch` parameter.
  - A reply is modelled as a timeout, a connection failure, or a status with a decoded body.
  - The text of `requests`' exception messages is an opaque string.
- The Brave retry's random `time.sleep` is not modelled. Only the single retry on 429 is kept.
- `pypdf`: each page's extracted text is given. A page whose extraction fails is given as "".
- `HTMLParser` tokenization is replaced by an abstract event stream. An attribute without a value is given as "".
- `urlparse`/`parse_qs`/`unquote` for the `uddg` redirect target are not modelled.
  - DuckDuckGoSearch.NormalizeUrl takes the extraction as a parameter.
  - Only the prefix step is specified.
- `quote_plus` of the DuckDuckGo query is not modelled. The fetch receives the raw query.
- Formatting.Redact takes `textwrap.shorten` as a parameter, so nothing is claimed about shortened text.
- AgentsToolset.ExecOutput does not model `subprocess.run` or the int parsing of `CHACK_EXEC_TIMEOUT`/`CHACK_EXEC_MAX_OUTPUT`. The outputs and the limit are parameters.
- The exec tool has no exception wrapper in the source, so none is modelled.
- SerpapiKeys.Shuffle replaces `random.shuffle` with a `draw` function, and states only that the result is a permutation.
- Set iteration order in `parse_serpapi_keys` is the order of the modelled sequence.
- `lower()` is modelled for ASCII letters only. Python lower-cases all of Unicode.
- The corrected Brave pattern matches ASCII digits. Python's `\d` also matches other Unicode digits.
- `_coerce_int`'s `int()` is an `Option<int>` argument: none stands for a value `int()` rejects.
- `task_id` is taken as an integer or absent, so `int(task_id)` never raises.
- Falsy JSON field values of other types are modelled as "".
- The thread lock and context variables of the task store are not modelled, nor the sub-agent runner's event-loop detection and thread escape.
- Listener callback bodies are not modelled. Listeners are opaque handles, and only which ones are called, with what text, is stated.
- The Agents SDK and LangChain construction (`Agent`, `Runner`, `function_tool`, `StructuredTool`) are not modelled.
  - SubAgentRunner.Run passes `max_turns` through to the oracle unchecked.
  - The usage sink is the `report` field of the outcome.
- Only the Brave wrapper is composed with its helper's model. The other wrapped helpers (ForumScout, scientific search, research agents) are not part of this model, so their wrappers are stated through AgentsToolset.Guarded alone.
- SerpapiWebSearch.ListingShows bounds the number of lines but does not spell out the meta and snippet lines.

## Findings

| source | as written | input that shows it | evidently intended | confidence | as-written member | corrected member |
|---|---|---|---|---|---|---|
| chack_tools/brave_search.py:13 | The freshness pattern is a raw string with doubled backslashes. It matches only the literal text `\dddd-\dd-\ddto\dddd-\dd-\dd`, so every real date range is refused with the freshness error | freshness `2024-01-01to2024-01-31` | Accept `YYYY-MM-DDtoYYYY-MM-DD` with digits, as the tool's error message and docstring describe | not executed | BraveSearch.AsWrittenRefusesDateRange | BraveSearch.DateRangeAccepted |

=== FILE: agents_toolset.dfy ===
/** The toolset built for the agents runtime: the same selection rule as
    `Toolset` with its own SerpAPI key test, the wrappers that turn a
    helper's exception into an `ERROR:` answer, and the post-processing of
    a shell command's output. The command itself is not run here: its
    standard output and error are parameters. */
module AgentsToolset {
  import opened Strings
  import Formatting
  import Toolset
  import SerpapiKeys
  import BraveSearch

  // ---------------------------------------------------------------------
  // The exec tool

  const NoOutput := "(no output)"

  /** `CHACK_EXEC_MAX_OUTPUT` when it is not set. */
  const DefaultMaxOutput := 4000

  /** `_exec_command` after the command has finished: both streams
      concatenated and stripped, a placeholder for no output, then cut to
      the limit with the shared truncation notice. */
  function ExecOutput(stdout: string, stderr: string, maxChars: int): (r: string)
    ensures r != ""
  {
    var output := Trim(stdout + stderr);
    var shown := if output == "" then NoOutput else output;
    Formatting.TruncateNonEmpty(shown, maxChars);
    Formatting.Truncate(shown, maxChars)
  }

  /** Output that fits is the stripped output, or the placeholder when
      there is none; longer output is exactly its first `maxChars`
      characters followed by the notice. The placeholder itself goes through
      the same truncation. */
  lemma ExecOutputSpec(stdout: string, stderr: string, maxChars: int)
    ensures var output := Trim(stdout + stderr);
      var r := ExecOutput(stdout, stderr, maxChars);
      && (IsBlank(stdout + stderr) ==> r == Formatting.Truncate(NoOutput, maxChars))
      && (IsBlank(stdout + stderr) && |NoOutput| <= maxChars ==> r == NoOutput)
      && (!IsBlank(stdout + stderr) && |output| <= maxChars ==> r == output)
      && (!IsBlank(stdout + stderr) && 0 <= maxChars < |output| ==>
            r == output[..maxChars] + Formatting.Notice(maxChars))
  {
    var output := Trim(stdout + stderr);
    assert IsBlank(stdout + stderr) <==> output == "" by {
      TrimSpec(stdout + stderr);
    }
    var shown := if output == "" then NoOutput else output;
    assert ExecOutput(stdout, stderr, maxChars) == Formatting.Truncate(shown, maxChars);
    Formatting.TruncateCut(output, maxChars);
  }

  // ---------------------------------------------------------------------
  // Wrapping a helper as a tool

  /** The wrapped helpers, one per `except` clause, with the label each
      puts in its error. The exec tool has no such wrapper. */
  datatype Wrapped =
    | BraveTool | GoogleWebTool | BingWebTool
    | ForumSearch | LinkedinSearch | InstagramSearch | RedditPostsSearch | RedditCommentsSearch | XSearch
    | ArxivSearch | EuropePmcSearch | SemanticScholarSearch | OpenAlexSearch | PlosSearch
    | PdfTool | SocialResearch | ScientificResearch | WebsearcherResearch | TaskListTool

  function Label(w: Wrapped): string {
    match w
    case BraveTool => "Brave search"
    case GoogleWebTool => "Google web search"
    case BingWebTool => "Bing web search"
    case ForumSearch => "ForumScout forum_search"
    case LinkedinSearch => "ForumScout linkedin_search"
    case InstagramSearch => "ForumScout instagram_search"
    case RedditPostsSearch => "ForumScout reddit_posts_search"
    case RedditCommentsSearch => "ForumScout reddit_comments_search"
    case XSearch => "ForumScout x_search"
    case ArxivSearch => "arXiv search"
    case EuropePmcSearch => "Europe PMC search"
    case SemanticScholarSearch => "Semantic Scholar search"
    case OpenAlexSearch => "OpenAlex search"
    case PlosSearch => "PLOS search"
    case PdfTool => "PDF extraction"
    case SocialResearch => "social_network_research"
    case ScientificResearch => "scientific_research"
    case WebsearcherResearch => "websearcher_research"
    case TaskListTool => "task list update"
  }

  /** A wrapper's answer: the helper's string unchanged, or an error naming
      the tool and carrying the exception's message. */
  function Guarded(w: Wrapped, call: Call): (r: string)
    ensures call.Answered? ==> r == call.text
    ensures call.Threw? ==> StartsWith(r, "ERROR: " + Label(w) + " failed (") && EndsWith(r, ")")
  {
    match call
    case Answered(text) => text
    case Threw(e) =>
      var r := Error(Label(w) + " failed (" + e + ")");
      assert r[..|"ERROR: " + Label(w) + " failed ("|] == "ERROR: " + Label(w) + " failed (";
      r
  }

  /** A wrapper answers with an error exactly when its helper raised or
      itself answered with one; a raised message can be read back out of
      the answer. */
  lemma GuardedSpec(w: Wrapped, call: Call)
    ensures IsError(Guarded(w, call)) <==> call.Threw? || IsError(call.text)
    ensures call.Threw? ==>
      var r := Guarded(w, call);
      var head := |"ERROR: " + Label(w) + " failed ("|;
      r[head..|r| - 1] == call.error
  {
    if call.Threw? {
      var message := Label(w) + " failed (" + call.error + ")";
      assert Guarded(w, call) == Error(message);
      ErrorIsError(message);
      ReadBack(Label(w), call.error);
    }
  }

  /** The raised message sits between the error's head and its closing
      parenthesis. */
  lemma ReadBack(name: string, e: string)
    ensures var r := Error(name + " failed (" + e + ")");
      r[|"ERROR: " + name + " failed ("|..|r| - 1] == e
  {
    var head := "ERROR: " + name + " failed (";
    var r := Error(name + " failed (" + e + ")");
    assert r == head + e + ")";
  }

  /** The Brave tool: the helper's answer, guarded. The helper checks
      freshness with the pattern as the program writes it. */
  function BraveSearchTool(cfg: BraveSearch.Config, env: map<string, string>, a: BraveSearch.Args,
                           fetch: (BraveSearch.Request, nat) -> BraveSearch.Reply): (r: string)
    ensures BraveSearch.ApiKey(cfg, env) == "" ==> r == BraveSearch.NoKey
    ensures a.freshness == "2024-01-01to2024-01-31" && BraveSearch.ApiKey(cfg, env) != "" && Trim(a.query) != "" ==>
      r == Error(BraveSearch.BadFreshness)
  {
    var r := Guarded(BraveTool, BraveSearch.Search(cfg, env, a, BraveSearch.MatchesAsWritten, fetch));
    assert a.freshness == "2024-01-01to2024-01-31" && BraveSearch.ApiKey(cfg, env) != "" && Trim(a.query) != "" ==>
      r == Error(BraveSearch.BadFreshness) by {
      if a.freshness == "2024-01-01to2024-01-31" && BraveSearch.ApiKey(cfg, env) != "" && Trim(a.query) != "" {
        BraveSearch.SearchRefusesDateRange(cfg, env, a, fetch);
      }
    }
    r
  }

  /** An HTTP error status from Brave reaches the agent as an error naming
      Brave search and the status text; anything else passes through. */
  lemma BraveErrorsReported(cfg: BraveSearch.Config, env: map<string, string>, a: BraveSearch.Args,
                            fetch: (BraveSearch.Request, nat) -> BraveSearch.Reply)
    requires BraveSearch.Prepare(cfg, env, a, BraveSearch.MatchesAsWritten).Send?
    requires var request := BraveSearch.Prepare(cfg, env, a, BraveSearch.MatchesAsWritten).request;
      fetch(request, 0).Answer? && fetch(request, 0).status != 429 && 400 <= fetch(request, 0).status < 600
    ensures var reason := fetch(BraveSearch.Prepare(cfg, env, a, BraveSearch.MatchesAsWritten).request, 0).reason;
      BraveSearchTool(cfg, env, a, fetch) == Error("Brave search failed (" + reason + ")")
    ensures IsError(BraveSearchTool(cfg, env, a, fetch))
  {
    var request := BraveSearch.Prepare(cfg, env, a, BraveSearch.MatchesAsWritten).request;
    var reason := fetch(request, 0).reason;
    assert BraveSearch.Search(cfg, env, a, BraveSearch.MatchesAsWritten, fetch) == Threw(reason);
    assert Label(BraveTool) == "Brave search";
    ErrorIsError("Brave search failed (" + reason + ")");
  }

  // ---------------------------------------------------------------------
  // Selection

  /** This toolset's key test: the key is not blank after stripping. */
  predicate HasSerpapi(serpapiKey: string) {
    Trim(serpapiKey) != ""
  }

  /** `AgentsToolset._build_tools`: exactly the offered tools under this
      toolset's key test, in registration order. */
  function BuildTools(f: Toolset.Flags, profile: string, serpapiKey: string): (r: seq<Toolset.Tool>)
    ensures forall t :: t in r <==> Toolset.Offered(f, profile, HasSerpapi(serpapiKey), t)
    ensures Toolset.Ascending(r)
  {
    var r := Toolset.Select(f, profile, HasSerpapi(serpapiKey));
    assert forall t :: t in r <==> Toolset.Offered(f, profile, HasSerpapi(serpapiKey), t) by {
      forall t ensures t in r <==> Toolset.Offered(f, profile, HasSerpapi(serpapiKey), t) {
        Toolset.SelectMembers(f, profile, HasSerpapi(serpapiKey), t);
      }
    }
    Toolset.SelectOrdered(f, profile, HasSerpapi(serpapiKey));
    r
  }

  /** A blank key parses into no keys: the parsed keys are stripped,
      non-empty pieces of the key text. */
  lemma BlankKeyParsesEmpty(serpapiKey: string)
    requires Trim(serpapiKey) == ""
    ensures !Toolset.HasSerpapi(serpapiKey)
  {
    var raw := SerpapiKeys.Text(serpapiKey);
    SerpapiKeys.HasKeysIffPiece(raw);
    TrimSpec(serpapiKey);
    var pieces := Split(serpapiKey, ',');
    forall p | p in SerpapiKeys.Parts(raw)
      ensures p == ""
    {
      var i :| 0 <= i < |pieces| && p == Trim(pieces[i]);
      TrimSpec(pieces[i]);
      if p != "" {
        var j :| 0 <= j < |pieces[i]| && !IsSpace(pieces[i][j]);
        JoinHoldsParts(pieces, [','], i, pieces[i][j]);
      }
    }
  }

  /** Every tool the other toolset offers, this one offers too. */
  lemma OffersAtLeastToolset(f: Toolset.Flags, profile: string, serpapiKey: string, t: Toolset.Tool)
    ensures t in Toolset.BuildTools(f, profile, serpapiKey) ==> t in BuildTools(f, profile, serpapiKey)
  {
    if !HasSerpapi(serpapiKey) {
      BlankKeyParsesEmpty(serpapiKey);
    }
  }

  /** The two key tests differ: a lone comma parses into no keys, yet is
      not blank, so only this toolset offers Google web search for it. */
  lemma LoneCommaDiffers(f: Toolset.Flags, profile: string)
    requires f.googleWeb
    ensures Toolset.GoogleWeb in BuildTools(f, profile, ",")
    ensures Toolset.GoogleWeb !in Toolset.BuildTools(f, profile, ",")
  {
    LoneCommaKeys();
    Toolset.SelectMembers(f, profile, HasSerpapi(","), Toolset.GoogleWeb);
    Toolset.SelectMembers(f, profile, Toolset.HasSerpapi(","), Toolset.GoogleWeb);
  }

  /** A lone comma is not blank, yet holds no key. */
  lemma LoneCommaKeys()
    ensures HasSerpapi(",") && !Toolset.HasSerpapi(",")
  {
    assert Trim(",") != "" by {
      TrimSpec(",");
      assert !IsSpace(","[0]);
    }
    LoneCommaParts();
    SerpapiKeys.HasKeysIffPiece(SerpapiKeys.Text(","));
  }

  lemma LoneCommaParts()
    ensures SerpapiKeys.Parts(SerpapiKeys.Text(",")) == ["", ""]
  {
    assert Split(",", ',') == ["", ""];
    assert SerpapiKeys.Parts(SerpapiKeys.Text(",")) == [Trim(""), Trim("")];
  }
}

=== FILE: brave_search.dfy ===
/** Brave web search: the freshness filter, the checks made before any
    request, the result count, the single retry on HTTP 429, and the list
    built from the reply. The HTTP exchange is the parameter `fetch`, from
    the request and the attempt number (0 or 1) to the reply. */
module BraveSearch {
  import opened Wrappers
  import opened Strings

  /** The fixed freshness periods: past day, week, month, year. */
  predicate IsPeriod(v: string) {
    v == "pd" || v == "pw" || v == "pm" || v == "py"
  }

  // ---------------------------------------------------------------------
  // The date-range pattern

  /** The raw string at brave_search.py:13 doubles every backslash, so the
      regular expression reads `\\d{4}`: one literal backslash, then `d`
      four times. Anchored at both ends, it matches this one text only. */
  const LiteralPattern: string := "\\dddd-\\dd-\\ddto\\dddd-\\dd-\\dd"

  /** `_FRESHNESS_PATTERN.match` as written (applied to stripped text, so
      the final-newline allowance of `$` never applies). */
  predicate MatchesAsWritten(v: string) {
    v == LiteralPattern
  }

  predicate IsDigit(c: char) {
    '0' <= c <= '9'
  }

  /** `YYYY-MM-DD` at position `i`. */
  predicate DateAt(v: string, i: nat)
    requires i + 10 <= |v|
  {
    && IsDigit(v[i]) && IsDigit(v[i + 1]) && IsDigit(v[i + 2]) && IsDigit(v[i + 3])
    && v[i + 4] == '-' && IsDigit(v[i + 5]) && IsDigit(v[i + 6])
    && v[i + 7] == '-' && IsDigit(v[i + 8]) && IsDigit(v[i + 9])
  }

  /** `YYYY-MM-DDtoYYYY-MM-DD`, the range form the error message and the
      tool's documentation promise. */
  predicate IsDateRange(v: string) {
    |v| == 22 && DateAt(v, 0) && v[10] == 't' && v[11] == 'o' && DateAt(v, 12)
  }

  /** The shared shape of `_normalize_freshness`, for a given range matcher:
      empty is none; otherwise strip and lower-case, and keep a period or a
      text the matcher accepts. */
  function Normalize(value: string, matches: string -> bool): (r: Option<string>)
    ensures value == "" ==> r == None
    ensures r.Some? ==> r.value == Lower(Trim(value))
    ensures value != "" && IsPeriod(Lower(Trim(value))) ==> r == Some(Lower(Trim(value)))
    ensures value != "" && !IsPeriod(Lower(Trim(value))) ==> (r.Some? <==> matches(Lower(Trim(value))))
  {
    if value == "" then None
    else
      var v := Lower(Trim(value));
      if IsPeriod(v) || matches(v) then Some(v) else None
  }

  /** `_normalize_freshness` as written: a filter is kept only when it is a
      period or the literal pattern text. */
  function NormalizeFreshnessAsWritten(value: string): (r: Option<string>)
    ensures r.Some? <==> value != "" && (IsPeriod(Lower(Trim(value))) || Lower(Trim(value)) == LiteralPattern)
    ensures r.Some? ==> r.value == Lower(Trim(value))
  {
    Normalize(value, MatchesAsWritten)
  }

  /** `_normalize_freshness` with the date-range pattern it evidently
      intends: a filter is kept when it is a period or a date range. */
  function NormalizeFreshness(value: string): (r: Option<string>)
    ensures r.Some? <==> value != "" && (IsPeriod(Lower(Trim(value))) || IsDateRange(Lower(Trim(value))))
    ensures r.Some? ==> r.value == Lower(Trim(value))
  {
    Normalize(value, IsDateRange)
  }

  /** As written, a well-formed date range is refused, while the text with
      backslashes and letters `d` is let through. */
  lemma AsWrittenRefusesDateRange()
    ensures NormalizeFreshnessAsWritten("2024-01-01to2024-01-31") == None
    ensures NormalizeFreshnessAsWritten(LiteralPattern) == Some(LiteralPattern)
  {
    RangeRefused();
    PatternAccepted();
  }

  lemma RangeRefused()
    ensures NormalizeFreshnessAsWritten("2024-01-01to2024-01-31") == None
  {
    var range := "2024-01-01to2024-01-31";
    assert range[0] != '\\';
    assert IsTrimmed(range) by { assert range[0] == '2' && range[21] == '1'; }
    TrimOfTrimmed(range);
    LowerOfLowered(range);
    assert Lower(Trim(range)) == range;
    assert !IsPeriod(range) by { assert |range| != 2; }
  }

  lemma PatternAccepted()
    ensures NormalizeFreshnessAsWritten(LiteralPattern) == Some(LiteralPattern)
  {
    assert IsTrimmed(LiteralPattern) by { assert LiteralPattern[0] == '\\' && LiteralPattern[27] == 'd'; }
    TrimOfTrimmed(LiteralPattern);
    LowerOfLowered(LiteralPattern);
    assert !IsPeriod(LiteralPattern) by { assert |LiteralPattern| != 2; }
  }

  /** Text with no upper-case ASCII letter is its own lower case. */
  lemma LowerOfLowered(s: string)
    requires forall i :: 0 <= i < |s| ==> !('A' <= s[i] <= 'Z')
    ensures Lower(s) == s
  {
  }

  /** Lower-casing keeps text stripped. */
  lemma LowerKeepsTrimmed(s: string)
    requires IsTrimmed(s)
    ensures IsTrimmed(Lower(s))
  {
  }

  /** The corrected filter accepts every well-formed date range unchanged. */
  lemma DateRangeAccepted(v: string)
    requires IsDateRange(v)
    ensures NormalizeFreshness(v) == Some(v)
  {
    assert IsTrimmed(v) by { assert IsDigit(v[0]) && IsDigit(v[21]); }
    TrimOfTrimmed(v);
    forall i | 0 <= i < |v|
      ensures !('A' <= v[i] <= 'Z')
    {
      if i < 10 {
        assert DateAt(v, 0);
      } else if i >= 12 {
        assert DateAt(v, 12);
      }
    }
    LowerOfLowered(v);
  }

  /** For any matcher that refuses the empty text, a kept filter is kept
      again unchanged. */
  lemma NormalizeStable(value: string, matches: string -> bool)
    requires !matches("")
    ensures Normalize(value, matches).Some? ==>
      Normalize(Normalize(value, matches).value, matches) == Normalize(value, matches)
  {
    if Normalize(value, matches).Some? {
      var v := Lower(Trim(value));
      LowerKeepsTrimmed(Trim(value));
      TrimOfTrimmed(v);
      LowerIdempotent(Trim(value));
      assert v != "" by { assert IsPeriod(v) || matches(v); }
    }
  }

  /** A normalised filter normalises to itself, under the pattern as
      written and under the corrected one. */
  lemma NormalizeIdempotent(value: string)
    ensures NormalizeFreshnessAsWritten(value).Some? ==>
      NormalizeFreshnessAsWritten(NormalizeFreshnessAsWritten(value).value) == NormalizeFreshnessAsWritten(value)
    ensures NormalizeFreshness(value).Some? ==>
      NormalizeFreshness(NormalizeFreshness(value).value) == NormalizeFreshness(value)
  {
    assert !MatchesAsWritten("") by { assert |LiteralPattern| > 0; }
    NormalizeStable(value, MatchesAsWritten);
    NormalizeStable(value, IsDateRange);
  }

  lemma LowerIdempotent(s: string)
    ensures Lower(Lower(s)) == Lower(s)
  {
  }

  // ---------------------------------------------------------------------
  // The search

  /** The settings the search reads: `brave_api_key` and `brave_max_results`. */
  datatype Config = Config(apiKey: string, maxResults: int)

  /** The tool's arguments; an empty optional text stands for `None`. */
  datatype Args = Args(query: string, count: Option<int>, country: string, searchLang: string,
                       uiLang: string, freshness: string)

  /** The request sent; empty optional texts are left out of the query string. */
  datatype Request = Request(q: string, count: int, country: string, searchLang: string,
                             uiLang: string, freshness: Option<string>, token: string)

  /** One element of `web.results`; the texts are empty when missing or false. */
  datatype Entry = NotAnObject | Result(title: string, url: string, description: string)

  /** A reply: a transport failure, or a status with a reason and a decoded
      body, `Malformed` covering JSON that is invalid or not shaped as
      objects (both raise). */
  datatype Reply =
    | Failed(error: string)
    | Answer(status: int, reason: string, body: Body)

  datatype Body = Malformed(error: string) | Web(results: seq<Entry>)

  /** The key: the setting, else the `BRAVE_API_KEY` environment variable. */
  function ApiKey(cfg: Config, env: map<string, string>): (k: string)
    ensures cfg.apiKey != "" ==> k == cfg.apiKey
    ensures cfg.apiKey == "" && "BRAVE_API_KEY" in env ==> k == env["BRAVE_API_KEY"]
    ensures k == "" <==> cfg.apiKey == "" && ("BRAVE_API_KEY" !in env || env["BRAVE_API_KEY"] == "")
  {
    if cfg.apiKey != "" then cfg.apiKey
    else if "BRAVE_API_KEY" in env then env["BRAVE_API_KEY"]
    else ""
  }

  /** The result count: the argument, else `brave_max_results`, clamped to [1, 20]. */
  function Count(count: Option<int>, configured: int): (n: int)
    ensures 1 <= n <= 20
    ensures count.None? && 1 <= configured <= 20 ==> n == configured
    ensures count.Some? && 1 <= count.value <= 20 ==> n == count.value
  {
    var c := count.GetOr(configured);
    if c < 1 then 1 else if c > 20 then 20 else c
  }

  const NoKey := "Brave API key not configured."
  const EmptyQuery := "Query cannot be empty"
  const BadFreshness := "freshness must be one of pd, pw, pm, py, or a range like YYYY-MM-DDtoYYYY-MM-DD"

  /** The request the search makes, or the text it answers with instead.
      `matches` is the date-range test: `MatchesAsWritten` in the program,
      `IsDateRange` in the corrected search. */
  datatype Plan = Refuse(text: string) | Send(request: Request)

  function Prepare(cfg: Config, env: map<string, string>, a: Args, matches: string -> bool): (p: Plan)
    ensures ApiKey(cfg, env) == "" ==> p == Refuse(NoKey)
    ensures ApiKey(cfg, env) != "" && Trim(a.query) == "" ==> p == Refuse(Error(EmptyQuery))
    ensures a.freshness != "" && Normalize(a.freshness, matches).None? && ApiKey(cfg, env) != "" && Trim(a.query) != ""
      ==> p == Refuse(Error(BadFreshness))
    ensures p.Send? ==> && p.request.q == a.query
                        && 1 <= p.request.count <= 20
                        && p.request.count == Count(a.count, cfg.maxResults)
                        && p.request.token == ApiKey(cfg, env) != ""
                        && p.request.freshness == Normalize(a.freshness, matches)
                        && p.request.country == a.country
                        && p.request.searchLang == a.searchLang
                        && p.request.uiLang == a.uiLang
    ensures (&& ApiKey(cfg, env) != "" && Trim(a.query) != ""
             && (a.freshness == "" || Normalize(a.freshness, matches).Some?)) ==> p.Send?
  {
    var key := ApiKey(cfg, env);
    if key == "" then Refuse(NoKey)
    else if Trim(a.query) == "" then Refuse(Error(EmptyQuery))
    else
      var filter := if a.freshness != "" then Normalize(a.freshness, matches) else None;
      if a.freshness != "" && filter.None? then Refuse(Error(BadFreshness))
      else Send(Request(a.query, Count(a.count, cfg.maxResults), a.country, a.searchLang, a.uiLang, filter, key))
  }

  /** One line pair per listed result. */
  function EntryText(e: Entry): string
    requires e.Result?
  {
    "- " + (if e.title != "" then e.title else "(no title)") + ": " + e.url + "\n  " + e.description
  }

  predicate AllResults(entries: seq<Entry>) {
    forall i :: 0 <= i < |entries| ==> entries[i].Result?
  }

  function EntryTexts(entries: seq<Entry>): (r: seq<string>)
    requires AllResults(entries)
    ensures |r| == |entries|
    ensures forall i :: 0 <= i < |entries| ==> r[i] == EntryText(entries[i])
  {
    seq(|entries|, i requires 0 <= i < |entries| => EntryText(entries[i]))
  }

  /** The reply turned into the tool's answer: an error status or a body
      that is not as expected raises; otherwise the first `limit` results
      are listed, or `No results.`. */
  function Outcome(reply: Reply, limit: int): (r: Call)
    ensures reply.Failed? ==> r == Threw(reply.error)
    ensures reply.Answer? && 400 <= reply.status < 600 ==> r == Threw(reply.reason)
    ensures r.Answered? ==> r.text == "No results." || StartsWith(r.text, "- ")
  {
    match reply
    case Failed(error) => Threw(error)
    case Answer(status, reason, body) =>
      if 400 <= status < 600 then Threw(reason)
      else match body
        case Malformed(error) => Threw(error)
        case Web(results) =>
          var listed := PyPrefix(results, limit);
          if !AllResults(listed) then Threw("'entry' has no attribute 'get'")
          else if |listed| == 0 then Answered("No results.")
          else
            var texts := EntryTexts(listed);
            JoinStartsWithFirst(texts, "\n");
            assert Join(texts, "\n")[..2] == texts[0][..2] == "- ";
            Answered(Join(texts, "\n"))
  }

  /** `_brave_search_impl`, for a date-range test `matches`. Only a request
      made can raise, and a missing key is answered without one. */
  function Search(cfg: Config, env: map<string, string>, a: Args, matches: string -> bool,
                  fetch: (Request, nat) -> Reply): (r: Call)
    ensures ApiKey(cfg, env) == "" ==> r == Answered(NoKey)
    ensures r.Threw? ==> Prepare(cfg, env, a, matches).Send?
  {
    match Prepare(cfg, env, a, matches)
    case Refuse(text) => Answered(text)
    case Send(request) =>
      var first := fetch(request, 0);
      var reply := if first.Answer? && first.status == 429 then fetch(request, 1) else first;
      Outcome(reply, cfg.maxResults)
  }

  // ---------------------------------------------------------------------
  // Properties of a search

  /** The key is checked before the query, its message carries no `ERROR:`
      prefix, and nothing is fetched in either case. */
  lemma RefusedBeforeRequest(cfg: Config, env: map<string, string>, a: Args, matches: string -> bool,
                             fetch1: (Request, nat) -> Reply, fetch2: (Request, nat) -> Reply)
    requires ApiKey(cfg, env) == "" || Trim(a.query) == ""
      || (a.freshness != "" && Normalize(a.freshness, matches).None?)
    ensures Search(cfg, env, a, matches, fetch1) == Search(cfg, env, a, matches, fetch2)
    ensures ApiKey(cfg, env) == "" ==> Search(cfg, env, a, matches, fetch1) == Answered(NoKey) && !IsError(NoKey)
    ensures ApiKey(cfg, env) != "" ==> IsError(Search(cfg, env, a, matches, fetch1).text)
  {
    assert NoKey[0] == 'B';
    if ApiKey(cfg, env) != "" {
      if Trim(a.query) == "" {
        ErrorIsError(EmptyQuery);
      } else {
        ErrorIsError(BadFreshness);
      }
    }
  }

  /** The program's search answers a well-formed date range with the
      freshness error and makes no request, while the corrected search
      sends it as the filter. */
  lemma SearchRefusesDateRange(cfg: Config, env: map<string, string>, a: Args, fetch: (Request, nat) -> Reply)
    requires ApiKey(cfg, env) != "" && Trim(a.query) != ""
    requires a.freshness == "2024-01-01to2024-01-31"
    ensures Search(cfg, env, a, MatchesAsWritten, fetch) == Answered(Error(BadFreshness))
    ensures var p := Prepare(cfg, env, a, IsDateRange);
      p.Send? && p.request.freshness == Some(a.freshness)
  {
    AsWrittenRefusesDateRange();
    SampleIsDateRange();
    DateRangeAccepted(a.freshness);
  }

  /** The range used above has the `YYYY-MM-DDtoYYYY-MM-DD` form. */
  lemma SampleIsDateRange()
    ensures IsDateRange("2024-01-01to2024-01-31")
  {
    var v := "2024-01-01to2024-01-31";
    assert v[0] == '2' && v[1] == '0' && v[2] == '2' && v[3] == '4' && v[4] == '-';
    assert v[5] == '0' && v[6] == '1' && v[7] == '-' && v[8] == '0' && v[9] == '1';
    assert v[10] == 't' && v[11] == 'o';
    assert v[12] == '2' && v[13] == '0' && v[14] == '2' && v[15] == '4' && v[16] == '-';
    assert v[17] == '0' && v[18] == '1' && v[19] == '-' && v[20] == '3' && v[21] == '1';
  }

  /** A request is made with the clamped count and the normalised filter,
      and a 429 answer is followed by exactly one more attempt. */
  lemma RetriesOnce(cfg: Config, env: map<string, string>, a: Args, matches: string -> bool,
                    fetch: (Request, nat) -> Reply)
    requires Prepare(cfg, env, a, matches).Send?
    ensures var request := Prepare(cfg, env, a, matches).request;
      var first := fetch(request, 0);
      && (first.Answer? && first.status == 429 ==> Search(cfg, env, a, matches, fetch) == Outcome(fetch(request, 1), cfg.maxResults))
      && (!(first.Answer? && first.status == 429) ==> Search(cfg, env, a, matches, fetch) == Outcome(first, cfg.maxResults))
  {
  }

  /** The listing holds one entry per result up to `brave_max_results`, the
      setting and not the requested count, and says `No results.` when
      there is none to show. */
  lemma ListingLength(status: int, reason: string, results: seq<Entry>, limit: int)
    requires !(400 <= status < 600) && AllResults(results)
    ensures var o := Outcome(Answer(status, reason, Web(results)), limit);
      var shown := if limit < 0 then (if -limit < |results| then |results| + limit else 0)
                   else if limit < |results| then limit else |results|;
      && o.Answered?
      && (shown == 0 <==> o.text == "No results.")
      && (shown > 0 ==> o.text == Join(EntryTexts(results[..shown]), "\n"))
  {
    var shown := if limit < 0 then (if -limit < |results| then |results| + limit else 0)
                 else if limit < |results| then limit else |results|;
    var listed := PyPrefix(results, limit);
    assert listed == results[..shown];
    assert AllResults(listed) by {
      forall i | 0 <= i < |listed| ensures listed[i].Result? {
        assert listed[i] == results[i];
      }
    }
    if shown > 0 {
      var texts := EntryTexts(listed);
      JoinStartsWithFirst(texts, "\n");
      assert Join(texts, "\n")[0] == '-';
    }
  }
}

=== FILE: duckduckgo_search.dfy ===
/** DuckDuckGo HTML search: the result-extraction state machine driven by
    the parser's start-tag, end-tag and text events, the link prefixing,
    and the search around them. The HTTP exchange is the parameter `fetch`
    (from the query and the User-Agent to the reply), and reading the
    `uddg` redirect parameter out of a link is the parameter `uddg`. */
module DuckDuckGoSearch {
  import opened Wrappers
  import opened Strings

  /** A tag's attributes in document order; an attribute written without a
      value is given the empty text. */
  type Attrs = seq<(string, string)>

  /** `dict(attrs).get(name, "")`: the last value given for `name`. */
  function Get(attrs: Attrs, name: string): string {
    if |attrs| == 0 then ""
    else if attrs[|attrs| - 1].0 == name then attrs[|attrs| - 1].1
    else Get(attrs[..|attrs| - 1], name)
  }

  /** `_has_class`: the class is one of the attribute's whitespace-separated
      tokens; a missing or empty attribute has none. */
  predicate HasClass(attrs: Attrs, className: string): (b: bool)
    ensures b ==> Get(attrs, "class") != "" && |className| > 0 && NoSpace(className)
  {
    var raw := Get(attrs, "class");
    raw != "" && className in Words(raw)
  }

  /** `_has_class` is token membership: when the attribute is the
      space-separated list `tokens` of class names, a name matches exactly
      when it is one of those tokens. */
  lemma HasClassSpec(attrs: Attrs, tokens: seq<string>, className: string)
    requires forall i :: 0 <= i < |tokens| ==> |tokens[i]| > 0 && NoSpace(tokens[i])
    ensures Get(attrs, "class") == Join(tokens, " ") ==> (HasClass(attrs, className) <==> className in tokens)
  {
    if Get(attrs, "class") == Join(tokens, " ") {
      WordsOfJoin(tokens);
      if |tokens| > 0 {
        JoinStartsWithFirst(tokens, " ");
      }
    }
  }

  // ---------------------------------------------------------------------
  // Links

  /** The prefix step of `_normalize_duckduckgo_url`: a protocol-relative
      link gets `https:`, a site-relative one the DuckDuckGo origin. */
  function Absolute(url: string): (r: string)
    ensures url == "" ==> r == ""
    ensures StartsWith(url, "//") ==> r == "https:" + url
    ensures StartsWith(url, "/") && !StartsWith(url, "//") ==> r == "https://duckduckgo.com" + url
    ensures !StartsWith(url, "/") ==> r == url
  {
    if url == "" then url
    else
      var u := if StartsWith(url, "//") then "https:" + url else url;
      assert StartsWith(url, "//") ==> u[0] == 'h';
      if StartsWith(u, "/") then "https://duckduckgo.com" + u else u
  }

  /** Prefixing leaves no relative link behind, so a second pass changes nothing. */
  lemma AbsoluteIdempotent(url: string)
    ensures !StartsWith(Absolute(url), "/")
    ensures Absolute(Absolute(url)) == Absolute(url)
  {
    if url != "" {
      if StartsWith(url, "//") {
        assert Absolute(url)[0] == 'h';
      } else if StartsWith(url, "/") {
        assert Absolute(url)[0] == 'h';
      } else {
        assert Absolute(url)[0] == url[0];
      }
    }
  }

  /** `_normalize_duckduckgo_url`: empty stays empty; otherwise the prefixed
      link, or the target `uddg` finds in its query string. */
  function NormalizeUrl(url: string, uddg: string -> Option<string>): (r: string)
    ensures url == "" ==> r == ""
    ensures url != "" && uddg(Absolute(url)).Some? ==> r == uddg(Absolute(url)).value
    ensures url != "" && uddg(Absolute(url)).None? ==> r == Absolute(url) && !StartsWith(r, "/")
  {
    if url == "" then url
    else
      var u := Absolute(url);
      AbsoluteIdempotent(url);
      match uddg(u)
      case Some(target) => target
      case None => u
  }

  // ---------------------------------------------------------------------
  // The parser

  datatype Found = Found(title: string, url: string)

  /** `_DuckDuckGoHTMLParser`'s fields. */
  datatype Parser = Parser(results: seq<Found>, title: string, url: string,
                           inResult: bool, inTitle: bool, depth: int)

  const Initial := Parser([], "", "", false, false, 0)

  datatype Event = StartTag(tag: string, attrs: Attrs) | EndTag(tag: string) | Data(text: string)

  /** `handle_starttag`: a `result__body` div opens a fresh result at depth
      one (even inside another one); any other div inside a result deepens
      it; a `result__a` link inside a result starts the title and records its
      `href`. Nothing else changes the parser, and no result is emitted. */
  function OnStart(p: Parser, tag: string, attrs: Attrs): (r: Parser)
    ensures r.results == p.results
    ensures Valid(p) ==> Valid(r)
    ensures tag != "div" && tag != "a" ==> r == p
    ensures tag == "div" && HasClass(attrs, "result__body") ==>
      r == p.(inResult := true, title := "", url := "", depth := 1)
    ensures tag == "div" && !HasClass(attrs, "result__body") && p.inResult ==>
      r == p.(depth := p.depth + 1)
    ensures tag == "div" && !HasClass(attrs, "result__body") && !p.inResult ==> r == p
    ensures tag == "a" && p.inResult && HasClass(attrs, "result__a") ==>
      r == p.(inTitle := true, url := Get(attrs, "href"))
    ensures tag == "a" && !(p.inResult && HasClass(attrs, "result__a")) ==> r == p
    ensures r.inResult && !p.inResult ==> tag == "div" && r.depth == 1 && r.title == ""
  {
    var p1 :=
      if tag == "div" && HasClass(attrs, "result__body") then p.(inResult := true, title := "", url := "", depth := 1)
      else if p.inResult && tag == "div" then p.(depth := p.depth + 1)
      else p;
    if p1.inResult && tag == "a" && HasClass(attrs, "result__a") then p1.(inTitle := true, url := Get(attrs, "href"))
    else p1
  }

  /** `handle_endtag`: a closing link ends the title; a closing div inside a
      result leaves one level, and closing the outermost one leaves the
      result, emits it when both title and link are non-empty, and clears
      them. */
  function OnEnd(p: Parser, tag: string, uddg: string -> Option<string>): (r: Parser)
    ensures p.results <= r.results && |r.results| <= |p.results| + 1
    ensures |r.results| > |p.results| ==>
      && tag == "div" && p.inResult && p.depth <= 1
      && r.results[|p.results|] == Found(Trim(p.title), NormalizeUrl(p.url, uddg))
    ensures tag != "div" && tag != "a" ==> r == p
    ensures tag == "a" ==> r == p.(inTitle := false)
    ensures tag == "div" && !p.inResult ==> r == p
    ensures tag == "div" && p.inResult && p.depth > 1 ==> r == p.(depth := p.depth - 1)
    ensures tag == "div" && p.inResult && p.depth <= 1 ==>
      && r.(results := p.results) == p.(inResult := false, title := "", url := "", depth := 0)
      && (|r.results| > |p.results| <==> p.title != "" && p.url != "")
    ensures Valid(p) ==> Valid(r)
  {
    var p1 := if tag == "a" && p.inTitle then p.(inTitle := false) else p;
    if tag == "div" && p1.inResult then
      if p1.depth - 1 <= 0 then
        var results := if p1.title != "" && p1.url != ""
          then p1.results + [Found(Trim(p1.title), NormalizeUrl(p1.url, uddg))]
          else p1.results;
        assert forall i :: 0 <= i < |p1.results| ==> results[i] == p1.results[i];
        p1.(results := results, inResult := false, title := "", url := "", depth := 0)
      else p1.(depth := p1.depth - 1)
    else p1
  }

  /** `handle_data`: only the title text can grow. */
  function OnData(p: Parser, text: string): (r: Parser)
    ensures r.(title := p.title) == p
    ensures p.title <= r.title
    ensures !p.inTitle ==> r == p
  {
    if p.inTitle && text != "" then p.(title := p.title + text) else p
  }

  /** One event keeps the parser valid and only ever appends results, at
      most one, and only on the end tag of a result's outermost `div`. */
  function Step(p: Parser, e: Event, uddg: string -> Option<string>): (r: Parser)
    ensures p.results <= r.results && |r.results| <= |p.results| + 1
    ensures Valid(p) ==> Valid(r)
    ensures Valid(p) && |r.results| > |p.results| ==> e == EndTag("div") && p.inResult && p.depth == 1
  {
    match e
    case StartTag(tag, attrs) => OnStart(p, tag, attrs)
    case EndTag(tag) => OnEnd(p, tag, uddg)
    case Data(text) => OnData(p, text)
  }

  /** `parser.feed`: the events in document order. Results once found are
      never lost or reordered, and each event adds at most one. */
  function Feed(p: Parser, events: seq<Event>, uddg: string -> Option<string>): (r: Parser)
    ensures p.results <= r.results && |r.results| <= |p.results| + |events|
  {
    if |events| == 0 then p
    else Step(Feed(p, events[..|events| - 1], uddg), events[|events| - 1], uddg)
  }

  /** Inside a result the depth counts its open `div`s; outside it is zero.
      Every emitted title is stripped. */
  predicate Valid(p: Parser) {
    && (p.inResult ==> p.depth >= 1)
    && (!p.inResult ==> p.depth == 0)
    && (forall i :: 0 <= i < |p.results| ==> IsTrimmed(p.results[i].title))
  }

  /** Feeding keeps the parser valid, and results once found are never lost
      or reordered. */
  lemma {:induction false} FeedValid(p: Parser, events: seq<Event>, uddg: string -> Option<string>)
    requires Valid(p)
    ensures Valid(Feed(p, events, uddg))
    ensures p.results <= Feed(p, events, uddg).results
    ensures |Feed(p, events, uddg).results| <= |p.results| + |events|
  {
    if |events| > 0 {
      var init := events[..|events| - 1];
      FeedValid(p, init, uddg);
    }
  }

  /** Text reaches the title only while inside a result link. */
  lemma DataOnlyInTitle(p: Parser, text: string)
    ensures !p.inTitle ==> OnData(p, text) == p
    ensures p.inTitle ==> OnData(p, text) == p.(title := p.title + text)
  {
  }

  lemma FeedSnoc(p: Parser, events: seq<Event>, e: Event, uddg: string -> Option<string>)
    ensures Feed(p, events + [e], uddg) == Step(Feed(p, events, uddg), e, uddg)
  {
    assert (events + [e])[..|events|] == events;
  }

  /** A div carrying the `result__body` class opens a fresh result; a
      link carrying `result__a` inside it starts the title and takes the
      link's `href`. */
  lemma OpenResult(p: Parser, bodyAttrs: Attrs, linkAttrs: Attrs)
    requires HasClass(bodyAttrs, "result__body") && HasClass(linkAttrs, "result__a")
    ensures OnStart(p, "div", bodyAttrs) == p.(inResult := true, title := "", url := "", depth := 1)
    ensures var q := p.(inResult := true, title := "", url := "", depth := 1);
      OnStart(q, "a", linkAttrs) == q.(inTitle := true, url := Get(linkAttrs, "href"))
  {
  }

  /** A result block with a linked, non-empty title yields exactly that
      result, title stripped and link normalised, and leaves the result
      state cleared. */
  lemma OneResult(p: Parser, bodyAttrs: Attrs, linkAttrs: Attrs, text: string, uddg: string -> Option<string>)
    requires Valid(p) && !p.inResult && !p.inTitle
    requires HasClass(bodyAttrs, "result__body") && HasClass(linkAttrs, "result__a")
    requires Get(linkAttrs, "href") != "" && text != ""
    ensures var events := [StartTag("div", bodyAttrs), StartTag("a", linkAttrs),
                           Data(text), EndTag("a"), EndTag("div")];
      var q := Feed(p, events, uddg);
      && q.results == p.results + [Found(Trim(text), NormalizeUrl(Get(linkAttrs, "href"), uddg))]
      && !q.inResult && !q.inTitle && q.title == "" && q.url == "" && q.depth == 0
  {
    ResultSteps(p, bodyAttrs, linkAttrs, text, uddg);
    Feed5(p, StartTag("div", bodyAttrs), StartTag("a", linkAttrs), Data(text), EndTag("a"), EndTag("div"), uddg);
  }

  lemma Feed5(p: Parser, e1: Event, e2: Event, e3: Event, e4: Event, e5: Event, uddg: string -> Option<string>)
    ensures Feed(p, [e1, e2, e3, e4, e5], uddg)
      == Step(Step(Step(Step(Step(p, e1, uddg), e2, uddg), e3, uddg), e4, uddg), e5, uddg)
  {
    var s1 := [e1];
    var s2 := s1 + [e2];
    var s3 := s2 + [e3];
    var s4 := s3 + [e4];
    FeedSnoc(p, [], e1, uddg);
    assert s1 == [] + [e1];
    FeedSnoc(p, s1, e2, uddg);
    FeedSnoc(p, s2, e3, uddg);
    FeedSnoc(p, s3, e4, uddg);
    FeedSnoc(p, s4, e5, uddg);
    assert s4 + [e5] == [e1, e2, e3, e4, e5];
  }

  lemma ResultSteps(p: Parser, bodyAttrs: Attrs, linkAttrs: Attrs, text: string, uddg: string -> Option<string>)
    requires !p.inResult && !p.inTitle
    requires HasClass(bodyAttrs, "result__body") && HasClass(linkAttrs, "result__a")
    requires Get(linkAttrs, "href") != "" && text != ""
    ensures var p2 := OnStart(OnStart(p, "div", bodyAttrs), "a", linkAttrs);
      var q := OnEnd(OnEnd(OnData(p2, text), "a", uddg), "div", uddg);
      && q.results == p.results + [Found(Trim(text), NormalizeUrl(Get(linkAttrs, "href"), uddg))]
      && !q.inResult && !q.inTitle && q.title == "" && q.url == "" && q.depth == 0
  {
    OpenResult(p, bodyAttrs, linkAttrs);
    var p1 := p.(inResult := true, title := "", url := "", depth := 1);
    var p2 := p1.(inTitle := true, url := Get(linkAttrs, "href"));
    var p3 := p2.(title := text);
    assert OnData(p2, text) == p3;
    var p4 := p3.(inTitle := false);
    assert OnEnd(p3, "a", uddg) == p4;
  }

  /** The markup DuckDuckGo serves: the body div carries several classes
      (`links_main links_deep result__body`) and the link has a `rel`
      before its class and `href`. Such a block yields its one result. */
  lemma ServedResult(p: Parser, href: string, text: string, uddg: string -> Option<string>)
    requires Valid(p) && !p.inResult && !p.inTitle
    requires href != "" && text != ""
    ensures var events := [StartTag("div", [("class", "links_main links_deep result__body")]),
                           StartTag("a", [("rel", "nofollow"), ("class", "result__a"), ("href", href)]),
                           Data(text), EndTag("a"), EndTag("div")];
      var q := Feed(p, events, uddg);
      && q.results == p.results + [Found(Trim(text), NormalizeUrl(href, uddg))]
      && !q.inResult && !q.inTitle && q.title == "" && q.url == "" && q.depth == 0
  {
    var bodyAttrs: Attrs := [("class", "links_main links_deep result__body")];
    var linkAttrs: Attrs := [("rel", "nofollow"), ("class", "result__a"), ("href", href)];
    ServedBody();
    ServedLink(href);
    OneResult(p, bodyAttrs, linkAttrs, text, uddg);
  }

  lemma ServedBody()
    ensures HasClass([("class", "links_main links_deep result__body")], "result__body")
  {
    var tokens := ServedTokens();
    HasClassSpec([("class", "links_main links_deep result__body")], tokens, "result__body");
  }

  /** The body div's class attribute as its list of tokens. */
  lemma ServedTokens() returns (tokens: seq<string>)
    ensures forall i :: 0 <= i < |tokens| ==> |tokens[i]| > 0 && NoSpace(tokens[i])
    ensures Join(tokens, " ") == "links_main links_deep result__body" && "result__body" in tokens
  {
    tokens := ["links_main", "links_deep", "result__body"];
    assert NoSpace("links_main") && NoSpace("links_deep") && NoSpace("result__body");
    ServedJoin();
  }

  lemma ServedJoin()
    ensures Join(["links_main", "links_deep", "result__body"], " ") == "links_main links_deep result__body"
  {
    var tokens := ["links_main", "links_deep", "result__body"];
    JoinCons(tokens, " ");
    JoinCons(tokens[1..], " ");
    assert tokens[1..][1..] == ["result__body"];
  }

  lemma ServedLink(href: string)
    ensures var linkAttrs: Attrs := [("rel", "nofollow"), ("class", "result__a"), ("href", href)];
      HasClass(linkAttrs, "result__a") && Get(linkAttrs, "href") == href
  {
    var linkAttrs: Attrs := [("rel", "nofollow"), ("class", "result__a"), ("href", href)];
    assert "href" != "class" by { assert "href"[0] != "class"[0]; }
    assert Get(linkAttrs, "href") == href;
    var front := linkAttrs[..2];
    assert front[1] == ("class", "result__a");
    assert Get(linkAttrs, "class") == Get(front, "class") == "result__a";
    assert NoSpace("result__a");
    assert Join(["result__a"], " ") == "result__a";
    HasClassSpec(linkAttrs, ["result__a"], "result__a");
  }

  // ---------------------------------------------------------------------
  // The search

  const DefaultAgent := "Mozilla/5.0 (Macintosh; Intel Mac OS X 10_15_7) AppleWebKit/605.1.15 (KHTML, like Gecko) Version/17.3 Safari/605.1.15"
  const RetryAgent := "Mozilla/5.0 (Windows NT 10.0; Win64; x64) AppleWebKit/537.36 (KHTML, like Gecko) Chrome/120.0.0.0 Safari/537.36"

  /** A reply: a timeout, a failed connection, or a status with the page's
      parser events. */
  datatype Reply = TimedOut | ConnectFailed | Status(code: int, page: seq<Event>)

  /** `duckduckgo_max_results` clamped to [1, 20]. */
  function MaxResults(configured: int): (n: int)
    ensures 1 <= n <= 20
    ensures 1 <= configured <= 20 ==> n == configured
  {
    if configured < 1 then 1 else if configured > 20 then 20 else configured
  }

  /** One attempt: the error text, or the first `limit` results found. */
  datatype Attempt = Refused(text: string) | Parsed(results: seq<Found>)

  const Blocked := "DuckDuckGo returned HTTP 202 (likely blocked). Try different network/user_agent."

  function Try(reply: Reply, limit: nat, uddg: string -> Option<string>): (a: Attempt)
    ensures a.Parsed? ==> |a.results| <= limit
    ensures a.Refused? ==> IsError(a.text) && !IsSuccess(a.text)
  {
    match reply
    case TimedOut => ErrorIsError("DuckDuckGo search timed out"); Refused(Error("DuckDuckGo search timed out"))
    case ConnectFailed => ErrorIsError("Failed to connect to DuckDuckGo"); Refused(Error("Failed to connect to DuckDuckGo"))
    case Status(code, page) =>
      if code == 202 then ErrorIsError(Blocked); Refused(Error(Blocked))
      else if 400 <= code < 600 then
        ErrorIsError("DuckDuckGo returned HTTP " + IntToString(code));
        Refused(Error("DuckDuckGo returned HTTP " + IntToString(code)))
      else Parsed(PyPrefix(Feed(Initial, page, uddg).results, limit))
  }

  function ResultLines(results: seq<Found>): (r: seq<string>)
    ensures |r| == |results|
    ensures forall i :: 0 <= i < |results| ==>
      r[i] == NatToString(i + 1) + ". " + results[i].title + " - " + results[i].url
  {
    seq(|results|, i requires 0 <= i < |results| =>
      NatToString(i + 1) + ". " + results[i].title + " - " + results[i].url)
  }

  /** The answer for the results of the last attempt: a `SUCCESS:` answer
      whether or not anything was found; with results, a header line naming
      the query and the count, then one numbered line per result. */
  function Report(query: string, results: seq<Found>): (r: string)
    ensures IsSuccess(r) && !IsError(r)
    ensures |results| == 0 ==>
      r == Success("No DuckDuckGo results found for '" + query + "'. Try a different user_agent.")
    ensures |results| > 0 ==>
      r == Success("DuckDuckGo results for '" + query + "' (top " + NatToString(|results|) + "):")
           + "\n" + Join(ResultLines(results), "\n")
  {
    if |results| == 0 then
      var message := "No DuckDuckGo results found for '" + query + "'. Try a different user_agent.";
      SuccessIsSuccess(message);
      MarkedOneWay(Success(message));
      Success(message)
    else
      var message := "DuckDuckGo results for '" + query + "' (top " + NatToString(|results|) + "):";
      var lines := [Success(message)] + ResultLines(results);
      JoinedSuccess(lines, message);
      MarkedOneWay(Join(lines, "\n"));
      assert lines[1..] == ResultLines(results);
      Join(lines, "\n")
  }

  /** `_duckduckgo_search_impl`; `userAgent` is empty when not given. An
      empty first answer with the default agent is retried once with the
      other agent. */
  function Search(configured: int, query: string, userAgent: string,
                  fetch: (string, string) -> Reply, uddg: string -> Option<string>): (r: string)
    ensures Trim(query) == "" ==> r == Error("Query cannot be empty")
    ensures IsSuccess(r) != IsError(r)
  {
    ErrorIsError("Query cannot be empty");
    if Trim(query) == "" then Error("Query cannot be empty")
    else
      var limit := MaxResults(configured);
      var agent := if userAgent != "" then userAgent else DefaultAgent;
      match Try(fetch(query, agent), limit, uddg)
      case Refused(text) => text
      case Parsed(results) =>
        if |results| == 0 && agent == DefaultAgent then
          match Try(fetch(query, RetryAgent), limit, uddg)
          case Refused(text) => text
          case Parsed(again) => Report(query, again)
        else Report(query, results)
  }

  // ---------------------------------------------------------------------
  // Properties of a search

  /** A blank query is refused before any request. */
  lemma BlankQueryRefused(configured: int, query: string, userAgent: string,
                          fetch1: (string, string) -> Reply, fetch2: (string, string) -> Reply,
                          uddg: string -> Option<string>)
    requires Trim(query) == ""
    ensures Search(configured, query, userAgent, fetch1, uddg) == Search(configured, query, userAgent, fetch2, uddg)
    ensures IsError(Search(configured, query, userAgent, fetch1, uddg))
  {
    ErrorIsError("Query cannot be empty");
  }

  /** Text whose first line is a success line is a success. */
  lemma JoinedSuccess(lines: seq<string>, message: string)
    requires |lines| > 0 && lines[0] == Success(message)
    ensures IsSuccess(Join(lines, "\n"))
  {
    JoinStartsWithFirst(lines, "\n");
    SuccessIsSuccess(message);
    assert Join(lines, "\n")[..8] == lines[0][..8];
  }

  /** The second request is made only when the first parsed to nothing under
      the default agent, and then with the other agent. */
  lemma RetryRule(configured: int, query: string, userAgent: string,
                  fetch: (string, string) -> Reply, uddg: string -> Option<string>)
    requires Trim(query) != ""
    ensures var limit := MaxResults(configured);
      var agent := if userAgent != "" then userAgent else DefaultAgent;
      var first := Try(fetch(query, agent), limit, uddg);
      && (first.Parsed? && |first.results| > 0 ==> Search(configured, query, userAgent, fetch, uddg) == Report(query, first.results))
      && (first.Parsed? && |first.results| == 0 && agent != DefaultAgent ==> Search(configured, query, userAgent, fetch, uddg) == Report(query, []))
      && (first.Parsed? && |first.results| == 0 && agent == DefaultAgent ==>
            var second := Try(fetch(query, RetryAgent), limit, uddg);
            Search(configured, query, userAgent, fetch, uddg) == (if second.Refused? then second.text else Report(query, second.results)))
  {
  }

  /** No more results are listed than the clamped maximum. */
  lemma AtMostMax(reply: Reply, configured: int, uddg: string -> Option<string>)
    ensures var a := Try(reply, MaxResults(configured), uddg);
      a.Parsed? ==> |a.results| <= MaxResults(configured) <= 20
  {
  }
}

=== FILE: formatting.dfy ===
/** Output shaping shared by the tools: truncation with a notice, redaction
    of inputs that mention secrets, and the step log of an agent run. */
module Formatting {
  import opened Wrappers
  import opened Strings

  /** The notice `_truncate` appends, naming the limit. */
  function Notice(limit: int): string {
    "\n[the output was truncated, exceeded limit of " + IntToString(limit)
      + " chars. You probably want to rerun the command with a grep/jq or similar pipe to extract the data you are looking for]"
  }

  /** `_truncate`: text within the limit is returned as is; longer text is
      cut to `text[:limit]` (a negative limit counts from the end, as in
      Python) and followed by the notice. */
  function Truncate(text: string, limit: int): (r: string)
    ensures |text| <= limit ==> r == text
    ensures 0 <= limit < |text| ==>
      |r| == limit + |Notice(limit)| && r[..limit] == text[..limit] && r[limit..] == Notice(limit)
    ensures limit < 0 ==> r == PyPrefix(text, limit) + Notice(limit)
  {
    if |text| <= limit then text else PyPrefix(text, limit) + Notice(limit)
  }

  /** Text over a non-negative limit is its first `limit` characters and
      then the notice. */
  lemma TruncateCut(text: string, limit: int)
    ensures 0 <= limit < |text| ==> Truncate(text, limit) == text[..limit] + Notice(limit)
  {
    if 0 <= limit < |text| {
      var r := Truncate(text, limit);
      assert r == r[..limit] + r[limit..];
    }
  }

  /** The notice is never empty, so truncating leaves non-empty text
      non-empty. */
  lemma TruncateNonEmpty(text: string, limit: int)
    requires text != ""
    ensures Truncate(text, limit) != ""
  {
    var prefix := "\n[the output was truncated, exceeded limit of ";
    assert |prefix| > 0;
    assert Notice(limit)[..|prefix|] == prefix;
  }

  /** `r` is a prefix of `text` followed by the notice for `limit`. */
  predicate NoticeAfterPrefix(r: string, text: string, limit: int) {
    EndsWith(r, Notice(limit)) && r[..|r| - |Notice(limit)|] <= text
  }

  /** A truncated result is the input itself, or a prefix of the input
      followed by the notice. */
  lemma TruncateShape(text: string, limit: int)
    ensures var r := Truncate(text, limit);
      r == text || NoticeAfterPrefix(r, text, limit)
  {
    if |text| > limit {
      var kept := PyPrefix(text, limit);
      var notice := Notice(limit);
      var r := kept + notice;
      assert Truncate(text, limit) == r;
      assert r[..|r| - |notice|] == kept;
      assert r[|r| - |notice|..] == notice;
    }
  }

  // ---------------------------------------------------------------------
  // Redaction

  const Redacted: string := "[redacted]"

  /** The keywords of `redact_sensitive`, looked for in the lower-cased text. */
  predicate MentionsSecret(lowered: string) {
    || Contains(lowered, "api_key")
    || Contains(lowered, "token")
    || Contains(lowered, "secret")
    || Contains(lowered, "password")
  }

  /** `redact_sensitive`. The final `textwrap.shorten` call is the parameter
      `shorten`. */
  function Redact(text: string, shorten: string -> string): (r: string)
    ensures text == "" ==> r == ""
    ensures text != "" && MentionsSecret(Lower(text)) ==> r == Redacted
    ensures text != "" && !MentionsSecret(Lower(text)) ==> r == shorten(text)
  {
    if text == "" then text
    else if MentionsSecret(Lower(text)) then Redacted
    else shorten(text)
  }

  /** Non-empty text is replaced by the redaction marker exactly when it
      mentions a secret, unless shortening itself happens to yield the marker. */
  lemma RedactIff(text: string, shorten: string -> string)
    requires text != "" && shorten(text) != Redacted
    ensures Redact(text, shorten) == Redacted <==> MentionsSecret(Lower(text))
  {
  }

  // ---------------------------------------------------------------------
  // The step log

  /** One agent step: the action's `tool` (absent means "tool") and input. */
  datatype ToolStep = ToolStep(tool: Option<string>, input: string)

  /** The options of `format_tool_steps`. */
  datatype StepFormat = StepFormat(maxChars: int, maxTurns: int, notifyEvery: int, shorten: string -> string)

  function ToolOf(s: ToolStep): string {
    match s.tool
    case Some(t) => t
    case None => "tool"
  }

  /** Text put after a head starts with that head, and dropping the head
      gives the text back. */
  lemma HeadThenRest(head: string, rest: string)
    ensures StartsWith(head + rest, head) && (head + rest)[|head|..] == rest
  {
    assert (head + rest)[..|head|] == head;
  }

  /** `- {tool}: {input}`, the input redacted and then truncated: after the
      head comes the redacted input when it fits, else its first `max_chars`
      characters and the notice; an input that mentions a secret shows only
      the marker when that fits. */
  function StepLine(s: ToolStep, f: StepFormat): (r: string)
    ensures var head := "- " + ToolOf(s) + ": ";
      var shown := Redact(s.input, f.shorten);
      && StartsWith(r, head)
      && var rest := r[|head|..];
         && (rest == shown || NoticeAfterPrefix(rest, shown, f.maxChars))
         && (|shown| <= f.maxChars ==> rest == shown)
         && (0 <= f.maxChars < |shown| ==> rest == shown[..f.maxChars] + Notice(f.maxChars))
    ensures s.input != "" && MentionsSecret(Lower(s.input)) && |Redacted| <= f.maxChars ==>
      r == "- " + ToolOf(s) + ": " + Redacted
  {
    var head := "- " + ToolOf(s) + ": ";
    var shown := Redact(s.input, f.shorten);
    TruncateShape(shown, f.maxChars);
    TruncateCut(shown, f.maxChars);
    var cut := Truncate(shown, f.maxChars);
    HeadThenRest(head, cut);
    head + cut
  }

  /** Step number `idx` (from 1) is followed by a turns-remaining line. */
  predicate Checkpoint(idx: nat, f: StepFormat) {
    f.notifyEvery != 0 && f.maxTurns != 0 && idx % f.notifyEvery == 0
  }

  /** `max(max_turns - idx, 0)`: the turns left, never negative. */
  function Remaining(idx: nat, maxTurns: int): (n: nat)
    ensures n == 0 || n == maxTurns - idx
    ensures n >= maxTurns - idx
  {
    if maxTurns - idx > 0 then maxTurns - idx else 0
  }

  function TurnsLine(idx: nat, f: StepFormat): string {
    "- turns-remaining: " + NatToString(Remaining(idx, f.maxTurns))
      + " (used " + NatToString(idx) + "/" + IntToString(f.maxTurns) + ")"
  }

  /** The lines of step number `idx`. */
  function Block(idx: nat, s: ToolStep, f: StepFormat): seq<string> {
    [StepLine(s, f)] + (if Checkpoint(idx, f) then [TurnsLine(idx, f)] else [])
  }

  /** The first line of two joined line lists. */
  lemma FirstOfConcat(a: seq<string>, b: seq<string>)
    requires |b| > 0
    ensures (a + b)[0] == if |a| > 0 then a[0] else b[0]
  {
  }

  /** The lines of all steps, in order: one line per step plus one per
      checkpoint, starting with the first step's line. */
  function StepLines(steps: seq<ToolStep>, f: StepFormat): (r: seq<string>)
    ensures |r| == |steps| + Checkpoints(|steps|, f)
    ensures |steps| > 0 ==> r[0] == StepLine(steps[0], f)
  {
    if |steps| == 0 then []
    else
      var init := steps[..|steps| - 1];
      assert |init| > 0 ==> init[0] == steps[0];
      assert |init| == 0 ==> steps[|steps| - 1] == steps[0];
      FirstOfConcat(StepLines(init, f), Block(|steps|, steps[|steps| - 1], f));
      StepLines(init, f) + Block(|steps|, steps[|steps| - 1], f)
  }

  /** `format_tool_steps`. */
  function FormatToolSteps(steps: seq<ToolStep>, f: StepFormat): (r: string)
    ensures |steps| == 0 ==> r == ""
  {
    Join(StepLines(steps, f), "\n")
  }

  /** The number of checkpoints among the step numbers `1..n`. */
  function Checkpoints(n: nat, f: StepFormat): nat {
    if n == 0 then 0 else Checkpoints(n - 1, f) + (if Checkpoint(n, f) then 1 else 0)
  }

  /** The log of the first `k` steps is a prefix of the whole log. */
  lemma {:induction false} StepLinesPrefix(steps: seq<ToolStep>, f: StepFormat, k: nat)
    requires k <= |steps|
    ensures StepLines(steps[..k], f) <= StepLines(steps, f)
    decreases |steps|
  {
    if k < |steps| {
      var init := steps[..|steps| - 1];
      assert init[..k] == steps[..k];
      StepLinesPrefix(init, f, k);
    } else {
      assert steps[..k] == steps;
    }
  }

  /** The lines of step `k + 1` come right after those of the first `k`
      steps: its step line, then a turns line exactly at a checkpoint. */
  lemma StepLinesAt(steps: seq<ToolStep>, f: StepFormat, k: nat)
    requires k < |steps|
    ensures var before := StepLines(steps[..k], f);
      var all := StepLines(steps, f);
      && |before| < |all|
      && all[..|before|] == before
      && all[|before|] == StepLine(steps[k], f)
      && (Checkpoint(k + 1, f) ==> |before| + 1 < |all| && all[|before| + 1] == TurnsLine(k + 1, f))
  {
    StepLinesSnoc(steps, f, k);
    StepLinesPrefix(steps, f, k + 1);
    LinesThen(StepLines(steps[..k], f), Block(k + 1, steps[k], f), StepLines(steps, f));
  }

  /** The log of the first `k + 1` steps is that of the first `k` and then
      the block of step `k + 1`. */
  lemma StepLinesSnoc(steps: seq<ToolStep>, f: StepFormat, k: nat)
    requires k < |steps|
    ensures StepLines(steps[..k + 1], f) == StepLines(steps[..k], f) + Block(k + 1, steps[k], f)
  {
    var upto := steps[..k + 1];
    assert upto[..k] == steps[..k];
    assert upto[k] == steps[k];
  }

  /** What a sequence that extends `before + block` holds right after `before`. */
  lemma LinesThen(before: seq<string>, block: seq<string>, all: seq<string>)
    requires before + block <= all && |block| > 0
    ensures |before| < |all| && all[..|before|] == before && all[|before|] == block[0]
    ensures |block| > 1 ==> |before| + 1 < |all| && all[|before| + 1] == block[1]
  {
    assert all[|before|] == (before + block)[|before|];
    assert |block| > 1 ==> all[|before| + 1] == (before + block)[|before| + 1];
  }

  /** Stepping a number up by one adds one to its quotient exactly at a multiple. */
  lemma DivStep(n: nat, d: nat)
    requires n > 0 && d > 0
    ensures n / d == (n - 1) / d + (if n % d == 0 then 1 else 0)
  {
    var q, r := (n - 1) / d, (n - 1) % d;
    assert n - 1 == q * d + r && 0 <= r < d;
    if r == d - 1 {
      assert n == (q + 1) * d;
      DivUnique(n, d, q + 1, 0);
    } else {
      assert n == q * d + (r + 1);
      DivUnique(n, d, q, r + 1);
    }
  }

  lemma DivUnique(n: nat, d: nat, q: int, r: int)
    requires d > 0 && n == q * d + r && 0 <= r < d
    ensures n / d == q && n % d == r
  {
    var q', r' := n / d, n % d;
    assert (q - q') * d == r' - r;
    MulSmall(q - q', d);
  }

  /** The only multiple of `d` strictly between `-d` and `d` is zero. */
  lemma MulSmall(k: int, d: int)
    requires d > 0 && -d < k * d < d
    ensures k == 0
  {
    if k > 0 {
      MulAtLeast(k, d);
    }
  }

  lemma {:induction false} MulAtLeast(k: nat, d: int)
    requires k > 0 && d > 0
    ensures k * d >= d
  {
    if k > 1 {
      MulAtLeast(k - 1, d);
      assert k * d == (k - 1) * d + d;
    }
  }

  /** With a positive interval and a turn budget, a turns line follows
      every `notifyEvery`-th step and no other. */
  lemma {:induction false} CheckpointsEvery(n: nat, f: StepFormat)
    requires f.notifyEvery > 0 && f.maxTurns != 0
    ensures Checkpoints(n, f) == n / f.notifyEvery
  {
    if n > 0 {
      CheckpointsEvery(n - 1, f);
      DivStep(n, f.notifyEvery);
    }
  }
}

=== FILE: pdf_text.dfy ===
/** Downloading a PDF as text: the argument checks, the size limit, the
    content-type test, joining the page texts and the report. The download
    is the parameter `fetch` (from the URL to the reply), and the reply
    carries the text `pypdf` extracts from each page. */
module PdfText {
  import opened Strings

  const TruncationMark := "\n\n[truncated]"

  /** `_truncate` of the PDF tool: text within the limit is kept; longer
      text is cut at the limit (Python slicing), right-stripped and marked. */
  function Truncate(text: string, limit: int): (r: string)
    ensures |text| <= limit ==> r == text
    ensures limit < |text| ==>
      && EndsWith(r, TruncationMark)
      && RightStripOf(r[..|r| - |TruncationMark|], PyPrefix(text, limit))
      && (0 <= limit ==> |r| <= limit + |TruncationMark|)
  {
    if |text| <= limit then text
    else
      var cut := PyPrefix(text, limit);
      TrimRightIsStrip(cut);
      var r := TrimRight(cut) + TruncationMark;
      assert r[..|r| - |TruncationMark|] == TrimRight(cut);
      r
  }

  /** The character limit: `max_chars`, else `pdf_text_max_chars`, else
      12000, clamped to [500, 100000]. A zero stands for a missing or false
      value, as Python's `or` treats both alike. */
  function Limit(maxChars: int, configured: int): (n: int)
    ensures 500 <= n <= 100000
    ensures maxChars != 0 && 500 <= maxChars <= 100000 ==> n == maxChars
    ensures maxChars == 0 && 500 <= configured <= 100000 ==> n == configured
    ensures maxChars == 0 && configured == 0 ==> n == 12000
  {
    var limit := if maxChars != 0 then maxChars else if configured != 0 then configured else 12000;
    if limit < 500 then 500 else if limit > 100000 then 100000 else limit
  }

  /** The response counts as a PDF when its lower-cased content type
      mentions `pdf` or the lower-cased URL ends in `.pdf`. */
  predicate LooksLikePdf(contentType: string, url: string) {
    Contains(Lower(contentType), "pdf") || EndsWith(Lower(url), ".pdf")
  }

  /** The parsed document: unreadable, with the parser's message, or the
      text of each page (empty when extraction fails or yields nothing). */
  datatype Document = Unreadable(error: string) | Pages(texts: seq<string>)

  datatype Reply = TimedOut | ConnectFailed | Answer(status: int, contentType: string, document: Document)

  /** The non-blank pages, stripped, in page order. */
  function Chunks(pages: seq<string>): (r: seq<string>)
    ensures forall i :: 0 <= i < |r| ==> r[i] != "" && IsTrimmed(r[i])
  {
    var trimmed := TrimEach(pages);
    DropEmptyMembers(trimmed);
    var r := DropEmpty(trimmed);
    assert forall i :: 0 <= i < |r| ==> r[i] in trimmed;
    r
  }

  /** There is nothing to join exactly when every page is blank. */
  lemma ChunksEmptyIffBlank(pages: seq<string>)
    ensures Chunks(pages) == [] <==> forall i :: 0 <= i < |pages| ==> IsBlank(pages[i])
  {
    var trimmed := TrimEach(pages);
    DropEmptyMembers(trimmed);
    if Chunks(pages) == [] {
      forall i | 0 <= i < |pages|
        ensures IsBlank(pages[i])
      {
        TrimSpec(pages[i]);
        assert trimmed[i] in trimmed;
      }
    } else {
      var c := Chunks(pages)[0];
      assert c in Chunks(pages);
      var i :| 0 <= i < |trimmed| && trimmed[i] == c;
      TrimSpec(pages[i]);
    }
  }

  /** One more page adds its stripped text as one more chunk, after the
      others, unless the page is blank. With `Chunks([]) == []` this fixes
      the chunks of any document page by page. */
  lemma ChunksSnoc(pages: seq<string>, page: string)
    ensures Chunks([]) == []
    ensures Chunks(pages + [page]) == Chunks(pages) + (if IsBlank(page) then [] else [Trim(page)])
  {
    var trimmed := TrimEach(pages);
    assert TrimEach(pages + [page]) == trimmed + [Trim(page)];
    DropEmptyAppend(trimmed, [Trim(page)]);
    DropEmptyHead(Trim(page), []);
    assert [Trim(page)] + [] == [Trim(page)];
    TrimSpec(page);
  }

  /** Pages that are already stripped and non-empty are the chunks
      themselves. */
  lemma ChunksOfClean(pages: seq<string>)
    requires forall i :: 0 <= i < |pages| ==> pages[i] != "" && IsTrimmed(pages[i])
    ensures Chunks(pages) == pages
  {
    forall i | 0 <= i < |pages|
      ensures TrimEach(pages)[i] == pages[i]
    {
      TrimOfTrimmed(pages[i]);
    }
    assert TrimEach(pages) == pages;
    DropEmptyKeeps(pages);
  }

  /** Joining non-empty parts keeps the first character of the first part
      and the last character of the last. */
  lemma {:induction false} JoinEnds(parts: seq<string>, sep: string)
    requires |parts| > 0
    requires forall i :: 0 <= i < |parts| ==> parts[i] != ""
    ensures var j := Join(parts, sep);
      && |j| > 0
      && j[0] == parts[0][0]
      && j[|j| - 1] == parts[|parts| - 1][|parts[|parts| - 1]| - 1]
  {
    if |parts| > 1 {
      var tail := parts[1..];
      forall i | 0 <= i < |tail| ensures tail[i] != "" {
        assert tail[i] == parts[i + 1];
      }
      JoinEnds(tail, sep);
      assert tail[|tail| - 1] == parts[|parts| - 1];
      assert parts[0] != "";
    }
  }

  /** Stripped, non-empty pages joined by blank lines are already stripped,
      so the final `strip()` changes nothing. */
  lemma JoinedIsTrimmed(chunks: seq<string>)
    requires forall i :: 0 <= i < |chunks| ==> chunks[i] != "" && IsTrimmed(chunks[i])
    ensures IsTrimmed(Join(chunks, "\n\n"))
    ensures Trim(Join(chunks, "\n\n")) == Join(chunks, "\n\n")
    ensures Join(chunks, "\n\n") == "" <==> chunks == []
  {
    if |chunks| > 0 {
      JoinEnds(chunks, "\n\n");
      assert IsTrimmed(chunks[0]) && IsTrimmed(chunks[|chunks| - 1]);
    }
    TrimOfTrimmed(Join(chunks, "\n\n"));
  }

  /** The text of the document: the stripped non-blank pages, separated by
      a blank line. The final strip changes nothing, and the text is empty
      exactly when every page is blank. */
  function FullText(pages: seq<string>): (r: string)
    ensures r == Join(Chunks(pages), "\n\n")
    ensures IsTrimmed(r)
    ensures r == "" <==> forall i :: 0 <= i < |pages| ==> IsBlank(pages[i])
  {
    JoinedIsTrimmed(Chunks(pages));
    ChunksEmptyIffBlank(pages);
    Trim(Join(Chunks(pages), "\n\n"))
  }

  function NotPdf(contentType: string): (r: string)
    ensures IsError(r) && !IsSuccess(r)
  {
    var lowered := Lower(contentType);
    Refuse("URL did not return a PDF content-type. Got: " + (if lowered != "" then lowered else "unknown"))
  }

  /** The success answer: a header naming the URL and the length of the
      whole text, a blank line, then the text cut to the limit. */
  function Report(url: string, full: string, limit: int): (r: string)
    ensures IsSuccess(r) && !IsError(r)
    ensures var head := Success("Extracted PDF text.\nURL: " + url + "\nCharacters: " + NatToString(|full|) + "\n\n");
      && StartsWith(r, head)
      && r[|head|..] == Truncate(full, limit)
    ensures |full| <= limit ==> EndsWith(r, full)
  {
    var header := "Extracted PDF text.\nURL: " + url + "\nCharacters: " + NatToString(|full|) + "\n\n";
    var text := Truncate(full, limit);
    SuccessThen(header, text);
    Success(header + text)
  }

  /** A success answer made of a header and a text starts with the header
      and ends with the text. */
  lemma SuccessThen(header: string, text: string)
    ensures var r := Success(header + text);
      && IsSuccess(r) && !IsError(r)
      && StartsWith(r, Success(header))
      && r[|Success(header)|..] == text
      && EndsWith(r, text)
  {
    var r := Success(header + text);
    SuccessIsSuccess(header + text);
    MarkedOneWay(r);
    assert r == Success(header) + text;
  }

  /** Every answer from a download is marked exactly one way. */
  predicate Marked(r: string) {
    IsSuccess(r) != IsError(r)
  }

  /** `download_pdf_as_text`; `maxChars` is zero when not given. It succeeds
      exactly when a non-blank URL answers without an HTTP error, with
      something that looks like a PDF, whose pages hold some text; every
      other path is an error. */
  function Download(configured: int, url: string, maxChars: int, fetch: string -> Reply): (r: string)
    ensures Marked(r)
    ensures Trim(url) == "" ==> r == Error("url cannot be empty")
    ensures (&& Trim(url) != "" && fetch(url).Answer? && !(400 <= fetch(url).status < 600)
             && !LooksLikePdf(fetch(url).contentType, url))
            ==> r == NotPdf(fetch(url).contentType)
    ensures IsSuccess(r) <==>
      && Trim(url) != ""
      && fetch(url).Answer? && !(400 <= fetch(url).status < 600)
      && LooksLikePdf(fetch(url).contentType, url)
      && fetch(url).document.Pages?
      && Chunks(fetch(url).document.texts) != []
  {
    if Trim(url) == "" then Refuse("url cannot be empty")
    else
      var limit := Limit(maxChars, configured);
      match fetch(url)
      case TimedOut => Refuse("PDF download timed out")
      case ConnectFailed => Refuse("Failed to connect while downloading PDF")
      case Answer(status, contentType, document) =>
        if 400 <= status < 600 then Refuse("PDF download returned HTTP " + IntToString(status))
        else if !LooksLikePdf(contentType, url) then NotPdf(contentType)
        else match document
          case Unreadable(error) => Refuse("Failed to parse PDF (" + error + ")")
          case Pages(texts) =>
            var full := FullText(texts);
            if full == "" then Refuse("No extractable text found in PDF")
            else
              Report(url, full, limit)
  }

  /** An error answer, with the fact that it reads as one. */
  function Refuse(message: string): (r: string)
    ensures r == Error(message) && IsError(r) && !IsSuccess(r)
  {
    ErrorIsError(message);
    Error(message)
  }

  // ---------------------------------------------------------------------
  // Properties of a download

  /** A successful answer reports the stripped text of the non-blank pages,
      its full length, and the text cut to the limit. */
  lemma ReportsPages(configured: int, url: string, maxChars: int, fetch: string -> Reply)
    requires Trim(url) != ""
    requires fetch(url).Answer? && !(400 <= fetch(url).status < 600)
    requires LooksLikePdf(fetch(url).contentType, url) && fetch(url).document.Pages?
    ensures var texts := fetch(url).document.texts;
      var full := Join(Chunks(texts), "\n\n");
      && (Chunks(texts) == [] ==> Download(configured, url, maxChars, fetch) == Error("No extractable text found in PDF"))
      && (Chunks(texts) != [] ==> Download(configured, url, maxChars, fetch) == Report(url, full, Limit(maxChars, configured)))
  {
    JoinedIsTrimmed(Chunks(fetch(url).document.texts));
  }
}

=== FILE: serpapi_keys.dfy ===
/** SerpAPI key handling: parsing a comma-separated key setting into a
    de-duplicated list, shuffling it, and recognising rate-limit answers. */
module SerpapiKeys {
  import opened Strings

  /** One element of a list-valued key setting. */
  datatype KeyItem =
    | StrItem(s: string)
    | NoneItem
    | OtherItem(repr: string)   // any other value, by its `str()`

  /** The value the key parser receives. Lists, tuples and sets are given
      as a sequence in iteration order. */
  datatype KeySource =
    | Missing                   // `None`
    | Text(s: string)
    | Collection(items: seq<KeyItem>)
    | OtherValue(repr: string)  // any other value, by its `str()`

  /** `[p.strip() for p in text.split(",")]`. */
  function Pieces(text: string): seq<string> {
    TrimEach(Split(text, ','))
  }

  /** The pieces a non-string value contributes: none when its text is blank. */
  function ReprPieces(repr: string): seq<string> {
    var text := Trim(repr);
    if text == "" then [] else Pieces(text)
  }

  function ItemPieces(item: KeyItem): seq<string> {
    match item
    case StrItem(s) => Pieces(s)
    case NoneItem => []
    case OtherItem(r) => ReprPieces(r)
  }

  /** The pieces of a collection, item after item. */
  function CollectionPieces(items: seq<KeyItem>): seq<string> {
    if |items| == 0 then []
    else CollectionPieces(items[..|items| - 1]) + ItemPieces(items[|items| - 1])
  }

  /** A key as the parser hands it out: non-empty, stripped, comma-free. */
  predicate CleanKey(k: string) {
    k != "" && IsTrimmed(k) && ',' !in k
  }

  /** Every piece is stripped and holds no comma. */
  lemma PiecesClean(text: string)
    ensures forall p :: p in Pieces(text) ==> IsTrimmed(p) && ',' !in p
  {
    var parts := Split(text, ',');
    forall p | p in Pieces(text)
      ensures IsTrimmed(p) && ',' !in p
    {
      var i :| 0 <= i < |parts| && p == Trim(parts[i]);
      TrimKeepsOut(parts[i], ',');
    }
  }

  lemma ReprPiecesClean(repr: string)
    ensures forall p :: p in ReprPieces(repr) ==> IsTrimmed(p) && ',' !in p
  {
    PiecesClean(Trim(repr));
  }

  lemma {:induction false} CollectionPiecesClean(items: seq<KeyItem>)
    ensures forall p :: p in CollectionPieces(items) ==> IsTrimmed(p) && ',' !in p
  {
    if |items| > 0 {
      CollectionPiecesClean(items[..|items| - 1]);
      match items[|items| - 1]
      case StrItem(s) => PiecesClean(s);
      case NoneItem =>
      case OtherItem(r) => ReprPiecesClean(r);
    }
  }

  /** The `parts` list `parse_serpapi_keys` builds before de-duplication:
      whatever the input, every piece is stripped and holds no comma. */
  function Parts(raw: KeySource): (r: seq<string>)
    ensures forall p :: p in r ==> IsTrimmed(p) && ',' !in p
  {
    match raw
    case Missing => []
    case Text(s) => PiecesClean(s); Pieces(s)
    case Collection(items) => CollectionPiecesClean(items); CollectionPieces(items)
    case OtherValue(r) => ReprPiecesClean(r); ReprPieces(r)
  }

  // ---------------------------------------------------------------------
  // De-duplication

  /** The non-empty parts not in `seen`, each at its first occurrence: never
      longer than the input, and every kept part is a non-empty, unseen
      element of it. */
  function Dedup(parts: seq<string>, seen: set<string>): (r: seq<string>)
    ensures |r| <= |parts|
    ensures forall i :: 0 <= i < |r| ==> r[i] != "" && r[i] !in seen && r[i] in parts
    decreases |parts|
  {
    if |parts| == 0 then []
    else if parts[0] == "" || parts[0] in seen then Dedup(parts[1..], seen)
    else [parts[0]] + Dedup(parts[1..], seen + {parts[0]})
  }

  predicate Distinct(xs: seq<string>) {
    forall i, j :: 0 <= i < j < |xs| ==> xs[i] != xs[j]
  }

  /** `Dedup` keeps exactly the non-empty parts not already seen, once each. */
  lemma {:induction false} DedupSpec(parts: seq<string>, seen: set<string>)
    ensures forall x :: x in Dedup(parts, seen) <==> x in parts && x != "" && x !in seen
    ensures Distinct(Dedup(parts, seen))
    decreases |parts|
  {
    if |parts| > 0 {
      var p := parts[0];
      assert parts == [p] + parts[1..];
      if p == "" || p in seen {
        DedupSpec(parts[1..], seen);
      } else {
        DedupSpec(parts[1..], seen + {p});
        var rest := Dedup(parts[1..], seen + {p});
        var r := [p] + rest;
        forall i, j | 0 <= i < j < |r|
          ensures r[i] != r[j]
        {
          if i == 0 {
            assert r[j] == rest[j - 1];
          } else {
            assert r[i] == rest[i - 1] && r[j] == rest[j - 1];
          }
        }
      }
    }
  }

  /** A list that is already distinct, non-empty and disjoint from `seen` is kept as is. */
  lemma {:induction false} DedupOfDistinct(xs: seq<string>, seen: set<string>)
    requires Distinct(xs)
    requires forall i :: 0 <= i < |xs| ==> xs[i] != "" && xs[i] !in seen
    ensures Dedup(xs, seen) == xs
    decreases |xs|
  {
    if |xs| > 0 {
      forall i | 0 <= i < |xs[1..]|
        ensures xs[1..][i] != "" && xs[1..][i] !in seen + {xs[0]}
      {
        assert xs[1..][i] == xs[i + 1];
      }
      DedupOfDistinct(xs[1..], seen + {xs[0]});
    }
  }

  /** The loop of `parse_serpapi_keys` (lines keeping a `seen` set), which
      computes `Dedup(parts, {})`. */
  method DedupLoop(parts: seq<string>) returns (out: seq<string>)
    ensures out == Dedup(parts, {})
  {
    out := [];
    var seen: set<string> := {};
    var i := 0;
    while i < |parts|
      invariant 0 <= i <= |parts|
      invariant out + Dedup(parts[i..], seen) == Dedup(parts, {})
    {
      var part := parts[i];
      assert parts[i..][1..] == parts[i + 1..];
      if part == "" || part in seen {
        i := i + 1;
        continue;
      }
      seen := seen + {part};
      out := out + [part];
      i := i + 1;
    }
  }

  // ---------------------------------------------------------------------
  // The public helpers

  /** `parse_serpapi_keys`: the stripped comma-separated pieces, without
      empty ones and without repeats, in first-occurrence order. */
  function ParseKeys(raw: KeySource): (keys: seq<string>)
    ensures raw == Missing ==> keys == []
  {
    Dedup(Parts(raw), {})
  }

  /** The parsed keys are clean, distinct, and exactly the non-empty pieces. */
  lemma ParseKeysSpec(raw: KeySource)
    ensures var keys := ParseKeys(raw);
      && Distinct(keys)
      && (forall k :: k in keys ==> CleanKey(k))
      && (forall x :: x in keys <==> x in Parts(raw) && x != "")
  {
    DedupSpec(Parts(raw), {});
  }

  /** Parsing the parsed list again changes nothing. */
  lemma ParseKeysIdempotent(raw: KeySource)
    ensures Dedup(ParseKeys(raw), {}) == ParseKeys(raw)
  {
    var keys := ParseKeys(raw);
    DedupSpec(Parts(raw), {});
    forall i | 0 <= i < |keys|
      ensures keys[i] != "" && keys[i] !in {}
    {
      assert keys[i] in keys;
    }
    DedupOfDistinct(keys, {});
  }

  /** `has_serpapi_keys`. */
  predicate HasKeys(raw: KeySource) {
    |ParseKeys(raw)| > 0
  }

  /** A setting has keys exactly when some piece of it is not blank. */
  lemma HasKeysIffPiece(raw: KeySource)
    ensures HasKeys(raw) <==> exists p :: p in Parts(raw) && p != ""
  {
    var parts := Parts(raw);
    DedupSpec(parts, {});
    if exists p :: p in parts && p != "" {
      var p :| p in parts && p != "";
      assert p in Dedup(parts, {});
    }
    if |Dedup(parts, {})| > 0 {
      assert Dedup(parts, {})[0] in Dedup(parts, {});
    }
  }

  /** The index exchange `random.shuffle` makes at step `i`, given the value
      `draw(i)` its random source produced. */
  function Pick(draw: nat -> nat, i: nat): nat {
    draw(i) % (i + 1)
  }

  /** `random.shuffle` (Fisher-Yates from the back), the randomness being `draw`. */
  method Shuffle(keys: seq<string>, draw: nat -> nat) returns (r: seq<string>)
    ensures multiset(r) == multiset(keys)
    ensures |keys| <= 1 ==> r == keys
  {
    r := keys;
    var i := |keys|;
    while i > 1
      invariant 0 <= i <= |keys|
      invariant |r| == |keys|
      invariant multiset(r) == multiset(keys)
      invariant |keys| <= 1 ==> r == keys
    {
      i := i - 1;
      var j := Pick(draw, i);
      var a, b := r[i], r[j];
      r := r[i := b][j := a];
    }
  }

  /** `shuffled_serpapi_keys`: some permutation of the parsed keys, and the
      parsed list itself when it has at most one key. */
  method ShuffledKeys(raw: KeySource, draw: nat -> nat) returns (r: seq<string>)
    ensures multiset(r) == multiset(ParseKeys(raw))
    ensures |ParseKeys(raw)| <= 1 ==> r == ParseKeys(raw)
  {
    var keys := ParseKeys(raw);
    if |keys| <= 1 {
      return keys;
    }
    r := Shuffle(keys, draw);
  }

  // ---------------------------------------------------------------------
  // Rate limits

  /** The phrases of a lower-cased error text that signal a rate limit. */
  predicate RateLimitText(text: string) {
    || Contains(text, "rate limit")
    || Contains(text, "too many requests")
    || Contains(text, "searches per month")
    || Contains(text, "insufficient searches")
    || (Contains(text, "quota") && Contains(text, "exceed"))
  }

  /** `is_serpapi_rate_limited`. */
  function IsRateLimited(status: int, errorText: string): (b: bool)
    ensures status == 429 ==> b
    ensures status != 429 ==> (b <==> RateLimitText(Lower(errorText)))
  {
    status == 429 || RateLimitText(Lower(errorText))
  }

  lemma LowerIdempotent(s: string)
    ensures Lower(Lower(s)) == Lower(s)
  {
  }

  /** Classification ignores the case of ASCII letters. */
  lemma RateLimitIgnoresCase(status: int, errorText: string)
    ensures IsRateLimited(status, errorText) == IsRateLimited(status, Lower(errorText))
  {
    LowerIdempotent(errorText);
  }
}

=== FILE: serpapi_web_search.dfy ===
/** Google and Bing web search through SerpAPI: argument clamping, paging,
    the checks made before any request, and the text built from the reply.
    The HTTP exchange is the parameter `fetch`, from the request sent to the
    reply received. */
module SerpapiWebSearch {
  import opened Wrappers
  import opened Strings

  /** `_clamp`: `max(minimum, min(maximum, value))`. */
  function Clamp(value: int, minimum: int, maximum: int): (r: int)
    ensures minimum <= maximum ==> minimum <= r <= maximum
    ensures minimum <= value <= maximum ==> r == value
    ensures value < minimum ==> r == minimum
    ensures minimum <= maximum < value ==> r == maximum
  {
    var low := if maximum < value then maximum else value;
    if minimum > low then minimum else low
  }

  /** Clamping is monotone: a larger value never clamps to a smaller one. */
  lemma ClampMonotone(a: int, b: int, minimum: int, maximum: int)
    requires a <= b
    ensures Clamp(a, minimum, maximum) <= Clamp(b, minimum, maximum)
  {
  }

  /** `_coerce_int`: the argument is given as what `int()` makes of it,
      `None` standing for the `TypeError`/`ValueError` it may raise. */
  function CoerceInt(value: Option<int>, default: int): (r: int)
    ensures value.Some? ==> r == value.value
    ensures value.None? ==> r == default
  {
    value.GetOr(default)
  }

  /** The optional result-count argument: absent (`None`), or given, with
      what `int()` makes of it. */
  datatype Requested = Unset | Given(coerced: Option<int>)

  /** `_max_results`. `configured` is what `int()` makes of the
      `serpapi_web_max_results` setting. */
  function MaxResults(configured: Option<int>, requested: Requested): (n: int)
    ensures 1 <= n <= 10
    ensures requested == Unset || requested == Given(None) ==> n == Clamp(CoerceInt(configured, 6), 1, 10)
    ensures requested.Given? && requested.coerced.Some? && 1 <= requested.coerced.value <= 10
      ==> n == requested.coerced.value
  {
    var defaultMax := CoerceInt(configured, 6);
    match requested
    case Unset => Clamp(defaultMax, 1, 10)
    case Given(v) => Clamp(CoerceInt(v, defaultMax), 1, 10)
  }

  // ---------------------------------------------------------------------
  // Snippets

  /** Whitespace occurs only as single spaces between non-space characters. */
  predicate Collapsed(s: string) {
    forall i :: 0 <= i < |s| && IsSpace(s[i]) ==> s[i] == ' ' && 0 < i < |s| - 1 && !IsSpace(s[i + 1])
  }

  /** `" ".join(text.split())`. */
  function Collapse(text: string): string {
    Join(Words(text), " ")
  }

  /** Joining non-empty space-free words with single spaces gives collapsed text. */
  lemma {:induction false} JoinWordsCollapsed(ws: seq<string>)
    requires forall w :: w in ws ==> |w| > 0 && NoSpace(w)
    ensures Collapsed(Join(ws, " "))
    ensures |ws| > 0 ==> |Join(ws, " ")| > 0 && !IsSpace(Join(ws, " ")[0])
    decreases |ws|
  {
    if |ws| == 1 {
      assert ws[0] in ws;
    } else if |ws| > 1 {
      var w := ws[0];
      assert w in ws;
      var tail := ws[1..];
      assert forall x :: x in tail ==> x in ws;
      JoinWordsCollapsed(tail);
      var rest := Join(tail, " ");
      var r := Join(ws, " ");
      assert r == w + " " + rest;
      forall i | 0 <= i < |r| && IsSpace(r[i])
        ensures r[i] == ' ' && 0 < i < |r| - 1 && !IsSpace(r[i + 1])
      {
        if i == |w| {
          assert r[i + 1] == rest[0];
        } else if i > |w| {
          assert r[i] == rest[i - |w| - 1];
          if i + 1 < |r| {
            assert r[i + 1] == rest[i - |w|];
          }
        }
      }
      assert r[0] == w[0];
    }
  }

  /** Collapsing leaves no run of whitespace, no tab or newline, and no
      whitespace at either end; it keeps every other character, in order;
      and collapsing twice changes nothing more. */
  lemma CollapseSpec(text: string)
    ensures Collapsed(Collapse(text))
    ensures IsTrimmed(Collapse(text))
    ensures NonSpace(Collapse(text)) == NonSpace(text)
    ensures Collapse(Collapse(text)) == Collapse(text)
  {
    var ws := Words(text);
    JoinWordsCollapsed(ws);
    assert forall i :: 0 <= i < |ws| ==> ws[i] in ws;
    WordsKeepText(text);
    NonSpaceOfJoin(ws);
    WordsOfJoin(ws);
  }

  /** Words already joined by single spaces are left as they are. */
  lemma CollapseJoined(ws: seq<string>)
    requires forall i :: 0 <= i < |ws| ==> |ws[i]| > 0 && NoSpace(ws[i])
    ensures Collapse(Join(ws, " ")) == Join(ws, " ")
  {
    WordsOfJoin(ws);
  }

  /** The text ends with `...` and, before it, a prefix of `whole`. */
  predicate EllipsisOf(r: string, whole: string) {
    |r| >= 3 && r[|r| - 3..] == "..." && r[..|r| - 3] <= whole
  }

  /** `_normalize_snippet`: collapsed text that fits is kept; longer text is
      cut to `maxChars - 3` characters, right-stripped, and marked `...`. */
  function NormalizeSnippet(text: string, maxChars: int): (r: string)
    ensures |Collapse(text)| <= maxChars ==> r == Collapse(text)
    ensures maxChars < |Collapse(text)| ==> EllipsisOf(r, Collapse(text))
    ensures maxChars < |Collapse(text)| ==> RightStripOf(r[..|r| - 3], PyPrefix(Collapse(text), maxChars - 3))
    ensures 3 <= maxChars < |Collapse(text)| ==> |r| <= maxChars
  {
    var clean := Collapse(text);
    if |clean| <= maxChars then clean
    else
      var cut := PyPrefix(clean, maxChars - 3);
      TrimRightSpec(cut);
      TrimRightIsStrip(cut);
      var r := TrimRight(cut) + "...";
      assert r[..|r| - 3] == TrimRight(cut);
      r
  }

  const SnippetChars := 240

  // ---------------------------------------------------------------------
  // Paging

  /** `max(1, _coerce_int(page, 1))`. */
  function Page(page: Option<int>): (p: int)
    ensures p >= 1
    ensures page.Some? && page.value >= 1 ==> p == page.value
  {
    var v := CoerceInt(page, 1);
    if v < 1 then 1 else v
  }

  datatype Engine = Google | Bing

  function EngineName(e: Engine): string {
    match e
    case Google => "google"
    case Bing => "bing"
  }

  /** Google's `start` is the 0-based index of the page's first result;
      Bing's `first` is its 1-based position, one more. Both skip the `n`
      results of each earlier page. */
  function Offset(e: Engine, page: int, n: int): (r: int)
    ensures r - (if e == Bing then 1 else 0) == (page - 1) * n
    ensures page >= 1 && n >= 0 ==> r >= (if e == Google then 0 else 1)
  {
    match e
    case Google => (page - 1) * n
    case Bing => (page - 1) * n + 1
  }

  /** The first page starts at the first result, and each page starts `n`
      results after the one before. */
  lemma PagesAdjoin(e: Engine, page: int, n: int)
    requires page >= 1
    ensures Offset(e, 1, n) == (if e == Google then 0 else 1)
    ensures Offset(e, page + 1, n) == Offset(e, page, n) + n
  {
    assert page * n == (page - 1) * n + n;
  }

  /** With `n >= 1` results per page, the windows of two different pages
      never overlap and later pages start further on. */
  lemma {:induction false} PagesDisjoint(e: Engine, p: int, q: int, n: int)
    requires 1 <= p < q && n >= 1
    ensures Offset(e, p, n) + n <= Offset(e, q, n)
    ensures Offset(e, p, n) >= (if e == Google then 0 else 1)
    decreases q - p
  {
    PagesAdjoin(e, p, n);
    if q > p + 1 {
      PagesDisjoint(e, p + 1, q, n);
    }
    PagesStart(e, p, n);
  }

  lemma {:induction false} PagesStart(e: Engine, p: int, n: int)
    requires p >= 1 && n >= 1
    ensures Offset(e, p, n) >= (if e == Google then 0 else 1)
    decreases p
  {
    if p > 1 {
      PagesStart(e, p - 1, n);
      PagesAdjoin(e, p - 1, n);
    }
  }

  // ---------------------------------------------------------------------
  // Requests and replies

  /** The settings the search reads: the raw `serpapi_api_key` (`None` as
      empty) and what `int()` makes of `serpapi_web_max_results`. */
  datatype Config = Config(apiKey: string, webMax: Option<int>)

  /** The request sent: engine, query, result count, page offset and key. */
  datatype Query = Query(engine: Engine, q: string, count: int, offset: int, apiKey: string)

  /** One element of `organic_results`. Fields hold the `str()` of their
      value, the empty string standing for a missing or false value. */
  datatype Item =
    | NotADict
    | Entry(title: string, link: string, trackingLink: string, snippet: string,
            description: string, source: string, date: string, position: string)

  /** The `organic_results` value: missing or `null`, some other non-list, or a list. */
  datatype Organic = Absent | NotAList | Items(items: seq<Item>)

  /** The decoded body; `error` is the `str()` of a true `error` field, or empty. */
  datatype Payload = InvalidJson | NotAnObject | Object(error: string, organic: Organic)

  datatype Reply = TimedOut | ConnectFailed | Answer(status: int, text: string, payload: Payload)

  /** The request `_request` makes, or `None` when it refuses first: a blank
      query, or a key that is blank once stripped. */
  function Outgoing(e: Engine, cfg: Config, query: string, page: Option<int>, requested: Requested): (r: Option<Query>)
    ensures r.Some? <==> Trim(query) != "" && Trim(cfg.apiKey) != ""
    ensures r.Some? ==> var n := MaxResults(cfg.webMax, requested);
      r.value == Query(e, query, n, Offset(e, Page(page), n), Trim(cfg.apiKey)) && 1 <= r.value.count <= 10
  {
    if Trim(query) == "" || Trim(cfg.apiKey) == "" then None
    else
      var n := MaxResults(cfg.webMax, requested);
      Some(Query(e, query, n, Offset(e, Page(page), n), Trim(cfg.apiKey)))
  }

  /** The response body as quoted in an HTTP error: stripped, newlines made
      spaces, and cut to 217 characters plus `...` when over 220. */
  function ErrorBody(text: string): (b: string)
    ensures |b| <= 220
    ensures '\n' !in b
    ensures |Trim(text)| <= 220 ==> b == ReplaceChar(Trim(text), '\n', ' ')
    ensures |Trim(text)| > 220 ==> b == ReplaceChar(Trim(text), '\n', ' ')[..217] + "..."
  {
    var body := ReplaceChar(Trim(text), '\n', ' ');
    if |body| > 220 then body[..217] + "..." else body
  }

  function HttpError(status: int, text: string): string {
    var body := ErrorBody(text);
    Error("SerpAPI returned HTTP " + IntToString(status) + (if body == "" then "" else " (" + body + ")"))
  }

  function Or(a: string, b: string): string {
    if a != "" then a else b
  }

  /** The ` | `-separated details of an entry: source, date and position. */
  function Meta(item: Item): seq<string>
    requires item.Entry?
  {
    (if item.source != "" then [item.source] else [])
      + (if item.date != "" then ["date: " + item.date] else [])
      + (if item.position != "" then ["pos: " + item.position] else [])
  }

  /** The numbered first line of an entry. */
  function HeadLine(idx: nat, item: Item): string
    requires item.Entry?
  {
    IntToString(idx) + ". " + Or(item.title, "(no title)") + " - " + Or(item.link, item.trackingLink)
  }

  /** The lines of result number `idx`: none for a non-dict element. */
  function ItemLines(idx: nat, item: Item): seq<string> {
    match item
    case NotADict => []
    case Entry(_, _, _, _, _, _, _, _) =>
      var meta := Meta(item);
      var snippet := NormalizeSnippet(Or(item.snippet, item.description), SnippetChars);
      [HeadLine(idx, item)]
        + (if |meta| > 0 then ["   " + Join(meta, " | ")] else [])
        + (if snippet != "" then ["   " + snippet] else [])
  }

  /** The lines of the shown results, numbered from 1 in list order. */
  function ListLines(shown: seq<Item>): seq<string> {
    if |shown| == 0 then []
    else ListLines(shown[..|shown| - 1]) + ItemLines(|shown|, shown[|shown| - 1])
  }

  /** At most three lines per shown result. */
  lemma {:induction false} ListLinesBound(shown: seq<Item>)
    ensures |ListLines(shown)| <= 3 * |shown|
  {
    if |shown| > 0 {
      ListLinesBound(shown[..|shown| - 1]);
    }
  }

  /** Every shown entry is listed under its 1-based position. */
  lemma {:induction false} ListLinesHead(shown: seq<Item>, k: nat)
    requires k < |shown| && shown[k].Entry?
    ensures HeadLine(k + 1, shown[k]) in ListLines(shown)
  {
    var init := shown[..|shown| - 1];
    if k < |shown| - 1 {
      assert init[k] == shown[k];
      ListLinesHead(init, k);
    } else {
      assert ItemLines(|shown|, shown[k])[0] == HeadLine(k + 1, shown[k]);
    }
  }

  function Header(engine: string, q: string, n: nat): string {
    Success("SerpAPI " + engine + " web results for '" + q + "' (top " + NatToString(n) + "):")
  }

  function NoResults(q: string): string {
    Success("No SerpAPI results found for '" + q + "'.")
  }

  /** The text for a non-empty result list: a header and the lines of at
      most the clamped count of results. */
  function Listing(q: Query, items: seq<Item>, configured: Option<int>): (r: string)
    ensures StartsWith(r, Header(EngineName(q.engine), q.q, |PyPrefix(items, MaxResults(configured, Given(Some(q.count))))|))
    ensures IsSuccess(r) && !IsError(r)
  {
    var shown := PyPrefix(items, MaxResults(configured, Given(Some(q.count))));
    var head := Header(EngineName(q.engine), q.q, |shown|);
    var lines := [head] + ListLines(shown);
    var r := Join(lines, "\n");
    JoinStartsWithFirst(lines, "\n");
    SuccessIsSuccess("SerpAPI " + EngineName(q.engine) + " web results for '" + q.q + "' (top " + NatToString(|shown|) + "):");
    assert r[..8] == head[..8];
    assert r[0] == head[0];
    r
  }

  /** The text for a decoded reply below HTTP 400: a success exactly when
      the payload is not an object, or is an object with no `error` and a
      list of results; an error otherwise, and never both. */
  function Decoded(q: Query, payload: Payload, configured: Option<int>): (r: string)
    ensures IsSuccess(r) != IsError(r)
    ensures IsSuccess(r) <==> payload.NotAnObject? || (payload.Object? && payload.error == "" && payload.organic.Items?)
    ensures payload.InvalidJson? ==> r == Error("SerpAPI returned invalid JSON")
    ensures payload.Object? && payload.error != "" ==> r == Error("SerpAPI error (" + payload.error + ")")
  {
    match payload
    case InvalidJson =>
      ErrorIsError("SerpAPI returned invalid JSON");
      Error("SerpAPI returned invalid JSON")
    case NotAnObject =>
      SuccessIsSuccess("No SerpAPI results found for '" + q.q + "'.");
      NoResults(q.q)
    case Object(error, organic) =>
      if error != "" then
        ErrorIsError("SerpAPI error (" + error + ")");
        Error("SerpAPI error (" + error + ")")
      else match organic
        case Items(items) =>
          if |items| == 0 then
            SuccessIsSuccess("No SerpAPI results found for '" + q.q + "'.");
            NoResults(q.q)
          else Listing(q, items, configured)
        case _ =>
          ErrorIsError("Unexpected SerpAPI response format");
          Error("Unexpected SerpAPI response format")
  }

  /** The reply turned into the tool's text; the listing re-clamps the
      count the request was made for. Every answer is marked: `SUCCESS:`
      exactly for a reply below HTTP 400 that decodes to a non-object, or to
      an object with no error and a list of results; `ERROR:` otherwise. */
  function Respond(q: Query, reply: Reply, configured: Option<int>): (r: string)
    ensures IsSuccess(r) != IsError(r)
    ensures IsSuccess(r) <==>
      reply.Answer? && reply.status < 400
      && (reply.payload.NotAnObject?
          || (reply.payload.Object? && reply.payload.error == "" && reply.payload.organic.Items?))
  {
    match reply
    case TimedOut => ErrorIsError("SerpAPI request timed out"); Error("SerpAPI request timed out")
    case ConnectFailed => ErrorIsError("Failed to connect to SerpAPI"); Error("Failed to connect to SerpAPI")
    case Answer(status, text, payload) =>
      if status >= 400 then
        var body := ErrorBody(text);
        ErrorIsError("SerpAPI returned HTTP " + IntToString(status) + (if body == "" then "" else " (" + body + ")"));
        HttpError(status, text)
      else
        Decoded(q, payload, configured)
  }

  /** `search_google_web` and `search_bing_web`. Without a query or a key
      nothing is fetched: the answer is an error that does not depend on the
      network. Every answer is marked exactly one way. */
  function Search(e: Engine, cfg: Config, query: string, page: Option<int>, requested: Requested,
                  fetch: Query -> Reply): (r: string)
    ensures Trim(query) == "" ==> r == Error("Query cannot be empty")
    ensures Trim(query) != "" && Trim(cfg.apiKey) == "" ==> r == Error("SerpAPI key not configured.")
    ensures IsSuccess(r) != IsError(r)
  {
    if Trim(query) == "" then
      ErrorIsError("Query cannot be empty");
      Error("Query cannot be empty")
    else match Outgoing(e, cfg, query, page, requested)
      case None =>
        ErrorIsError("SerpAPI key not configured.");
        Error("SerpAPI key not configured.")
      case Some(q) => Respond(q, fetch(q), cfg.webMax)
  }

  // ---------------------------------------------------------------------
  // Properties of a search

  /** With a query and a key, exactly one request is made: for the clamped
      count and the offset of the requested page. */
  lemma SearchFetches(e: Engine, cfg: Config, query: string, page: Option<int>, requested: Requested,
                      fetch: Query -> Reply)
    requires Trim(query) != "" && Trim(cfg.apiKey) != ""
    ensures var n := MaxResults(cfg.webMax, requested);
      var q := Query(e, query, n, Offset(e, Page(page), n), Trim(cfg.apiKey));
      Search(e, cfg, query, page, requested, fetch) == Respond(q, fetch(q), cfg.webMax)
  {
  }

  /** A listing shows at most the clamped count of results, never more than
      the reply holds, each entry under its 1-based position. */
  lemma ListingShows(q: Query, items: seq<Item>, configured: Option<int>, k: nat)
    requires 1 <= q.count <= 10 && |items| > 0
    ensures var shown := PyPrefix(items, MaxResults(configured, Given(Some(q.count))));
      && |shown| == (if q.count < |items| then q.count else |items|)
      && |ListLines(shown)| <= 30
      && (k < |shown| && shown[k].Entry? ==> shown[k] == items[k] && HeadLine(k + 1, items[k]) in ListLines(shown))
  {
    var shown := PyPrefix(items, MaxResults(configured, Given(Some(q.count))));
    ListLinesBound(shown);
    if k < |shown| && shown[k].Entry? {
      ListLinesHead(shown, k);
    }
  }
}

=== FILE: strings.dfy ===
/** The handful of Python `str` operations the tools rely on, over `seq<char>`.
    Whitespace is exactly the set of characters for which Python's
    `str.isspace` holds; case mapping is restricted to ASCII letters. */
module Strings {

  /** Python's `str.isspace` for one character. */
  predicate IsSpace(c: char) {
    || '\t' <= c <= '\r' || '\U{1C}' <= c <= ' ' || c == '\U{85}' || c == '\U{A0}'
    || c == '\U{1680}' || '\U{2000}' <= c <= '\U{200A}' || c == '\U{2028}' || c == '\U{2029}'
    || c == '\U{202F}' || c == '\U{205F}' || c == '\U{3000}'
  }

  /** The line boundaries Python's `str.splitlines` breaks on. */
  predicate IsLineBoundary(c: char) {
    '\n' <= c <= '\r' || '\U{1C}' <= c <= '\U{1E}' || c == '\U{85}' || c == '\U{2028}' || c == '\U{2029}'
  }

  predicate IsBlank(s: string) {
    forall i :: 0 <= i < |s| ==> IsSpace(s[i])
  }

  predicate NoSpace(s: string) {
    forall i :: 0 <= i < |s| ==> !IsSpace(s[i])
  }

  /** Neither end of `s` is whitespace: what `strip()` always returns. */
  predicate IsTrimmed(s: string) {
    |s| == 0 || (!IsSpace(s[0]) && !IsSpace(s[|s| - 1]))
  }

  /** The first position at or after `i` that is not whitespace, or `|s|`. */
  function SkipSpace(s: string, i: nat): (k: nat)
    requires i <= |s|
    ensures i <= k <= |s|
    ensures forall j :: i <= j < k ==> IsSpace(s[j])
    ensures k < |s| ==> !IsSpace(s[k])
    decreases |s| - i
  {
    if i < |s| && IsSpace(s[i]) then SkipSpace(s, i + 1) else i
  }

  /** Where `s[..j]` ends once its trailing whitespace is dropped. */
  function SkipSpaceBack(s: string, j: nat): (k: nat)
    requires j <= |s|
    ensures k <= j
    ensures forall i :: k <= i < j ==> IsSpace(s[i])
    ensures k > 0 ==> !IsSpace(s[k - 1])
  {
    if j > 0 && IsSpace(s[j - 1]) then SkipSpaceBack(s, j - 1) else j
  }

  /** Python's `str.lstrip()`. */
  function TrimLeft(s: string): (r: string)
    ensures |r| <= |s|
  {
    s[SkipSpace(s, 0)..]
  }

  /** `lstrip` drops the leading whitespace and nothing else. */
  lemma TrimLeftSpec(s: string)
    ensures var r := TrimLeft(s);
      && r == s[|s| - |r|..]
      && (forall i :: 0 <= i < |s| - |r| ==> IsSpace(s[i]))
      && (|r| > 0 ==> !IsSpace(r[0]))
  {
  }

  /** Python's `str.rstrip()`. */
  function TrimRight(s: string): (r: string)
    ensures |r| <= |s|
  {
    s[..SkipSpaceBack(s, |s|)]
  }

  /** `rstrip` drops the trailing whitespace and nothing else. */
  lemma TrimRightSpec(s: string)
    ensures var r := TrimRight(s);
      && r == s[..|r|]
      && (forall i :: |r| <= i < |s| ==> IsSpace(s[i]))
      && (|r| > 0 ==> !IsSpace(r[|r| - 1]))
  {
  }

  /** `kept` is `s` with its trailing whitespace dropped: a prefix of `s`
      followed in `s` only by whitespace, and not itself ending in any. */
  predicate RightStripOf(kept: string, s: string) {
    && kept <= s
    && IsBlank(s[|kept|..])
    && (|kept| == 0 || !IsSpace(kept[|kept| - 1]))
  }

  /** `rstrip` gives the right-stripped form of its input. */
  lemma TrimRightIsStrip(s: string)
    ensures RightStripOf(TrimRight(s), s)
  {
    var r := TrimRight(s);
    TrimRightSpec(s);
    assert forall i :: 0 <= i < |s[|r|..]| ==> s[|r|..][i] == s[|r| + i];
  }

  /** A text has only one right-stripped form. */
  lemma RightStripUnique(a: string, b: string, s: string)
    requires RightStripOf(a, s) && RightStripOf(b, s)
    ensures a == b
  {
    assert forall i :: |a| <= i < |s| ==> IsSpace(s[i]) by {
      forall i | |a| <= i < |s| ensures IsSpace(s[i]) {
        assert s[|a|..][i - |a|] == s[i];
      }
    }
    assert forall i :: |b| <= i < |s| ==> IsSpace(s[i]) by {
      forall i | |b| <= i < |s| ensures IsSpace(s[i]) {
        assert s[|b|..][i - |b|] == s[i];
      }
    }
    assert |a| > 0 ==> a[|a| - 1] == s[|a| - 1];
    assert |b| > 0 ==> b[|b| - 1] == s[|b| - 1];
    assert |a| == |b|;
    assert a == s[..|a|] && b == s[..|b|];
  }

  /** Python's `str.strip()`: never starts or ends with whitespace. */
  function Trim(s: string): (r: string)
    ensures IsTrimmed(r)
    ensures |r| <= |s|
  {
    TrimLeftSpec(s);
    TrimRightSpec(TrimLeft(s));
    TrimRight(TrimLeft(s))
  }

  /** `strip` is empty exactly for blank input, and what it returns is a
      contiguous piece of the input. */
  lemma TrimSpec(s: string)
    ensures Trim(s) == [] <==> IsBlank(s)
    ensures |Trim(s)| <= |TrimLeft(s)| && Trim(s) == TrimLeft(s)[..|Trim(s)|]
  {
    TrimLeftSpec(s);
    TrimRightSpec(TrimLeft(s));
  }

  /** A character absent from `s` is absent from `Trim(s)`. */
  lemma TrimKeepsOut(s: string, c: char)
    requires c !in s
    ensures c !in Trim(s)
  {
    var t := TrimLeft(s);
    var r := Trim(s);
    TrimLeftSpec(s);
    TrimSpec(s);
    forall k | 0 <= k < |r|
      ensures r[k] != c
    {
      assert r[k] == t[k] == s[|s| - |t| + k];
    }
  }

  lemma TrimOfTrimmed(s: string)
    requires IsTrimmed(s)
    ensures Trim(s) == s
  {
  }

  predicate StartsWith(s: string, prefix: string) {
    |prefix| <= |s| && s[..|prefix|] == prefix
  }

  predicate EndsWith(s: string, suffix: string) {
    |suffix| <= |s| && s[|s| - |suffix|..] == suffix
  }

  /** Python's `needle in s` for strings. */
  predicate Contains(s: string, needle: string)
    decreases |s|
  {
    StartsWith(s, needle) || (|s| > 0 && Contains(s[1..], needle))
  }

  function LowerChar(c: char): char {
    if 'A' <= c <= 'Z' then (c as int + 32) as char else c
  }

  /** Python's `str.lower()`, restricted to ASCII letters. */
  function Lower(s: string): (r: string)
    ensures |r| == |s|
    ensures forall i :: 0 <= i < |s| ==> r[i] == LowerChar(s[i])
  {
    seq(|s|, i requires 0 <= i < |s| => LowerChar(s[i]))
  }

  /** Python's `str.replace` for single characters. */
  function ReplaceChar(s: string, from: char, to: char): (r: string)
    ensures |r| == |s|
    ensures forall i :: 0 <= i < |s| ==> r[i] == (if s[i] == from then to else s[i])
  {
    seq(|s|, i requires 0 <= i < |s| => if s[i] == from then to else s[i])
  }

  /** Python's `sep.join(parts)`. */
  function Join(parts: seq<string>, sep: string): string {
    if |parts| == 0 then ""
    else if |parts| == 1 then parts[0]
    else parts[0] + sep + Join(parts[1..], sep)
  }

  /** Python's `s.split(sep)` for a one-character separator: never empty,
      no piece holds the separator, and joining the pieces gives `s` back. */
  function Split(s: string, sep: char): (r: seq<string>)
    ensures |r| > 0
    ensures forall i :: 0 <= i < |r| ==> sep !in r[i]
    ensures Join(r, [sep]) == s
    decreases |s|
  {
    if |s| == 0 then [""]
    else
      var rest := Split(s[1..], sep);
      if s[0] == sep then
        assert ([""] + rest)[1..] == rest;
        [""] + rest
      else
        var r := [[s[0]] + rest[0]] + rest[1..];
        assert r[1..] == rest[1..];
        assert forall i :: 1 <= i < |r| ==> r[i] == rest[i];
        r
  }

  /** The first line boundary at or after `i`, or `|s|`. */
  function LineEnd(s: string, i: nat): (k: nat)
    requires i <= |s|
    ensures i <= k <= |s|
    ensures forall j :: i <= j < k ==> !IsLineBoundary(s[j])
    ensures k < |s| ==> IsLineBoundary(s[k])
    decreases |s| - i
  {
    if i == |s| || IsLineBoundary(s[i]) then i else LineEnd(s, i + 1)
  }

  /** Length of the first line of `s`: the characters before the first line boundary. */
  function LineLength(s: string): (n: nat)
    ensures n <= |s|
    ensures forall i :: 0 <= i < n ==> !IsLineBoundary(s[i])
    ensures n < |s| ==> IsLineBoundary(s[n])
  {
    LineEnd(s, 0)
  }

  /** Python's `str.splitlines()`: `\r\n` is one boundary and a final
      terminator does not start an empty last line. */
  function SplitLines(s: string): (r: seq<string>)
    ensures forall i :: 0 <= i < |r| ==> forall k :: 0 <= k < |r[i]| ==> !IsLineBoundary(r[i][k])
    decreases |s|
  {
    if |s| == 0 then []
    else
      var n := LineLength(s);
      if n == |s| then [s]
      else
        var skip := if s[n] == '\r' && n + 1 < |s| && s[n + 1] == '\n' then 2 else 1;
        [s[..n]] + SplitLines(s[n + skip..])
  }

  /** A line without boundaries, followed by a boundary or by nothing, is
      the first line. */
  lemma LineLengthOf(line: string, rest: string)
    requires forall k :: 0 <= k < |line| ==> !IsLineBoundary(line[k])
    requires |rest| > 0 ==> IsLineBoundary(rest[0])
    ensures LineLength(line + rest) == |line|
  {
    var s := line + rest;
    assert forall k :: 0 <= k < |line| ==> s[k] == line[k];
    assert |line| < |s| ==> s[|line|] == rest[0];
  }

  /** `splitlines` undoes a join with `\n` of lines that hold no boundary,
      provided the last one is not empty (a final terminator starts no
      line). Empty lines elsewhere, repeats and order are all kept. */
  lemma {:induction false} SplitLinesOfJoin(lines: seq<string>)
    requires forall i :: 0 <= i < |lines| ==> forall k :: 0 <= k < |lines[i]| ==> !IsLineBoundary(lines[i][k])
    requires |lines| > 0 ==> lines[|lines| - 1] != ""
    ensures SplitLines(Join(lines, "\n")) == lines
    decreases |lines|
  {
    if |lines| == 1 {
      SplitLinesOne(lines[0]);
    } else if |lines| > 1 {
      var rest := Join(lines[1..], "\n");
      SplitLinesOfJoin(lines[1..]);
      SplitLinesCons(lines[0], rest);
      assert Join(lines, "\n") == lines[0] + ("\n" + rest);
      assert lines == [lines[0]] + lines[1..];
    }
  }

  /** A non-empty line without boundaries is one line. */
  lemma SplitLinesOne(line: string)
    requires |line| > 0
    requires forall k :: 0 <= k < |line| ==> !IsLineBoundary(line[k])
    ensures SplitLines(line) == [line]
  {
    LineLengthOf(line, "");
    assert line + "" == line;
  }

  /** A line without boundaries followed by `\n` is the first line. */
  lemma SplitLinesCons(line: string, rest: string)
    requires forall k :: 0 <= k < |line| ==> !IsLineBoundary(line[k])
    ensures SplitLines(line + ("\n" + rest)) == [line] + SplitLines(rest)
  {
    var s := line + ("\n" + rest);
    LineLengthOf(line, "\n" + rest);
    assert s[|line|] == '\n';
    assert s[|line| + 1..] == rest;
    assert s[..|line|] == line;
  }

  /** The first whitespace position at or after `i`, or `|s|`. */
  function WordEnd(s: string, i: nat): (k: nat)
    requires i <= |s|
    ensures i <= k <= |s|
    ensures forall j :: i <= j < k ==> !IsSpace(s[j])
    ensures k < |s| ==> IsSpace(s[k])
    decreases |s| - i
  {
    if i == |s| || IsSpace(s[i]) then i else WordEnd(s, i + 1)
  }

  /** Length of the leading run of non-whitespace characters of `s`. */
  function WordLength(s: string): (n: nat)
    ensures n <= |s|
    ensures forall i :: 0 <= i < n ==> !IsSpace(s[i])
    ensures n < |s| ==> IsSpace(s[n])
  {
    WordEnd(s, 0)
  }

  /** Python's `str.split()` with no argument: the maximal runs of non-whitespace. */
  function Words(s: string): (r: seq<string>)
    ensures forall w :: w in r ==> |w| > 0 && NoSpace(w)
    decreases |s|
  {
    var t := TrimLeft(s);
    if |t| == 0 then []
    else
      var n := WordLength(t);
      assert n > 0;
      var w := t[..n];
      assert NoSpace(w) by {
        forall i | 0 <= i < |w| ensures !IsSpace(w[i]) {
          assert w[i] == t[i];
        }
      }
      [w] + Words(t[n..])
  }

  /** `lstrip` drops exactly a run of leading whitespace that ends at a
      non-whitespace character or at the end. */
  lemma TrimLeftAt(s: string, k: nat)
    requires k <= |s|
    requires forall i :: 0 <= i < k ==> IsSpace(s[i])
    requires k < |s| ==> !IsSpace(s[k])
    ensures TrimLeft(s) == s[k..]
  {
  }

  /** Leading whitespace does not change the words. */
  lemma WordsAfterSpace(c: char, s: string)
    requires IsSpace(c)
    ensures Words([c] + s) == Words(s)
  {
    var x := [c] + s;
    var k := SkipSpace(s, 0);
    assert forall i :: 1 <= i < |x| ==> x[i] == s[i - 1];
    TrimLeftAt(x, k + 1);
    assert x[k + 1..] == s[k..];
    assert TrimLeft(x) == TrimLeft(s);
  }

  /** A leading word, followed by whitespace or by nothing, is the first word. */
  lemma WordsCons(w: string, rest: string)
    requires |w| > 0 && NoSpace(w)
    requires |rest| > 0 ==> IsSpace(rest[0])
    ensures Words(w + rest) == [w] + Words(rest)
  {
    var s := w + rest;
    assert forall i :: 0 <= i < |w| ==> s[i] == w[i];
    assert |w| < |s| ==> s[|w|] == rest[0];
    TrimLeftAt(s, 0);
    WordLengthAt(s, |w|);
    assert s[0..] == s;
    assert s[..|w|] == w && s[|w|..] == rest;
  }

  /** The first word ends exactly at the first whitespace. */
  lemma WordLengthAt(s: string, k: nat)
    requires k <= |s|
    requires forall i :: 0 <= i < k ==> !IsSpace(s[i])
    requires k < |s| ==> IsSpace(s[k])
    ensures WordLength(s) == k
  {
  }

  /** `split()` undoes a join with single spaces of non-empty words: order
      and repeats are kept. */
  lemma {:induction false} WordsOfJoin(ws: seq<string>)
    requires forall i :: 0 <= i < |ws| ==> |ws[i]| > 0 && NoSpace(ws[i])
    ensures Words(Join(ws, " ")) == ws
    decreases |ws|
  {
    if |ws| == 0 {
      NoWords("");
    } else if |ws| == 1 {
      WordsOne(ws[0]);
    } else {
      var w, more := ws[0], ws[1..];
      assert forall i :: 0 <= i < |more| ==> more[i] == ws[i + 1];
      WordsOfJoin(more);
      JoinCons(ws, " ");
      WordsSpaced(w, Join(more, " "));
      assert ws == [w] + more;
    }
  }

  /** A join of two or more parts is the first, the separator, and the join of the rest. */
  lemma JoinCons(parts: seq<string>, sep: string)
    requires |parts| > 1
    ensures Join(parts, sep) == parts[0] + (sep + Join(parts[1..], sep))
  {
  }

  /** A single non-empty word is split into itself. */
  lemma WordsOne(w: string)
    requires |w| > 0 && NoSpace(w)
    ensures Words(w) == [w]
  {
    WordsCons(w, "");
    NoWords("");
    assert w + "" == w;
  }

  /** A word and a space in front of a text add that word in front of its words. */
  lemma WordsSpaced(w: string, rest: string)
    requires |w| > 0 && NoSpace(w)
    ensures Words(w + (" " + rest)) == [w] + Words(rest)
  {
    WordsCons(w, " " + rest);
    WordsAfterSpace(' ', rest);
  }

  /** The characters of `s` that are not whitespace, in order. */
  function NonSpace(s: string): (r: string)
    ensures |r| <= |s|
  {
    if |s| == 0 then "" else (if IsSpace(s[0]) then "" else [s[0]]) + NonSpace(s[1..])
  }

  /** Text without whitespace is kept whole; blank text is dropped. */
  lemma {:induction false} NonSpaceOf(s: string)
    ensures NoSpace(s) ==> NonSpace(s) == s
    ensures IsBlank(s) ==> NonSpace(s) == ""
    decreases |s|
  {
    if |s| > 0 {
      NonSpaceOf(s[1..]);
      assert s == [s[0]] + s[1..];
    }
  }

  lemma {:induction false} NonSpaceAppend(a: string, b: string)
    ensures NonSpace(a + b) == NonSpace(a) + NonSpace(b)
    decreases |a|
  {
    if |a| == 0 {
      assert a + b == b;
    } else {
      var c, more := a[0], a[1..];
      assert a == [c] + more;
      assert a + b == [c] + (more + b);
      NonSpaceAppend(more, b);
      NonSpaceHead(c, more);
      NonSpaceHead(c, more + b);
    }
  }

  lemma NonSpaceHead(c: char, s: string)
    ensures NonSpace([c] + s) == (if IsSpace(c) then "" else [c]) + NonSpace(s)
  {
    assert ([c] + s)[1..] == s;
  }

  /** `"".join(ws)`. */
  function Concat(ws: seq<string>): string {
    if |ws| == 0 then "" else ws[0] + Concat(ws[1..])
  }

  /** `split()` drops only whitespace: its words, run together, are the
      non-whitespace characters of `s` in order. */
  lemma {:induction false} WordsKeepText(s: string)
    ensures Concat(Words(s)) == NonSpace(s)
    decreases |s|
  {
    if TrimLeft(s) == "" {
      NoWords(s);
    } else {
      var w, rest := FirstWord(s);
      WordsKeepText(rest);
      assert ([w] + Words(rest))[1..] == Words(rest);
    }
  }

  /** Text that is all whitespace has no words and no other characters. */
  lemma NoWords(s: string)
    ensures TrimLeft(s) == "" ==> Words(s) == [] && NonSpace(s) == ""
  {
    TrimLeftSpec(s);
    if TrimLeft(s) == "" {
      assert IsBlank(s);
      NonSpaceOf(s);
    }
  }

  /** The first word of a text that is not all whitespace, and what follows it. */
  lemma FirstWord(s: string) returns (w: string, rest: string)
    requires TrimLeft(s) != ""
    ensures |w| > 0 && NoSpace(w) && |rest| < |s|
    ensures Words(s) == [w] + Words(rest)
    ensures NonSpace(s) == w + NonSpace(rest)
  {
    var t := TrimLeft(s);
    var n := WordLength(t);
    w := t[..n];
    rest := t[n..];
    NonSpaceTrimLeft(s);
    assert t == w + rest;
    NonSpaceOf(w);
    NonSpaceAppend(w, rest);
  }

  /** `lstrip` drops no character that is not whitespace. */
  lemma NonSpaceTrimLeft(s: string)
    ensures NonSpace(TrimLeft(s)) == NonSpace(s)
  {
    var t := TrimLeft(s);
    TrimLeftSpec(s);
    var k := |s| - |t|;
    assert s == s[..k] + t;
    assert IsBlank(s[..k]);
    NonSpaceOf(s[..k]);
    NonSpaceAppend(s[..k], t);
  }

  /** Joining words with single spaces adds only whitespace. */
  lemma {:induction false} NonSpaceOfJoin(ws: seq<string>)
    requires forall i :: 0 <= i < |ws| ==> NoSpace(ws[i])
    ensures NonSpace(Join(ws, " ")) == Concat(ws)
    decreases |ws|
  {
    if |ws| == 1 {
      NonSpaceOf(ws[0]);
      assert ws[0] + "" == ws[0];
    } else if |ws| > 1 {
      var rest := Join(ws[1..], " ");
      NonSpaceOfJoin(ws[1..]);
      assert Join(ws, " ") == ws[0] + (" " + rest);
      NonSpaceAppend(ws[0], " " + rest);
      NonSpaceAppend(" ", rest);
      NonSpaceOf(ws[0]);
      NonSpaceOf(" ");
    }
  }

  function DigitChar(d: nat): char
    requires d < 10
  {
    "0123456789"[d]
  }

  /** Python's `str(n)` for a natural number. */
  function NatToString(n: nat): (r: string)
    ensures |r| > 0
    ensures forall i :: 0 <= i < |r| ==> '0' <= r[i] <= '9'
  {
    if n < 10 then [DigitChar(n)] else NatToString(n / 10) + [DigitChar(n % 10)]
  }

  /** Python's `str(i)` for an integer. */
  function IntToString(i: int): string {
    if i < 0 then "-" + NatToString(-i) else NatToString(i)
  }

  /** Python's `s[:n]`: a negative `n` counts from the end. */
  function PyPrefix<T>(s: seq<T>, n: int): (r: seq<T>)
    ensures 0 <= n ==> r == s[..if n < |s| then n else |s|]
    ensures n < 0 ==> r == s[..if -n < |s| then |s| + n else 0]
  {
    if 0 <= n then s[..if n < |s| then n else |s|]
    else s[..if -n < |s| then |s| + n else 0]
  }

  /** `[p.strip() for p in parts]`. */
  function TrimEach(parts: seq<string>): (r: seq<string>)
    ensures |r| == |parts|
    ensures forall i :: 0 <= i < |r| ==> r[i] == Trim(parts[i])
  {
    seq(|parts|, i requires 0 <= i < |parts| => Trim(parts[i]))
  }

  /** `[p for p in parts if p]`: the non-empty parts, in order. */
  function DropEmpty(parts: seq<string>): (r: seq<string>)
    ensures forall i :: 0 <= i < |r| ==> r[i] != ""
    ensures |r| <= |parts|
  {
    if |parts| == 0 then []
    else if parts[0] == "" then DropEmpty(parts[1..])
    else [parts[0]] + DropEmpty(parts[1..])
  }

  /** Parts that are all non-empty are kept as they are. */
  lemma {:induction false} DropEmptyKeeps(parts: seq<string>)
    requires forall i :: 0 <= i < |parts| ==> parts[i] != ""
    ensures DropEmpty(parts) == parts
  {
    if |parts| > 0 {
      var more := parts[1..];
      assert forall i :: 0 <= i < |more| ==> more[i] == parts[i + 1];
      DropEmptyKeeps(more);
      assert parts == [parts[0]] + more;
    }
  }

  /** `DropEmpty` keeps exactly the non-empty parts. */
  lemma {:induction false} DropEmptyMembers(parts: seq<string>)
    ensures forall p :: p in DropEmpty(parts) <==> p in parts && p != ""
  {
    if |parts| > 0 {
      DropEmptyMembers(parts[1..]);
      assert parts == [parts[0]] + parts[1..];
    }
  }

  /** Filtering goes part by part: it distributes over concatenation, so
      order and repeats are kept. */
  lemma {:induction false} DropEmptyAppend(a: seq<string>, b: seq<string>)
    ensures DropEmpty(a + b) == DropEmpty(a) + DropEmpty(b)
    decreases |a|
  {
    if |a| == 0 {
      assert a + b == b;
    } else {
      var p, more := a[0], a[1..];
      assert a == [p] + more;
      assert a + b == [p] + (more + b);
      DropEmptyAppend(more, b);
      DropEmptyHead(p, more);
      DropEmptyHead(p, more + b);
    }
  }

  lemma DropEmptyHead(p: string, parts: seq<string>)
    ensures DropEmpty([p] + parts) == (if p == "" then [] else [p]) + DropEmpty(parts)
  {
    assert ([p] + parts)[1..] == parts;
  }

  /** Every character of a part appears in the joined text. */
  lemma {:induction false} JoinHoldsParts(parts: seq<string>, sep: string, i: nat, c: char)
    requires i < |parts| && c in parts[i]
    ensures c in Join(parts, sep)
    decreases i
  {
    if 0 < i {
      JoinHoldsParts(parts[1..], sep, i - 1, c);
    }
  }

  /** A joined string begins with its first part. */
  lemma JoinStartsWithFirst(parts: seq<string>, sep: string)
    requires |parts| > 0
    ensures StartsWith(Join(parts, sep), parts[0])
  {
  }

  // Tool results: every tool answers with one string, prefixed `ERROR: ` on
  // failure and, for most operations, `SUCCESS: ` on success.

  function Error(message: string): string {
    "ERROR: " + message
  }

  function Success(message: string): string {
    "SUCCESS: " + message
  }

  predicate IsError(s: string) {
    StartsWith(s, "ERROR:")
  }

  predicate IsSuccess(s: string) {
    StartsWith(s, "SUCCESS:")
  }

  /** No text is marked both ways. */
  lemma MarkedOneWay(s: string)
    ensures !(IsSuccess(s) && IsError(s))
  {
    if IsSuccess(s) && |s| >= 6 {
      assert s[0] == 'S';
    }
  }

  lemma ErrorIsError(message: string)
    ensures IsError(Error(message)) && !IsSuccess(Error(message))
  {
    assert Error(message)[..6] == "ERROR:";
    assert Error(message)[0] == 'E';
  }

  lemma SuccessIsSuccess(message: string)
    ensures IsSuccess(Success(message)) && !IsError(Success(message))
  {
    assert Success(message)[..8] == "SUCCESS:";
    assert Success(message)[0] == 'S';
  }

  /** What calling a tool helper produces: the string it returns, or the
      message of the exception it raises. */
  datatype Call = Answered(text: string) | Threw(error: string)
}

=== FILE: subagent_runner.dfy ===
/** The sub-agent runner: which model it asks for, how it counts the tool
    calls a run made, how it sums token usage, and its two-attempt policy.
    The agents SDK call is an oracle: a function from the agent, the input
    text and the turn budget to what the SDK returned or raised. */
module SubAgentRunner {
  import opened Wrappers
  import opened Strings

  // ---------------------------------------------------------------------
  // Model resolution

  /** `_resolved_model`: a non-blank configured model wins; otherwise the
      named environment variable, stripped, when it is set and not blank. */
  function ResolvedModel(modelName: string, envVarName: string, env: map<string, string>): (r: Option<string>)
    ensures r.Some? ==> r.value != "" && IsTrimmed(r.value)
    ensures Trim(modelName) != "" ==> r == Some(Trim(modelName))
    ensures Trim(modelName) == "" && envVarName == "" ==> r == None
    ensures Trim(modelName) == "" && envVarName != "" ==>
      r == (if envVarName in env && Trim(env[envVarName]) != "" then Some(Trim(env[envVarName])) else None)
  {
    var configured := Trim(modelName);
    if configured != "" then Some(configured)
    else if envVarName == "" then None
    else
      var value := if envVarName in env then Trim(env[envVarName]) else "";
      if value == "" then None else Some(value)
  }

  // ---------------------------------------------------------------------
  // Tool names

  /** The `function` member of a raw tool-call object. */
  datatype Callee =
    | NoCallee                    // missing or falsy
    | NamelessCallee              // present, without a `name` attribute
    | NamedCallee(name: Option<string>)

  /** The `function` entry of a raw tool-call dict. */
  datatype CalleeEntry =
    | CalleeDict(name: Option<string>)   // a dict (a missing entry defaults to `{}`)
    | CalleeOther                        // present but not a dict

  /** The shapes of raw tool-call payloads the runner inspects. `None` in a
      name field stands for a missing, `None` or otherwise falsy value. */
  datatype Raw =
    | Null
    | NamedObject(name: Option<string>)          // has a `name` attribute
    | FunctionObject(callee: Callee)         // has `function` but no `name`
    | Dict(name: Option<string>, entry: CalleeEntry)
    | OtherValue

  /** `_extract_tool_name`. The extracted name is the first candidate,
      except that an empty dict `name` gives way to the dict's
      `function.name`; a payload without candidates has no name, and a
      non-empty name is always one the payload carries. */
  function ToolName(raw: Raw): (r: string)
    ensures |Candidates(raw)| == 0 ==> r == ""
    ensures |Candidates(raw)| > 0 && (Candidates(raw)[0] != "" || !raw.Dict?) ==> r == Candidates(raw)[0]
    ensures raw.Dict? && Candidates(raw)[0] == "" ==>
      r == (if |Candidates(raw)| == 2 then Candidates(raw)[1] else "")
    ensures r != "" ==> r in Candidates(raw)
  {
    match raw
    case Null => ""
    case NamedObject(n) => n.GetOr("")
    case FunctionObject(f) => if f.NamedCallee? then f.name.GetOr("") else ""
    case Dict(n, f) =>
      if n.Some? && n.value != "" then n.value
      else if f.CalleeDict? then f.name.GetOr("")
      else ""
    case OtherValue => ""
  }

  /** Every name a payload carries, in the order `_extract_tool_name` looks. */
  function Candidates(raw: Raw): seq<string> {
    match raw
    case NamedObject(n) => [n.GetOr("")]
    case FunctionObject(NamedCallee(n)) => [n.GetOr("")]
    case Dict(n, f) => [n.GetOr("")] + (if f.CalleeDict? then [f.name.GetOr("")] else [])
    case _ => []
  }

  // ---------------------------------------------------------------------
  // Counting tool calls

  /** A multiset of names, the model's `Counter[str]`. */
  type Counts = multiset<string>

  /** `Counter` increment: empty names are not counted. */
  function CountName(name: string): (c: Counts)
    ensures "" !in c && |c| <= 1
  {
    if name == "" then multiset{} else multiset{name}
  }

  /** `_collect_from_items`, each item given by its raw payload. */
  function CountItems(items: seq<Raw>): (c: Counts)
    ensures "" !in c
    ensures |c| <= |items|
  {
    if |items| == 0 then multiset{}
    else CountItems(items[..|items| - 1]) + CountName(ToolName(items[|items| - 1]))
  }

  /** Counting is per item, so counts of a concatenation add up. */
  lemma {:induction false} CountItemsAppend(a: seq<Raw>, b: seq<Raw>)
    ensures CountItems(a + b) == CountItems(a) + CountItems(b)
    decreases |b|
  {
    if |b| == 0 {
      assert a + b == a;
    } else {
      assert (a + b)[..|a + b| - 1] == a + b[..|b| - 1];
      CountItemsAppend(a, b[..|b| - 1]);
    }
  }

  /** One element of a raw response's `output` list. */
  datatype OutputItem = OutputItem(payload: Raw, itemType: string, toolName: Option<string>)

  /** Whether `_collect_from_raw_responses` treats an output item as a call. */
  predicate IsCallType(itemType: string) {
    Contains(itemType, "call") || Contains(itemType, "tool")
  }

  /** The name a raw output item is counted under: its extracted name, else
      its `tool_name`; items of other types are not counted. */
  function OutputName(o: OutputItem): (r: string)
    ensures !IsCallType(o.itemType) ==> r == ""
    ensures IsCallType(o.itemType) && ToolName(o.payload) != "" ==> r == ToolName(o.payload)
    ensures IsCallType(o.itemType) && ToolName(o.payload) == "" ==> r == o.toolName.GetOr("")
  {
    if !IsCallType(o.itemType) then ""
    else
      var name := ToolName(o.payload);
      if name != "" then name else o.toolName.GetOr("")
  }

  function CountOutputs(outs: seq<OutputItem>): (c: Counts)
    ensures "" !in c && |c| <= |outs|
  {
    if |outs| == 0 then multiset{}
    else CountOutputs(outs[..|outs| - 1]) + CountName(OutputName(outs[|outs| - 1]))
  }

  /** Token usage of one raw response; `None` is a missing or `None` field. */
  datatype Usage = Usage(inputTokens: Option<int>, outputTokens: Option<int>, cachedTokens: Option<int>)

  /** One raw model response: its `output` items and its `usage`. */
  datatype Response = Response(output: seq<OutputItem>, usage: Option<Usage>)

  /** `_collect_from_raw_responses`. */
  function CountResponses(rs: seq<Response>): (c: Counts)
    ensures "" !in c
  {
    if |rs| == 0 then multiset{}
    else CountResponses(rs[..|rs| - 1]) + CountOutputs(rs[|rs| - 1].output)
  }

  /** What one SDK run returned. */
  datatype RunResult = RunResult(newItems: seq<Raw>, rawResponses: seq<Response>, finalOutput: Option<string>)

  /** `_collect_nested_tool_usage` of a run; a missing result counts nothing. */
  function Nested(result: Option<RunResult>): (c: Counts)
    ensures "" !in c
    ensures result.None? ==> c == multiset{}
  {
    match result
    case None => multiset{}
    case Some(r) => CountItems(r.newItems) + CountResponses(r.rawResponses)
  }

  /** `sum(nested_counts.values())`. */
  function ToolCalls(result: Option<RunResult>): nat {
    |Nested(result)|
  }

  // ---------------------------------------------------------------------
  // Token usage

  datatype Tokens = Tokens(prompt: int, completion: int, cached: int) {
    function Plus(o: Tokens): Tokens {
      Tokens(prompt + o.prompt, completion + o.completion, cached + o.cached)
    }
    predicate NonNegative() {
      prompt >= 0 && completion >= 0 && cached >= 0
    }
  }

  const NoTokens := Tokens(0, 0, 0)

  function UsageTokens(u: Option<Usage>): Tokens {
    match u
    case None => NoTokens
    case Some(x) => Tokens(x.inputTokens.GetOr(0), x.outputTokens.GetOr(0), x.cachedTokens.GetOr(0))
  }

  /** `_usage_from_raw_result`: the three totals over the responses. */
  function UsageOf(rs: seq<Response>): (t: Tokens)
    ensures |rs| == 0 ==> t == NoTokens
  {
    if |rs| == 0 then NoTokens
    else UsageOf(rs[..|rs| - 1]).Plus(UsageTokens(rs[|rs| - 1].usage))
  }

  /** Every field present in a usage record is non-negative. */
  predicate UsageNonNegative(u: Option<Usage>) {
    u.Some? ==>
      && u.value.inputTokens.GetOr(0) >= 0
      && u.value.outputTokens.GetOr(0) >= 0
      && u.value.cachedTokens.GetOr(0) >= 0
  }

  /** The totals are non-negative when every reported count is. */
  lemma {:induction false} UsageOfNonNegative(rs: seq<Response>)
    requires forall i :: 0 <= i < |rs| ==> UsageNonNegative(rs[i].usage)
    ensures UsageOf(rs).NonNegative()
  {
    if |rs| > 0 {
      UsageOfNonNegative(rs[..|rs| - 1]);
    }
  }

  /** Responses without usage add nothing; a response's usage adds exactly its fields. */
  lemma {:induction false} UsageOfAppend(a: seq<Response>, b: seq<Response>)
    ensures UsageOf(a + b) == UsageOf(a).Plus(UsageOf(b))
    decreases |b|
  {
    if |b| == 0 {
      assert a + b == a;
    } else {
      assert (a + b)[..|a + b| - 1] == a + b[..|b| - 1];
      UsageOfAppend(a, b[..|b| - 1]);
    }
  }

  /** The usage of one attempt; a missing result used no tokens. */
  function AttemptTokens(result: Option<RunResult>): Tokens {
    if result.Some? then UsageOf(result.value.rawResponses) else NoTokens
  }

  // ---------------------------------------------------------------------
  // The run

  const PromptEmpty: string := "ERROR: prompt cannot be empty"
  const SdkMissing: string := "ERROR: OpenAI Agents SDK is not available."
  const RunFailed: string := "ERROR: sub-agent run failed."
  const EmptyResponse: string := "ERROR: sub-agent returned an empty response."
  const MandatorySuffix: string :=
    "\n\nMANDATORY: Use your available tools to gather evidence before answering. Do not answer from memory only."

  /** The agent the runner builds; tools are left abstract. */
  datatype AgentSpec = AgentSpec(name: string, instructions: string, model: Option<string>)

  /** What one SDK call did: returned a result (possibly `None`) or raised. */
  datatype Attempt = Returned(result: Option<RunResult>) | Raised(error: string)

  /** The SDK call `Runner.run_sync(agent, input, max_turns=...)`. */
  type Oracle = (AgentSpec, string, int) -> Attempt

  /** What the runner reports to the usage store after the loop. */
  datatype UsageReport = UsageReport(toolCounts: Counts, tokens: Option<(string, Tokens)>)

  /** The runner's answer, or an exception it lets through. */
  datatype Reply = Answer(text: string) | Exception(error: string)

  /** The reply, the inputs sent to the SDK in order, and the report made (if any). */
  datatype RunOutcome = RunOutcome(reply: Reply, inputs: seq<string>, report: Option<UsageReport>)

  /** The final output a result carries, `""` when it has none. */
  function OutputOf(result: Option<RunResult>): string {
    if result.Some? then result.value.finalOutput.GetOr("") else ""
  }

  /** The end of `run`: tool counts of the last attempt, the token totals
      accumulated over the attempts (reported only when a model was
      resolved), and the stripped final output of the last attempt. */
  function Finish(model: Option<string>, inputs: seq<string>, last: Option<RunResult>, total: Tokens): (o: RunOutcome)
    ensures o.inputs == inputs && o.report.Some?
    ensures last.None? ==> o.reply == Answer(RunFailed)
    ensures last.Some? && IsBlank(OutputOf(last)) ==> o.reply == Answer(EmptyResponse)
    ensures last.Some? && !IsBlank(OutputOf(last)) ==> o.reply == Answer(Trim(OutputOf(last)))
  {
    TrimSpec(OutputOf(last));
    var report := UsageReport(Nested(last), if model.Some? then Some((model.value, total)) else None);
    var reply :=
      if last.None? then RunFailed
      else
        var output := Trim(last.value.finalOutput.GetOr(""));
        if output == "" then EmptyResponse else output;
    RunOutcome(Answer(reply), inputs, Some(report))
  }

  /** `SubAgentRunner.run`. */
  function Run(sdkAvailable: bool, oracle: Oracle, modelName: string, envVarName: string,
               env: map<string, string>, maxTurns: int,
               prompt: string, agentName: string, systemPrompt: string): (o: RunOutcome)
    ensures |o.inputs| <= 2
    ensures sdkAvailable && !IsBlank(prompt) ==> |o.inputs| >= 1
  {
    TrimSpec(prompt);
    if Trim(prompt) == "" then RunOutcome(Answer(PromptEmpty), [], None)
    else if !sdkAvailable then RunOutcome(Answer(SdkMissing), [], None)
    else
      var model := ResolvedModel(modelName, envVarName, env);
      var agent := AgentSpec(agentName, systemPrompt, model);
      var first := Trim(prompt);
      match oracle(agent, first, maxTurns)
      case Raised(e) => RunOutcome(Exception(e), [first], None)
      case Returned(r1) =>
        var total := AttemptTokens(r1);
        if ToolCalls(r1) > 0 then Finish(model, [first], r1, total)
        else
          var second := first + MandatorySuffix;
          match oracle(agent, second, maxTurns)
          case Raised(e) => RunOutcome(Exception(e), [first, second], None)
          case Returned(r2) => Finish(model, [first, second], r2, total.Plus(AttemptTokens(r2)))
  }

  // ---------------------------------------------------------------------
  // The policy, stated over the oracle's answers

  /** The agent `run` builds for this configuration. */
  function AgentFor(modelName: string, envVarName: string, env: map<string, string>,
                    agentName: string, systemPrompt: string): AgentSpec {
    AgentSpec(agentName, systemPrompt, ResolvedModel(modelName, envVarName, env))
  }

  /** A blank prompt, or a missing SDK, is answered without any attempt and
      without reporting anything. */
  lemma NoAttemptWithoutPromptOrSdk(sdkAvailable: bool, oracle: Oracle, modelName: string, envVarName: string,
                                    env: map<string, string>, maxTurns: int,
                                    prompt: string, agentName: string, systemPrompt: string)
    requires IsBlank(prompt) || !sdkAvailable
    ensures var o := Run(sdkAvailable, oracle, modelName, envVarName, env, maxTurns, prompt, agentName, systemPrompt);
      o.inputs == [] && o.report == None &&
      o.reply == Answer(if IsBlank(prompt) then PromptEmpty else SdkMissing)
  {
    TrimSpec(prompt);
  }

  /** At most two attempts: the first sends the stripped prompt; a second,
      with the mandatory-tools suffix, runs exactly when the first returned
      and counted no tool call. */
  lemma RetryOnlyWithoutToolCalls(oracle: Oracle, modelName: string, envVarName: string,
                                  env: map<string, string>, maxTurns: int,
                                  prompt: string, agentName: string, systemPrompt: string)
    requires !IsBlank(prompt)
    ensures var o := Run(true, oracle, modelName, envVarName, env, maxTurns, prompt, agentName, systemPrompt);
      var a1 := oracle(AgentFor(modelName, envVarName, env, agentName, systemPrompt), Trim(prompt), maxTurns);
      && 1 <= |o.inputs| <= 2
      && o.inputs[0] == Trim(prompt)
      && (|o.inputs| == 2 <==> a1.Returned? && ToolCalls(a1.result) == 0)
      && (|o.inputs| == 2 ==> o.inputs[1] == Trim(prompt) + MandatorySuffix)
  {
    TrimSpec(prompt);
  }

  /** An exception from the SDK escapes `run`, and nothing is reported. */
  lemma RaisedEscapes(oracle: Oracle, modelName: string, envVarName: string,
                      env: map<string, string>, maxTurns: int,
                      prompt: string, agentName: string, systemPrompt: string)
    requires !IsBlank(prompt)
    ensures var o := Run(true, oracle, modelName, envVarName, env, maxTurns, prompt, agentName, systemPrompt);
      var agent := AgentFor(modelName, envVarName, env, agentName, systemPrompt);
      var inputs := o.inputs;
      o.reply.Exception? <==> oracle(agent, inputs[|inputs| - 1], maxTurns).Raised?
    ensures var o := Run(true, oracle, modelName, envVarName, env, maxTurns, prompt, agentName, systemPrompt);
      o.reply.Exception? <==> o.report.None?
  {
    RetryOnlyWithoutToolCalls(oracle, modelName, envVarName, env, maxTurns, prompt, agentName, systemPrompt);
  }

  /** When both attempts return, the reported tool counts are those of the
      second attempt, which are all the tool calls made (the first made
      none), and the reported token totals add up both attempts. */
  lemma TwoAttemptsReport(oracle: Oracle, modelName: string, envVarName: string,
                          env: map<string, string>, maxTurns: int,
                          prompt: string, agentName: string, systemPrompt: string,
                          r1: Option<RunResult>, r2: Option<RunResult>)
    requires !IsBlank(prompt)
    requires var agent := AgentFor(modelName, envVarName, env, agentName, systemPrompt);
      && oracle(agent, Trim(prompt), maxTurns) == Returned(r1)
      && oracle(agent, Trim(prompt) + MandatorySuffix, maxTurns) == Returned(r2)
      && ToolCalls(r1) == 0
    ensures var o := Run(true, oracle, modelName, envVarName, env, maxTurns, prompt, agentName, systemPrompt);
      var model := ResolvedModel(modelName, envVarName, env);
      && o.report.Some?
      && o.report.value.toolCounts == Nested(r2) == Nested(r1) + Nested(r2)
      && o.report.value.tokens ==
           (if model.Some? then Some((model.value, AttemptTokens(r1).Plus(AttemptTokens(r2)))) else None)
  {
    TrimSpec(prompt);
    assert Nested(r1) == multiset{};
    var first := Trim(prompt);
    var model := ResolvedModel(modelName, envVarName, env);
    var t1 := AttemptTokens(r1);
    assert Run(true, oracle, modelName, envVarName, env, maxTurns, prompt, agentName, systemPrompt)
      == Finish(model, [first, first + MandatorySuffix], r2, t1.Plus(AttemptTokens(r2)));
  }

  /** When the first attempt already made tool calls, it is the only one,
      and the report carries its counts and its tokens. */
  lemma OneAttemptReport(oracle: Oracle, modelName: string, envVarName: string,
                         env: map<string, string>, maxTurns: int,
                         prompt: string, agentName: string, systemPrompt: string,
                         r1: Option<RunResult>)
    requires !IsBlank(prompt)
    requires var agent := AgentFor(modelName, envVarName, env, agentName, systemPrompt);
      oracle(agent, Trim(prompt), maxTurns) == Returned(r1) && ToolCalls(r1) > 0
    ensures var o := Run(true, oracle, modelName, envVarName, env, maxTurns, prompt, agentName, systemPrompt);
      var model := ResolvedModel(modelName, envVarName, env);
      && o.inputs == [Trim(prompt)]
      && o.report.Some?
      && o.report.value.toolCounts == Nested(r1)
      && o.report.value.tokens == (if model.Some? then Some((model.value, AttemptTokens(r1))) else None)
  {
    TrimSpec(prompt);
    var first := Trim(prompt);
    var model := ResolvedModel(modelName, envVarName, env);
    var t1 := AttemptTokens(r1);
    assert Run(true, oracle, modelName, envVarName, env, maxTurns, prompt, agentName, systemPrompt)
      == Finish(model, [first], r1, t1);
  }

  /** When the last attempt returns, `run` answers with its stripped final
      output, or the matching error when the result or its output is
      missing or blank. */
  lemma ReplyIsLastOutput(oracle: Oracle, modelName: string, envVarName: string,
                          env: map<string, string>, maxTurns: int,
                          prompt: string, agentName: string, systemPrompt: string)
    requires !IsBlank(prompt)
    ensures var o := Run(true, oracle, modelName, envVarName, env, maxTurns, prompt, agentName, systemPrompt);
      var last := oracle(AgentFor(modelName, envVarName, env, agentName, systemPrompt), o.inputs[|o.inputs| - 1], maxTurns);
      last.Returned? ==>
        && (last.result.None? ==> o.reply == Answer(RunFailed))
        && (last.result.Some? && IsBlank(OutputOf(last.result)) ==> o.reply == Answer(EmptyResponse))
        && (last.result.Some? && !IsBlank(OutputOf(last.result)) ==> o.reply == Answer(Trim(OutputOf(last.result))))
  {
    TrimSpec(prompt);
    var agent := AgentFor(modelName, envVarName, env, agentName, systemPrompt);
    var model := ResolvedModel(modelName, envVarName, env);
    var first := Trim(prompt);
    var second := first + MandatorySuffix;
    var o := Run(true, oracle, modelName, envVarName, env, maxTurns, prompt, agentName, systemPrompt);
    match oracle(agent, first, maxTurns)
    case Raised(e) =>
      assert o.inputs == [first];
    case Returned(r1) =>
      if ToolCalls(r1) > 0 {
        assert o == Finish(model, [first], r1, AttemptTokens(r1));
      } else {
        match oracle(agent, second, maxTurns)
        case Raised(e) =>
          assert o.inputs == [first, second];
        case Returned(r2) =>
          var total := AttemptTokens(r1).Plus(AttemptTokens(r2));
          assert o == Finish(model, [first, second], r2, total);
      }
  }
}

=== FILE: task_board.dfy ===
/** The live per-request task board (`chack_tools/task_list_state.py`).

    A store maps session ids to sessions; a session holds its runs in the
    order they were first touched; a run holds an ordered task list and the
    id the next added task receives. `Apply` is the single mutation entry
    point: a pure transition returning the new store, the result string and
    whether the session's listeners were notified. */
module TaskBoard {
  import opened Wrappers
  import opened Strings

  datatype Task = Task(id: int, text: string, status: string, notes: string)

  /** One run's list; `nextId` is the id the next added task receives. */
  datatype Run = Run(initialized: bool, nextId: int, tasks: seq<Task>)

  datatype RunEntry = RunEntry(runLabel: string, run: Run)

  /** A session; `runs` is an insertion-ordered map from run label to run. */
  datatype Session = Session(title: string, runs: seq<RunEntry>)

  /** Listener callbacks are identified by opaque handles. */
  type Listener = nat

  datatype Store = Store(sessions: map<string, Session>, listeners: map<string, seq<Listener>>)

  const DefaultTitle: string := "Task List"
  const FreshRun: Run := Run(false, 1, [])
  const EmptyStore: Store := Store(map[], map[])

  // ---------------------------------------------------------------------
  // Runs of a session, by label

  function Labels(runs: seq<RunEntry>): (r: seq<string>)
    ensures |r| == |runs|
    ensures forall i :: 0 <= i < |runs| ==> r[i] == runs[i].runLabel
  {
    seq(|runs|, i requires 0 <= i < |runs| => runs[i].runLabel)
  }

  /** Position of the first occurrence of `key` at or after `i`, or `|keys|`. */
  function FirstFrom<K(==)>(keys: seq<K>, key: K, i: nat): (k: nat)
    requires i <= |keys|
    ensures i <= k <= |keys|
    ensures forall j :: i <= j < k ==> keys[j] != key
    ensures k < |keys| ==> keys[k] == key
    decreases |keys| - i
  {
    if i == |keys| || keys[i] == key then i else FirstFrom(keys, key, i + 1)
  }

  /** Position of the entry labelled `runLabel`, or `|runs|` when there is none. */
  function LabelIndex(runs: seq<RunEntry>, runLabel: string): (k: nat)
    ensures k <= |runs|
    ensures forall j :: 0 <= j < k ==> runs[j].runLabel != runLabel
    ensures k < |runs| ==> runs[k].runLabel == runLabel
  {
    FirstFrom(Labels(runs), runLabel, 0)
  }

  /** The first position carrying a label is unique. */
  lemma LabelIndexIs(runs: seq<RunEntry>, runLabel: string, k: nat)
    requires k <= |runs|
    requires forall j :: 0 <= j < k ==> runs[j].runLabel != runLabel
    requires k < |runs| ==> runs[k].runLabel == runLabel
    ensures LabelIndex(runs, runLabel) == k
  {
  }

  /** `runs.get(runLabel)`. */
  function FindRun(runs: seq<RunEntry>, runLabel: string): Option<Run> {
    var k := LabelIndex(runs, runLabel);
    if k < |runs| then Some(runs[k].run) else None
  }

  /** A run is found exactly when its label is present, and what is found
      is the run stored under that label. */
  lemma FindRunSpec(runs: seq<RunEntry>, runLabel: string)
    ensures FindRun(runs, runLabel).None? <==> runLabel !in Labels(runs)
    ensures FindRun(runs, runLabel).Some? ==> RunEntry(runLabel, FindRun(runs, runLabel).value) in runs
  {
    var k := LabelIndex(runs, runLabel);
    if k < |runs| {
      assert Labels(runs)[k] == runLabel;
      assert runs[k] == RunEntry(runLabel, runs[k].run);
    }
  }

  /** `runs[runLabel] = run`: an existing entry keeps its place, a new one goes last. */
  function PutRun(runs: seq<RunEntry>, runLabel: string, run: Run): (r: seq<RunEntry>)
    ensures FindRun(r, runLabel) == Some(run)
  {
    var k := LabelIndex(runs, runLabel);
    var r := if k < |runs| then runs[k := RunEntry(runLabel, run)] else runs + [RunEntry(runLabel, run)];
    LabelIndexIs(r, runLabel, k);
    r
  }

  /** Putting a run adds that entry and otherwise only keeps old entries. */
  lemma PutRunEntries(runs: seq<RunEntry>, runLabel: string, run: Run)
    ensures forall e :: e in PutRun(runs, runLabel, run) ==> e in runs || e == RunEntry(runLabel, run)
  {
    var r := PutRun(runs, runLabel, run);
    forall e | e in r
      ensures e in runs || e == RunEntry(runLabel, run)
    {
      var i :| 0 <= i < |r| && r[i] == e;
      if i < |runs| && r[i] != RunEntry(runLabel, run) {
        assert e == runs[i];
      }
    }
  }

  /** Putting one run leaves the lookup of every other label unchanged. */
  lemma PutRunOthers(runs: seq<RunEntry>, runLabel: string, run: Run, other: string)
    requires other != runLabel
    ensures FindRun(PutRun(runs, runLabel, run), other) == FindRun(runs, other)
  {
    var r := PutRun(runs, runLabel, run);
    var m := LabelIndex(runs, other);
    if m < |runs| {
      LabelIndexIs(r, other, m);
    } else {
      LabelIndexIs(r, other, |r|);
    }
  }

  /** Putting a run keeps the label order, appending a label that was new. */
  lemma PutRunLabels(runs: seq<RunEntry>, runLabel: string, run: Run)
    ensures runLabel in Labels(runs) ==> Labels(PutRun(runs, runLabel, run)) == Labels(runs)
    ensures runLabel !in Labels(runs) ==> Labels(PutRun(runs, runLabel, run)) == Labels(runs) + [runLabel]
  {
    FindRunSpec(runs, runLabel);
  }

  // ---------------------------------------------------------------------
  // Store operations

  /** `get_session`. */
  function GetSession(st: Store, sessionId: string): (r: Option<Session>)
    ensures r.Some? <==> sessionId in st.sessions
    ensures r.Some? ==> r.value == st.sessions[sessionId]
  {
    if sessionId in st.sessions then Some(st.sessions[sessionId]) else None
  }

  /** `create_session`: replaces any session of that id with an empty one
      and gives it a listener list unless it already has one. */
  function CreateSession(st: Store, sessionId: string, title: string): (st': Store)
    ensures GetSession(st', sessionId) == Some(Session(title, []))
    ensures forall s :: s != sessionId ==> GetSession(st', s) == GetSession(st, s)
    ensures sessionId in st'.listeners
    ensures forall s :: s in st.listeners ==> s in st'.listeners && st'.listeners[s] == st.listeners[s]
  {
    Store(st.sessions[sessionId := Session(title, [])],
          if sessionId in st.listeners then st.listeners
          else st.listeners[sessionId := []])
  }

  /** The run `(sessionId, runLabel)` as `ensure_run` would hand it out: the
      stored one, or a fresh uninitialized run when there is none yet. */
  function RunOf(st: Store, sessionId: string, runLabel: string): Run {
    if sessionId in st.sessions then FindRun(st.sessions[sessionId].runs, runLabel).GetOr(FreshRun)
    else FreshRun
  }

  predicate HasRun(st: Store, sessionId: string, runLabel: string) {
    sessionId in st.sessions && FindRun(st.sessions[sessionId].runs, runLabel).Some?
  }

  /** `ensure_run`: creates the session (titled "Task List") and the run on
      demand; returns the store unchanged when both exist. */
  function EnsureRun(st: Store, sessionId: string, runLabel: string): (st': Store)
    ensures HasRun(st', sessionId, runLabel)
    ensures HasRun(st, sessionId, runLabel) ==> st' == st
    ensures RunOf(st', sessionId, runLabel) == RunOf(st, sessionId, runLabel)
    ensures st'.listeners == st.listeners
  {
    var s := SessionOrNew(st, sessionId);
    if FindRun(s.runs, runLabel).Some? then st
    else st.(sessions := st.sessions[sessionId := s.(runs := PutRun(s.runs, runLabel, FreshRun))])
  }

  function SessionOrNew(st: Store, sessionId: string): Session {
    if sessionId in st.sessions then st.sessions[sessionId] else Session(DefaultTitle, [])
  }

  /** `ensure_run` touches no other session and no other run, keeps an
      existing title and gives a new session the default one. */
  lemma EnsureRunFrame(st: Store, sessionId: string, runLabel: string)
    ensures var st' := EnsureRun(st, sessionId, runLabel);
      && (forall s :: s != sessionId ==> GetSession(st', s) == GetSession(st, s))
      && st'.sessions[sessionId].title == SessionOrNew(st, sessionId).title
      && (forall l :: l != runLabel ==>
            FindRun(st'.sessions[sessionId].runs, l) == FindRun(SessionOrNew(st, sessionId).runs, l))
  {
    var s := SessionOrNew(st, sessionId);
    forall l | l != runLabel {
      PutRunOthers(s.runs, runLabel, FreshRun, l);
    }
  }

  /** Stores `run` under `(sessionId, runLabel)`. */
  function SetRun(st: Store, sessionId: string, runLabel: string, run: Run): (st': Store)
    requires sessionId in st.sessions
    ensures HasRun(st', sessionId, runLabel) && RunOf(st', sessionId, runLabel) == run
    ensures st'.listeners == st.listeners
  {
    var s := st.sessions[sessionId];
    st.(sessions := st.sessions[sessionId := s.(runs := PutRun(s.runs, runLabel, run))])
  }

  /** Storing a run leaves every other session, the title and every other run alone. */
  lemma SetRunFrame(st: Store, sessionId: string, runLabel: string, run: Run)
    requires sessionId in st.sessions
    ensures var st' := SetRun(st, sessionId, runLabel, run);
      && (forall s :: s != sessionId ==> GetSession(st', s) == GetSession(st, s))
      && st'.sessions[sessionId].title == st.sessions[sessionId].title
      && (forall l :: l != runLabel ==>
            FindRun(st'.sessions[sessionId].runs, l) == FindRun(st.sessions[sessionId].runs, l))
  {
    var s := st.sessions[sessionId];
    forall l | l != runLabel {
      PutRunOthers(s.runs, runLabel, run, l);
    }
  }

  function ListenersOf(st: Store, sessionId: string): seq<Listener> {
    if sessionId in st.listeners then st.listeners[sessionId] else []
  }

  /** `register_listener`: the callback is added after those already registered. */
  function RegisterListener(st: Store, sessionId: string, callback: Listener): (st': Store)
    ensures ListenersOf(st', sessionId) == ListenersOf(st, sessionId) + [callback]
    ensures st'.sessions == st.sessions
    ensures forall s :: s != sessionId ==> ListenersOf(st', s) == ListenersOf(st, s)
  {
    st.(listeners := st.listeners[sessionId := ListenersOf(st, sessionId) + [callback]])
  }

  /** `list.remove`: drops the first occurrence of `x`, if any. */
  function RemoveFirst(xs: seq<Listener>, x: Listener): (r: seq<Listener>)
    ensures x !in xs ==> r == xs
    ensures x in xs ==> |r| == |xs| - 1 && multiset(r) == multiset(xs) - multiset{x}
  {
    if |xs| == 0 then []
    else
      assert xs == [xs[0]] + xs[1..];
      if xs[0] == x then xs[1..] else [xs[0]] + RemoveFirst(xs[1..], x)
  }

  /** `unregister_listener`: removes one registration of the callback. */
  function UnregisterListener(st: Store, sessionId: string, callback: Listener): (st': Store)
    ensures callback !in ListenersOf(st, sessionId) ==> st' == st
    ensures multiset(ListenersOf(st', sessionId)) == multiset(ListenersOf(st, sessionId)) - multiset{callback}
    ensures st'.sessions == st.sessions
    ensures forall s :: s != sessionId ==> ListenersOf(st', s) == ListenersOf(st, s)
  {
    var callbacks := ListenersOf(st, sessionId);
    if callback in callbacks then
      st.(listeners := st.listeners[sessionId := RemoveFirst(callbacks, callback)])
    else
      st
  }

  // ---------------------------------------------------------------------
  // Rendering

  /** The title-line prefix glyph, kept as an opaque constant. */
  const TitleGlyph: string := "\U{1F5C2}"
  const SessionNotFound: string := "Task list session not found."

  function Mark(status: string): char {
    if status == "done" then 'x' else if status == "doing" then '~' else ' '
  }

  function TaskLine(t: Task): string {
    "- [" + [Mark(t.status)] + "] " + IntToString(t.id) + ". " + t.text
  }

  function TaskBlock(t: Task): seq<string> {
    [TaskLine(t)] + (if t.notes != "" then ["  note: " + t.notes] else [])
  }

  function TaskLines(tasks: seq<Task>): seq<string> {
    if |tasks| == 0 then [] else TaskBlock(tasks[0]) + TaskLines(tasks[1..])
  }

  function Placeholder(run: Run): string {
    if !run.initialized then "- (not initialized)" else "- (no tasks)"
  }

  function RunBlock(e: RunEntry): seq<string> {
    ["", e.runLabel + ":"] + (if |e.run.tasks| == 0 then [Placeholder(e.run)] else TaskLines(e.run.tasks))
  }

  function RunLines(runs: seq<RunEntry>): seq<string> {
    if |runs| == 0 then [] else RunBlock(runs[0]) + RunLines(runs[1..])
  }

  function TitleLine(title: string): string {
    TitleGlyph + " " + title
  }

  /** The lines `render` joins. */
  function RenderLines(st: Store, sessionId: string): seq<string> {
    if sessionId !in st.sessions then [SessionNotFound]
    else
      var s := st.sessions[sessionId];
      [TitleLine(s.title)] + (if |s.runs| == 0 then ["- (no runs yet)"] else RunLines(s.runs))
  }

  /** `render`: a pure function of the store. A missing session renders
      as the not-found text; an existing one starts with its title line, so
      it never looks like a `SUCCESS:` result. */
  function Render(st: Store, sessionId: string): (r: string)
    ensures sessionId !in st.sessions ==> r == SessionNotFound
    ensures sessionId in st.sessions ==> StartsWith(r, TitleLine(st.sessions[sessionId].title)) && !IsSuccess(r)
  {
    var lines := RenderLines(st, sessionId);
    var r := Join(lines, "\n");
    JoinStartsWithFirst(lines, "\n");
    assert r[0] == lines[0][0];
    r
  }

  // ---------------------------------------------------------------------
  // The action protocol

  datatype Request = Request(
    sessionId: string,
    runLabel: string,
    action: string,
    taskId: Option<int>,
    text: string,
    status: string,
    tasksText: string,
    notes: string)

  datatype Outcome = Outcome(store: Store, result: string, notified: bool)

  /** Field changes of `update` and `complete`; `None` leaves a field alone. */
  datatype Patch = Patch(text: Option<string>, status: Option<string>, notes: Option<string>)

  const NotInitialized: string :=
    "Task list not initialized for this run. First call must be action=init."
  const UnsupportedAction: string :=
    "unsupported action. Use one of: init, list, add, update, complete, delete, clear, replace"

  /** `(action or "").strip().lower()`. */
  function ActionName(action: string): string {
    Lower(Trim(action))
  }

  /** The actions `apply` dispatches on. */
  datatype Action = Init | List | Add | Update | Complete | Delete | Clear | Replace | Unsupported

  /** The action name `apply` compares against. */
  function Name(a: Action): string {
    match a
    case Init => "init"
    case List => "list"
    case Add => "add"
    case Update => "update"
    case Complete => "complete"
    case Delete => "delete"
    case Clear => "clear"
    case Replace => "replace"
    case Unsupported => ""
  }

  /** Which branch of `apply` a normalized action name selects. */
  function ParseAction(name: string): (a: Action)
    ensures a != Unsupported ==> Name(a) == name
    ensures a == Unsupported <==>
      name !in {"init", "list", "add", "update", "complete", "delete", "clear", "replace"}
  {
    if name == "init" then Init
    else if name == "list" then List
    else if name == "add" then Add
    else if name == "update" then Update
    else if name == "complete" then Complete
    else if name == "delete" then Delete
    else if name == "clear" then Clear
    else if name == "replace" then Replace
    else Unsupported
  }

  /** `_parse_tasks`: the stripped non-blank lines, in order. The items are
      exactly the stripped lines that are not blank, none of them starts or
      ends with whitespace, and there are never more items than lines. */
  function ParseTasks(raw: string): (r: seq<string>)
    ensures forall x :: x in r <==> x != "" && x in TrimEach(SplitLines(raw))
    ensures forall x :: x in r ==> IsTrimmed(x)
    ensures |r| <= |SplitLines(raw)|
  {
    DropEmptyMembers(TrimEach(SplitLines(raw)));
    DropEmpty(TrimEach(SplitLines(raw)))
  }

  /** Text written as lines free of line breaks (the last one non-empty, so
      that no trailing empty line is implied) parses to those lines,
      stripped, with the blank ones dropped and the rest in their order. */
  lemma ParseTasksOfLines(lines: seq<string>)
    requires forall i :: 0 <= i < |lines| ==> forall k :: 0 <= k < |lines[i]| ==> !IsLineBoundary(lines[i][k])
    requires |lines| > 0 ==> lines[|lines| - 1] != ""
    ensures ParseTasks(Join(lines, "\n")) == DropEmpty(TrimEach(lines))
  {
    SplitLinesOfJoin(lines);
  }

  /** Round trip: stripped, non-empty items written one per line parse back
      to exactly those items. */
  lemma ParseTasksRoundTrip(items: seq<string>)
    requires forall i :: 0 <= i < |items| ==> items[i] != "" && IsTrimmed(items[i])
    requires forall i :: 0 <= i < |items| ==> forall k :: 0 <= k < |items[i]| ==> !IsLineBoundary(items[i][k])
    ensures ParseTasks(Join(items, "\n")) == items
  {
    ParseTasksOfLines(items);
    forall i | 0 <= i < |items|
      ensures TrimEach(items)[i] == items[i]
    {
      TrimOfTrimmed(items[i]);
    }
    assert TrimEach(items) == items;
    DropEmptyKeeps(items);
  }

  /** The list `init` and `replace` build: ids 1..n, status "todo", no notes. */
  function Load(items: seq<string>): (r: Run)
    ensures r.initialized && r.nextId == |items| + 1 && |r.tasks| == |items|
    ensures forall i :: 0 <= i < |items| ==> r.tasks[i] == Task(i + 1, items[i], "todo", "")
  {
    Run(true, |items| + 1, seq(|items|, i requires 0 <= i < |items| => Task(i + 1, items[i], "todo", "")))
  }

  function Ids(tasks: seq<Task>): (r: seq<int>)
    ensures |r| == |tasks|
    ensures forall i :: 0 <= i < |tasks| ==> r[i] == tasks[i].id
  {
    seq(|tasks|, i requires 0 <= i < |tasks| => tasks[i].id)
  }

  /** Position of the first task with id `id`, or `|tasks|` when there is none. */
  function IndexOf(tasks: seq<Task>, id: int): (k: nat)
    ensures k <= |tasks|
    ensures forall i :: 0 <= i < k ==> tasks[i].id != id
    ensures k < |tasks| ==> tasks[k].id == id
  {
    FirstFrom(Ids(tasks), id, 0)
  }

  function ApplyPatch(t: Task, p: Patch): Task {
    Task(t.id, p.text.GetOr(t.text), p.status.GetOr(t.status), p.notes.GetOr(t.notes))
  }

  /** Patches the first task with id `id` (the one `next(...)` finds) in place. */
  function PatchFirst(tasks: seq<Task>, id: int, p: Patch): (r: seq<Task>)
    ensures |r| == |tasks|
    ensures forall i :: 0 <= i < |tasks| ==> r[i].id == tasks[i].id
  {
    var k := IndexOf(tasks, id);
    if k < |tasks| then tasks[k := ApplyPatch(tasks[k], p)] else tasks
  }

  /** `[t for t in tasks if t.id != id]`. */
  function WithoutId(tasks: seq<Task>, id: int): (r: seq<Task>)
    ensures |r| <= |tasks|
  {
    if |tasks| == 0 then []
    else if tasks[0].id == id then WithoutId(tasks[1..], id)
    else [tasks[0]] + WithoutId(tasks[1..], id)
  }

  /** `WithoutId` keeps exactly the tasks whose id differs. */
  lemma {:induction false} WithoutIdMembers(tasks: seq<Task>, id: int)
    ensures forall t :: t in WithoutId(tasks, id) <==> t in tasks && t.id != id
  {
    if |tasks| > 0 {
      WithoutIdMembers(tasks[1..], id);
      assert tasks == [tasks[0]] + tasks[1..];
    }
  }

  /** A non-blank argument, stripped; blank means "leave the field alone". */
  function NonBlank(s: string): Option<string> {
    if Trim(s) == "" then None else Some(Trim(s))
  }

  function CompletePatch(notes: string): Patch {
    Patch(None, Some("done"), NonBlank(notes))
  }

  function UpdatePatch(q: Request): Patch {
    Patch(NonBlank(q.text),
          if Trim(q.status) == "" then None else Some(Lower(Trim(q.status))),
          NonBlank(q.notes))
  }

  /** What one action does to the addressed run: store a new run and
      report success, refuse with an error, or show the board. */
  datatype Effect = Save(run: Run, message: string) | Fail(message: string) | Show

  /** The task `add` appends. */
  function NewTask(q: Request, run: Run): Task {
    Task(run.nextId, Trim(q.text), if q.status == "" then "todo" else q.status, "")
  }

  /** `add` on an initialized run. */
  function AddStep(q: Request, run: Run): Effect {
    if Trim(q.text) == "" then Fail("text is required for action=add")
    else
      Save(run.(nextId := run.nextId + 1, tasks := run.tasks + [NewTask(q, run)]),
           "added task " + IntToString(run.nextId))
  }

  /** `update`, `complete` and `delete` on an initialized run. */
  function TaskStep(q: Request, run: Run, action: Action): Effect {
    if q.taskId.None? then Fail("task_id is required for action=" + Name(action))
    else
      var id := q.taskId.value;
      if IndexOf(run.tasks, id) == |run.tasks| then
        Fail("task_id " + IntToString(id) + " not found")
      else if action == Delete then
        Save(run.(tasks := WithoutId(run.tasks, id)), "deleted task " + IntToString(id))
      else if action == Complete then
        Save(run.(tasks := PatchFirst(run.tasks, id, CompletePatch(q.notes))),
             "completed task " + IntToString(id))
      else
        Save(run.(tasks := PatchFirst(run.tasks, id, UpdatePatch(q))),
             "updated task " + IntToString(id))
  }

  /** The branches of `apply` after `ensure_run`, as a function of the run
      alone. Every run that gets stored is initialized. */
  function Step(q: Request, action: Action, run: Run): (e: Effect)
    ensures e.Save? ==> e.run.initialized
    ensures !action.Init? && !action.List? && !run.initialized ==> e == Fail(NotInitialized)
  {
    if action.Init? then
      var loaded := Load(ParseTasks(q.tasksText));
      Save(loaded, "initialized " + NatToString(|loaded.tasks|) + " tasks for " + q.runLabel)
    else if action.List? then Show
    else if !run.initialized then Fail(NotInitialized)
    else if action.Add? then AddStep(q, run)
    else if action.Update? || action.Complete? || action.Delete? then TaskStep(q, run, action)
    else if action.Clear? then Save(Run(true, 1, []), "cleared tasks for " + q.runLabel)
    else if action.Replace? then
      var loaded := Load(ParseTasks(q.tasksText));
      Save(loaded, "replaced tasks for " + q.runLabel + " with " + NatToString(|loaded.tasks|) + " items")
    else Fail(UnsupportedAction)
  }

  /** A successful mutation: stores the new run and notifies once. */
  function Commit(st: Store, q: Request, run: Run, message: string): (o: Outcome)
    requires q.sessionId in st.sessions
    ensures o.notified && IsSuccess(o.result)
    ensures o.store == SetRun(st, q.sessionId, q.runLabel, run)
  {
    SuccessIsSuccess(message);
    Outcome(SetRun(st, q.sessionId, q.runLabel, run), Success(message), true)
  }

  /** A failed or read-only call: no change, no notification. */
  function Refuse(st: Store, message: string): (o: Outcome)
    ensures !o.notified && o.store == st && IsError(o.result) && !IsSuccess(o.result)
  {
    ErrorIsError(message);
    Outcome(st, Error(message), false)
  }

  /** What every branch after `ensure_run` keeps: a notification exactly
      for a `SUCCESS:` result; no change without one; with one, the new
      store is the old one with just this run replaced. */
  predicate Settled(st: Store, q: Request, o: Outcome)
    requires q.sessionId in st.sessions
  {
    && (o.notified <==> IsSuccess(o.result))
    && (!o.notified ==> o.store == st)
    && (o.notified ==> o.store == SetRun(st, q.sessionId, q.runLabel, RunOf(o.store, q.sessionId, q.runLabel)))
  }

  /** Carries out a step on the store that holds the run. */
  function ApplyAction(st: Store, q: Request, e: Effect): (o: Outcome)
    requires HasRun(st, q.sessionId, q.runLabel)
    ensures Settled(st, q, o)
  {
    match e
    case Save(run, message) => Commit(st, q, run, message)
    case Fail(message) => Refuse(st, message)
    case Show =>
      Outcome(st, Render(st, q.sessionId), false)
  }

  /** `TaskListStore.apply`. The listeners are notified exactly when the
      result is a `SUCCESS:` one; every other call leaves the board as
      `ensure_run` made it (or untouched when the action is blank). */
  function Apply(st: Store, q: Request): (o: Outcome)
    ensures o.notified <==> IsSuccess(o.result)
    ensures !o.notified ==>
      o.store == (if ActionName(q.action) == "" then st else EnsureRun(st, q.sessionId, q.runLabel))
    ensures o.notified ==>
      o.store == SetRun(EnsureRun(st, q.sessionId, q.runLabel), q.sessionId, q.runLabel,
                        RunOf(o.store, q.sessionId, q.runLabel))
    ensures ActionName(q.action) != "" ==> HasRun(o.store, q.sessionId, q.runLabel)
    ensures o.store.listeners == st.listeners
  {
    var action := ActionName(q.action);
    if action == "" then Refuse(st, "action is required")
    else
      ApplyAction(EnsureRun(st, q.sessionId, q.runLabel), q,
                  Step(q, ParseAction(action), RunOf(st, q.sessionId, q.runLabel)))
  }

  /** `apply` touches no other session, and in its own session no other run. */
  lemma ApplyFrame(st: Store, q: Request)
    ensures var o := Apply(st, q);
      forall s :: s != q.sessionId ==> GetSession(o.store, s) == GetSession(st, s)
    ensures var o := Apply(st, q);
      q.sessionId in st.sessions ==>
        q.sessionId in o.store.sessions &&
        forall l :: l != q.runLabel ==>
          FindRun(o.store.sessions[q.sessionId].runs, l) == FindRun(st.sessions[q.sessionId].runs, l)
  {
    var o := Apply(st, q);
    if ActionName(q.action) != "" {
      var st1 := EnsureRun(st, q.sessionId, q.runLabel);
      EnsureRunFrame(st, q.sessionId, q.runLabel);
      if o.notified {
        SetRunFrame(st1, q.sessionId, q.runLabel, RunOf(o.store, q.sessionId, q.runLabel));
      }
    }
  }

  // ---------------------------------------------------------------------
  // Notification

  /** One listener call made by `_notify`. */
  datatype Delivery = Delivery(listener: Listener, text: string)

  /** The calls `_notify` makes after a mutation: every registered listener,
      in registration order, receives the freshly rendered board. A failing
      callback is swallowed, so it cannot shorten this list. */
  function Notifications(o: Outcome, sessionId: string): (ds: seq<Delivery>)
    ensures !o.notified ==> ds == []
    ensures o.notified ==> |ds| == |ListenersOf(o.store, sessionId)|
  {
    if !o.notified then []
    else
      var ls := ListenersOf(o.store, sessionId);
      seq(|ls|, i requires 0 <= i < |ls| => Delivery(ls[i], Render(o.store, sessionId)))
  }
}

=== FILE: task_board_properties.dfy ===
/** What the task board promises across calls: the id invariant every action
    keeps, the init gate, that failures and `list` change nothing, that
    listing is repeatable, and that a notification carries the board a
    following `list` would show. */
module TaskBoardProperties {
  import opened Wrappers
  import opened Strings
  import opened TaskBoard

  // ---------------------------------------------------------------------
  // The id invariant

  /** Ids strictly increase along the list. */
  predicate IdsIncreasing(tasks: seq<Task>) {
    forall i, j :: 0 <= i < j < |tasks| ==> tasks[i].id < tasks[j].id
  }

  /** A run's ids are positive, strictly increasing, and all below `nextId`. */
  predicate RunWf(r: Run) {
    && 1 <= r.nextId
    && (forall i :: 0 <= i < |r.tasks| ==> 1 <= r.tasks[i].id < r.nextId)
    && IdsIncreasing(r.tasks)
  }

  predicate Distinct(xs: seq<string>) {
    forall i, j :: 0 <= i < j < |xs| ==> xs[i] != xs[j]
  }

  predicate SessionWf(s: Session) {
    && Distinct(Labels(s.runs))
    && (forall e :: e in s.runs ==> RunWf(e.run))
  }

  predicate StoreWf(st: Store) {
    forall sid :: sid in st.sessions ==> SessionWf(st.sessions[sid])
  }

  lemma EmptyStoreWf()
    ensures StoreWf(EmptyStore)
  {
  }

  lemma PutRunWf(runs: seq<RunEntry>, runLabel: string, run: Run)
    requires SessionWf(Session("", runs)) && RunWf(run)
    ensures SessionWf(Session("", PutRun(runs, runLabel, run)))
  {
    PutRunLabels(runs, runLabel, run);
    PutRunEntries(runs, runLabel, run);
    var ls := Labels(runs);
    if runLabel !in ls {
      assert forall i :: 0 <= i < |ls| ==> ls[i] != runLabel;
    }
  }

  lemma EnsureRunWf(st: Store, sessionId: string, runLabel: string)
    requires StoreWf(st)
    ensures StoreWf(EnsureRun(st, sessionId, runLabel))
  {
    var s := SessionOrNew(st, sessionId);
    assert SessionWf(Session("", s.runs));
    PutRunWf(s.runs, runLabel, FreshRun);
  }

  lemma SetRunWf(st: Store, sessionId: string, runLabel: string, run: Run)
    requires StoreWf(st) && sessionId in st.sessions && RunWf(run)
    ensures StoreWf(SetRun(st, sessionId, runLabel, run))
  {
    var s := st.sessions[sessionId];
    assert SessionWf(Session("", s.runs));
    PutRunWf(s.runs, runLabel, run);
  }

  lemma LoadWf(items: seq<string>)
    ensures RunWf(Load(items))
  {
  }

  /** Dropping tasks keeps the ids increasing. */
  lemma {:induction false} WithoutIdIncreasing(tasks: seq<Task>, id: int)
    requires IdsIncreasing(tasks)
    ensures IdsIncreasing(WithoutId(tasks, id))
  {
    if |tasks| > 0 {
      WithoutIdIncreasing(tasks[1..], id);
      WithoutIdMembers(tasks[1..], id);
      var rest := WithoutId(tasks[1..], id);
      if tasks[0].id != id {
        var r := [tasks[0]] + rest;
        forall i, j | 0 <= i < j < |r|
          ensures r[i].id < r[j].id
        {
          if i == 0 {
            assert r[j] in rest;
          } else {
            assert r[i] == rest[i - 1] && r[j] == rest[j - 1];
          }
        }
      }
    }
  }

  /** A run handed out by `ensure_run` on a well-formed store is well formed. */
  lemma RunOfWf(st: Store, sessionId: string, runLabel: string)
    requires StoreWf(st)
    ensures RunWf(RunOf(st, sessionId, runLabel))
  {
    if sessionId in st.sessions {
      var runs := st.sessions[sessionId].runs;
      FindRunSpec(runs, runLabel);
      if FindRun(runs, runLabel).Some? {
        assert RunEntry(runLabel, FindRun(runs, runLabel).value) in runs;
      }
    }
  }

  // ---------------------------------------------------------------------
  // `apply` as a step on the addressed run

  /** Every action name `apply` knows selects its own branch. */
  lemma ParseName(a: Action)
    requires a != Unsupported
    ensures ParseAction(Name(a)) == a
  {
  }

  /** `apply` with a non-blank action creates the run if needed, then either
      stores the run its step computes and reports success, or reports the
      step's error, or shows the board; nothing else changes. */
  lemma ApplyStores(st: Store, q: Request)
    requires ActionName(q.action) != ""
    ensures var o := Apply(st, q);
      var st1 := EnsureRun(st, q.sessionId, q.runLabel);
      match Step(q, ParseAction(ActionName(q.action)), RunOf(st, q.sessionId, q.runLabel))
      case Save(r, m) => o == Outcome(SetRun(st1, q.sessionId, q.runLabel, r), Success(m), true)
      case Fail(m) => o == Outcome(st1, Error(m), false)
      case Show => o == Outcome(st1, Render(st1, q.sessionId), false)
  {
  }

  /** When the step saves a run, `apply` stores exactly that run under the
      addressed label and answers with the step's success message. */
  lemma ApplySaves(st: Store, q: Request)
    requires ActionName(q.action) != ""
    requires Step(q, ParseAction(ActionName(q.action)), RunOf(st, q.sessionId, q.runLabel)).Save?
    ensures var e := Step(q, ParseAction(ActionName(q.action)), RunOf(st, q.sessionId, q.runLabel));
      var o := Apply(st, q);
      o.notified && o.result == Success(e.message) && RunOf(o.store, q.sessionId, q.runLabel) == e.run
  {
    ApplyStores(st, q);
  }

  /** `complete` and `update` patch the first task with the id in place. */
  lemma PatchFirstAt(tasks: seq<Task>, id: int, p: Patch)
    requires IndexOf(tasks, id) < |tasks|
    ensures var k := IndexOf(tasks, id);
      var r := PatchFirst(tasks, id, p);
      && r[k] == ApplyPatch(tasks[k], p)
      && (forall i :: 0 <= i < |tasks| && i != k ==> r[i] == tasks[i])
  {
  }

  /** `delete` keeps a well-formed run well formed. */
  lemma DeleteWf(run: Run, id: int)
    requires RunWf(run)
    ensures RunWf(run.(tasks := WithoutId(run.tasks, id)))
  {
    var tasks := WithoutId(run.tasks, id);
    WithoutIdIncreasing(run.tasks, id);
    WithoutIdMembers(run.tasks, id);
    forall i | 0 <= i < |tasks|
      ensures 1 <= tasks[i].id < run.nextId
    {
      assert tasks[i] in run.tasks;
    }
  }

  /** `update` and `complete` keep a well-formed run well formed. */
  lemma PatchWf(run: Run, id: int, p: Patch)
    requires RunWf(run)
    ensures RunWf(run.(tasks := PatchFirst(run.tasks, id, p)))
  {
  }

  /** The steps on task ids store one of the runs `DeleteWf` and `PatchWf` cover. */
  lemma TaskStepWf(q: Request, run: Run, action: Action)
    requires RunWf(run) && TaskStep(q, run, action).Save?
    ensures RunWf(TaskStep(q, run, action).run)
  {
    var id := q.taskId.value;
    if action == Delete {
      DeleteWf(run, id);
    } else if action == Complete {
      PatchWf(run, id, CompletePatch(q.notes));
    } else {
      PatchWf(run, id, UpdatePatch(q));
    }
  }

  /** The run stored by a successful step on a well-formed run is well formed. */
  lemma StoredWf(q: Request, action: Action, run: Run)
    requires RunWf(run) && Step(q, action, run).Save?
    ensures RunWf(Step(q, action, run).run)
  {
    if action.Init? || action.Replace? {
      LoadWf(ParseTasks(q.tasksText));
    } else if (action.Update? || action.Complete? || action.Delete?) && run.initialized {
      assert Step(q, action, run) == TaskStep(q, run, action);
      TaskStepWf(q, run, action);
    }
  }

  /** Every action keeps every run's ids positive, strictly increasing and
      below that run's `nextId`. */
  lemma ApplyPreservesWf(st: Store, q: Request)
    requires StoreWf(st)
    ensures StoreWf(Apply(st, q).store)
  {
    if ActionName(q.action) != "" {
      ApplyStores(st, q);
      var st1 := EnsureRun(st, q.sessionId, q.runLabel);
      EnsureRunWf(st, q.sessionId, q.runLabel);
      var run := RunOf(st, q.sessionId, q.runLabel);
      var e := Step(q, ParseAction(ActionName(q.action)), run);
      if e.Save? {
        RunOfWf(st, q.sessionId, q.runLabel);
        StoredWf(q, ParseAction(ActionName(q.action)), run);
        SetRunWf(st1, q.sessionId, q.runLabel, e.run);
      }
    }
  }

  // ---------------------------------------------------------------------
  // Per-action effects

  /** `init` replaces the run's list by the stripped non-blank lines of
      `tasksText`, numbered from 1, all "todo", and marks the run initialized;
      it needs no prior init. */
  lemma InitLoadsLines(st: Store, q: Request)
    requires ActionName(q.action) == "init"
    ensures var o := Apply(st, q);
      var items := ParseTasks(q.tasksText);
      var r := RunOf(o.store, q.sessionId, q.runLabel);
      && o.notified
      && o.result == Success("initialized " + NatToString(|items|) + " tasks for " + q.runLabel)
      && r.initialized && r.nextId == |items| + 1 && |r.tasks| == |items|
      && (forall i :: 0 <= i < |items| ==> r.tasks[i] == Task(i + 1, items[i], "todo", ""))
  {
    ApplyStores(st, q);
  }

  /** Round trip through `init`: items written one per line become the
      run's tasks, the i-th item as task i + 1, "todo", with no notes. */
  lemma InitFromLines(st: Store, q: Request, items: seq<string>)
    requires ActionName(q.action) == "init"
    requires forall i :: 0 <= i < |items| ==> items[i] != "" && IsTrimmed(items[i])
    requires forall i :: 0 <= i < |items| ==> forall k :: 0 <= k < |items[i]| ==> !IsLineBoundary(items[i][k])
    requires q.tasksText == Join(items, "\n")
    ensures var r := RunOf(Apply(st, q).store, q.sessionId, q.runLabel);
      && r.initialized && |r.tasks| == |items| && r.nextId == |items| + 1
      && (forall i :: 0 <= i < |items| ==> r.tasks[i] == Task(i + 1, items[i], "todo", ""))
  {
    ParseTasksRoundTrip(items);
    InitLoadsLines(st, q);
  }

  /** The init gate: on a run never initialized, every action except `init`
      and `list` (so `clear` and `replace` too) is refused with the
      not-initialized error and changes nothing beyond creating the run. */
  lemma InitGate(st: Store, q: Request)
    requires !RunOf(st, q.sessionId, q.runLabel).initialized
    requires ActionName(q.action) !in {"", "init", "list"}
    ensures Apply(st, q) == Outcome(EnsureRun(st, q.sessionId, q.runLabel), Error(NotInitialized), false)
  {
    ApplyStores(st, q);
  }

  /** `add` appends one task carrying the old `nextId`, the stripped text and
      the status verbatim (defaulting to "todo"), then bumps `nextId`. */
  lemma AddAppends(st: Store, q: Request)
    requires ActionName(q.action) == "add"
    requires RunOf(st, q.sessionId, q.runLabel).initialized
    requires Trim(q.text) != ""
    ensures var run := RunOf(st, q.sessionId, q.runLabel);
      var o := Apply(st, q);
      var r := RunOf(o.store, q.sessionId, q.runLabel);
      && r.tasks == run.tasks + [Task(run.nextId, Trim(q.text), if q.status == "" then "todo" else q.status, "")]
      && r.nextId == run.nextId + 1
      && o.result == Success("added task " + IntToString(run.nextId))
  {
    ApplyStores(st, q);
  }

  /** On a well-formed run, ids are unique, so `WithoutId` drops exactly one task. */
  lemma {:induction false} WithoutIdDropsOne(tasks: seq<Task>, id: int)
    requires IdsIncreasing(tasks) && IndexOf(tasks, id) < |tasks|
    ensures |WithoutId(tasks, id)| == |tasks| - 1
  {
    if tasks[0].id == id {
      WithoutIdAbsent(tasks[1..], id);
    } else {
      WithoutIdDropsOne(tasks[1..], id);
    }
  }

  lemma {:induction false} WithoutIdAbsent(tasks: seq<Task>, id: int)
    requires forall i :: 0 <= i < |tasks| ==> tasks[i].id != id
    ensures WithoutId(tasks, id) == tasks
  {
    if |tasks| > 0 {
      WithoutIdAbsent(tasks[1..], id);
    }
  }

  /** `delete` removes exactly the task with that id (one task, on a
      well-formed store), keeps the others, and leaves `nextId` alone, so a
      deleted id is not handed out again until `clear` or `replace`. */
  lemma DeleteRemovesExactly(st: Store, q: Request, id: int)
    requires StoreWf(st)
    requires ActionName(q.action) == "delete" && q.taskId == Some(id)
    requires RunOf(st, q.sessionId, q.runLabel).initialized
    requires IndexOf(RunOf(st, q.sessionId, q.runLabel).tasks, id) < |RunOf(st, q.sessionId, q.runLabel).tasks|
    ensures var run := RunOf(st, q.sessionId, q.runLabel);
      var o := Apply(st, q);
      var r := RunOf(o.store, q.sessionId, q.runLabel);
      && o.result == Success("deleted task " + IntToString(id))
      && (forall t :: t in r.tasks <==> t in run.tasks && t.id != id)
      && |r.tasks| == |run.tasks| - 1
      && r.nextId == run.nextId
  {
    ApplySaves(st, q);
    var run := RunOf(st, q.sessionId, q.runLabel);
    RunOfWf(st, q.sessionId, q.runLabel);
    WithoutIdMembers(run.tasks, id);
    WithoutIdDropsOne(run.tasks, id);
  }

  /** `complete` marks the first task with that id done, replaces its notes
      only by non-blank stripped notes, and touches no other task. */
  lemma CompleteMarksDone(st: Store, q: Request, id: int)
    requires ActionName(q.action) == "complete" && q.taskId == Some(id)
    requires RunOf(st, q.sessionId, q.runLabel).initialized
    requires IndexOf(RunOf(st, q.sessionId, q.runLabel).tasks, id) < |RunOf(st, q.sessionId, q.runLabel).tasks|
    ensures var run := RunOf(st, q.sessionId, q.runLabel);
      var k := IndexOf(run.tasks, id);
      var o := Apply(st, q);
      var r := RunOf(o.store, q.sessionId, q.runLabel);
      && o.result == Success("completed task " + IntToString(id))
      && |r.tasks| == |run.tasks| && r.nextId == run.nextId
      && r.tasks[k] == Task(id, run.tasks[k].text, "done", if Trim(q.notes) == "" then run.tasks[k].notes else Trim(q.notes))
      && (forall i :: 0 <= i < |run.tasks| && i != k ==> r.tasks[i] == run.tasks[i])
  {
    ApplySaves(st, q);
    var run := RunOf(st, q.sessionId, q.runLabel);
    PatchFirstAt(run.tasks, id, CompletePatch(q.notes));
  }

  /** `update` patches only the non-blank fields (status lower-cased) of the
      first task with that id and touches no other task. */
  lemma UpdatePatchesNonBlank(st: Store, q: Request, id: int)
    requires ActionName(q.action) == "update" && q.taskId == Some(id)
    requires RunOf(st, q.sessionId, q.runLabel).initialized
    requires IndexOf(RunOf(st, q.sessionId, q.runLabel).tasks, id) < |RunOf(st, q.sessionId, q.runLabel).tasks|
    ensures var run := RunOf(st, q.sessionId, q.runLabel);
      var k := IndexOf(run.tasks, id);
      var o := Apply(st, q);
      var r := RunOf(o.store, q.sessionId, q.runLabel);
      && o.result == Success("updated task " + IntToString(id))
      && |r.tasks| == |run.tasks| && r.nextId == run.nextId
      && r.tasks[k] == Task(id,
                            if Trim(q.text) == "" then run.tasks[k].text else Trim(q.text),
                            if Trim(q.status) == "" then run.tasks[k].status else Lower(Trim(q.status)),
                            if Trim(q.notes) == "" then run.tasks[k].notes else Trim(q.notes))
      && (forall i :: 0 <= i < |run.tasks| && i != k ==> r.tasks[i] == run.tasks[i])
  {
    var run := RunOf(st, q.sessionId, q.runLabel);
    assert ParseAction(ActionName(q.action)) == Update;
    assert Step(q, Update, run) == TaskStep(q, run, Update);
    ApplySaves(st, q);
    PatchFirstAt(run.tasks, id, UpdatePatch(q));
  }

  /** A missing or unknown task id on an initialized run is an error that
      changes nothing beyond creating the run. */
  lemma UnknownTaskRefused(st: Store, q: Request)
    requires ActionName(q.action) in {"update", "complete", "delete"}
    requires RunOf(st, q.sessionId, q.runLabel).initialized
    requires q.taskId.None? || IndexOf(RunOf(st, q.sessionId, q.runLabel).tasks, q.taskId.value) == |RunOf(st, q.sessionId, q.runLabel).tasks|
    ensures var o := Apply(st, q);
      IsError(o.result) && !o.notified && o.store == EnsureRun(st, q.sessionId, q.runLabel)
  {
    var run := RunOf(st, q.sessionId, q.runLabel);
    var action := ParseAction(ActionName(q.action));
    assert action.Update? || action.Complete? || action.Delete?;
    assert Step(q, action, run) == TaskStep(q, run, action);
    assert TaskStep(q, run, action).Fail?;
    ApplyStores(st, q);
    ErrorIsError(TaskStep(q, run, action).message);
  }

  /** `clear` empties the list and restarts ids at 1, so ids may be reused. */
  lemma ClearRestartsIds(st: Store, q: Request)
    requires ActionName(q.action) == "clear"
    requires RunOf(st, q.sessionId, q.runLabel).initialized
    ensures var o := Apply(st, q);
      o.notified && RunOf(o.store, q.sessionId, q.runLabel) == Run(true, 1, [])
  {
    assert ParseAction(ActionName(q.action)) == Clear;
    ApplySaves(st, q);
  }

  /** An action changes no run of the session but its own. */
  lemma OtherRunsUntouched(st: Store, q: Request, other: string)
    requires other != q.runLabel && q.sessionId in st.sessions
    ensures var o := Apply(st, q);
      q.sessionId in o.store.sessions &&
      FindRun(o.store.sessions[q.sessionId].runs, other) == FindRun(st.sessions[q.sessionId].runs, other)
  {
    ApplyFrame(st, q);
  }

  // ---------------------------------------------------------------------
  // Listing and notification

  /** `list` creates the run if needed and answers with the rendered board. */
  lemma ListShows(st: Store, q: Request)
    requires ActionName(q.action) == "list"
    ensures var st1 := EnsureRun(st, q.sessionId, q.runLabel);
      Apply(st, q) == Outcome(st1, Render(st1, q.sessionId), false)
  {
    ApplyStores(st, q);
  }

  /** `list` twice in a row answers the same and changes nothing the second time. */
  lemma ListIsRepeatable(st: Store, q: Request)
    requires ActionName(q.action) == "list"
    ensures var o := Apply(st, q);
      Apply(o.store, q) == o && o.result == Render(o.store, q.sessionId)
  {
    ListShows(st, q);
    ListShows(Apply(st, q).store, q);
  }

  /** "list" is already in the form `apply` normalizes actions to. */
  lemma ListIsNormal()
    ensures ActionName("list") == "list"
  {
    TrimOfTrimmed("list");
  }

  /** A successful call leaves its run in place, so `ensure_run` on the
      result changes nothing. */
  lemma SuccessKeepsRun(st: Store, q: Request)
    requires IsSuccess(Apply(st, q).result)
    ensures var o := Apply(st, q);
      EnsureRun(o.store, q.sessionId, q.runLabel) == o.store
  {
  }

  /** After a mutation, each registered listener is called once, in
      registration order, with exactly the text a following `list` returns. */
  lemma NotificationFidelity(st: Store, q: Request)
    requires IsSuccess(Apply(st, q).result)
    ensures var o := Apply(st, q);
      var ds := Notifications(o, q.sessionId);
      var ls := ListenersOf(st, q.sessionId);
      && |ds| == |ls|
      && (forall i :: 0 <= i < |ds| ==> ds[i] == Delivery(ls[i], Apply(o.store, q.(action := "list")).result))
  {
    var o := Apply(st, q);
    var l := q.(action := "list");
    SuccessKeepsRun(st, q);
    ListIsNormal();
    ListShows(o.store, l);
  }

  // ---------------------------------------------------------------------
  // Rendering

  lemma RenderUnknownSession(st: Store, sessionId: string)
    requires sessionId !in st.sessions
    ensures Render(st, sessionId) == "Task list session not found."
  {
  }

  /** A freshly created session renders as its title and "- (no runs yet)". */
  lemma CreatedSessionRendersEmpty(st: Store, sessionId: string, title: string)
    ensures RenderLines(CreateSession(st, sessionId, title), sessionId) == [TitleLine(title), "- (no runs yet)"]
  {
  }

  /** The marker between the brackets of a task line tells exactly which
      status the task has: `x` for "done", `~` for "doing" (exact, case
      sensitive), blank for anything else. A note line follows exactly when
      the task has notes. */
  lemma TaskLineMark(t: Task)
    ensures var line := TaskLine(t);
      && StartsWith(line, "- [") && line[4] == ']'
      && (line[3] == 'x' <==> t.status == "done")
      && (line[3] == '~' <==> t.status == "doing")
      && (line[3] == ' ' <==> t.status != "done" && t.status != "doing")
    ensures |TaskBlock(t)| == (if t.notes == "" then 1 else 2)
    ensures t.notes != "" ==> TaskBlock(t)[1] == "  note: " + t.notes
  {
    var line := TaskLine(t);
    assert line[..3] == "- [" && line[3] == Mark(t.status) && line[4] == ']';
  }

  /** When no task has notes, each task renders as exactly one line. */
  lemma {:induction false} TaskLinesWithoutNotes(tasks: seq<Task>)
    requires forall i :: 0 <= i < |tasks| ==> tasks[i].notes == ""
    ensures |TaskLines(tasks)| == |tasks|
    ensures forall i :: 0 <= i < |tasks| ==> TaskLines(tasks)[i] == TaskLine(tasks[i])
  {
    if |tasks| > 0 {
      var rest := tasks[1..];
      TaskLinesWithoutNotes(rest);
      assert TaskBlock(tasks[0]) == [TaskLine(tasks[0])];
      var lines := TaskLines(tasks);
      assert lines == [TaskLine(tasks[0])] + TaskLines(rest);
      forall i | 0 < i < |tasks|
        ensures lines[i] == TaskLine(tasks[i])
      {
        assert lines[i] == TaskLines(rest)[i - 1];
        assert rest[i - 1] == tasks[i];
      }
    }
  }

  /** A run without tasks renders its label and then its state: `no tasks`
      once initialized, `not initialized` before. A run loaded from no items
      is initialized and empty. */
  lemma EmptyRunShowsState(e: RunEntry)
    ensures |e.run.tasks| == 0 ==>
      RunBlock(e) == ["", e.runLabel + ":", if e.run.initialized then "- (no tasks)" else "- (not initialized)"]
    ensures RunBlock(RunEntry(e.runLabel, Load([]))) == ["", e.runLabel + ":", "- (no tasks)"]
  {
  }

  /** Round trip: a run loaded by `init` from items `A, B, ...` renders as its
      label followed by `- [ ] 1. A`, `- [ ] 2. B`, ... in order. */
  lemma InitRendersItems(runLabel: string, items: seq<string>)
    requires |items| > 0
    ensures RunBlock(RunEntry(runLabel, Load(items))) ==
      ["", runLabel + ":"] + seq(|items|, i requires 0 <= i < |items| => "- [ ] " + NatToString(i + 1) + ". " + items[i])
  {
    var tasks := Load(items).tasks;
    TaskLinesWithoutNotes(tasks);
    var got := TaskLines(tasks);
    var want := seq(|items|, i requires 0 <= i < |items| => "- [ ] " + NatToString(i + 1) + ". " + items[i]);
    forall i | 0 <= i < |items|
      ensures got[i] == want[i]
    {
      TodoLine(i + 1, items[i]);
    }
    assert got == want;
  }

  /** A fresh task renders with a blank marker, its id and its text. */
  lemma TodoLine(id: nat, text: string)
    ensures TaskLine(Task(id, text, "todo", "")) == "- [ ] " + NatToString(id) + ". " + text
  {
  }
}

=== FILE: toolset.dfy ===
/** Which tools a toolset offers, and in what order, given the settings and
    the tool profile. The rule is shared by both toolsets; they differ only
    in how they decide that a SerpAPI key is present. */
module Toolset {
  import opened Strings
  import SerpapiKeys

  /** The tools, named by what they do. */
  datatype Tool = Exec | TaskList | Brave | GoogleWeb | BingWeb | WebSearcher | Social | Scientific | Pdf

  /** A tool's place in the order a toolset lists them. */
  function Rank(t: Tool): nat {
    match t
    case Exec => 0
    case TaskList => 1
    case Brave => 2
    case GoogleWeb => 3
    case BingWeb => 4
    case WebSearcher => 5
    case Social => 6
    case Scientific => 7
    case Pdf => 8
  }

  /** The switches the selection reads (`exec_enabled`, `brave_enabled`,
      `serpapi_google_web_enabled`, `serpapi_bing_web_enabled`,
      `websearcher_enabled`, `forumscout_enabled`, `scientific_enabled`,
      `pdf_text_enabled`). */
  datatype Flags = Flags(exec: bool, brave: bool, googleWeb: bool, bingWeb: bool, websearcher: bool,
                         forumscout: bool, scientific: bool, pdf: bool)

  /** The profiles that get the full tool set. */
  predicate Wide(profile: string) {
    profile == "all" || profile == "telegram"
  }

  /** When a single tool is offered, stated tool by tool. */
  predicate Offered(f: Flags, profile: string, hasSerpapi: bool, t: Tool) {
    match t
    case Exec => f.exec
    case TaskList => true
    case Brave => f.brave
    case GoogleWeb => hasSerpapi && f.googleWeb
    case BingWeb => hasSerpapi && f.bingWeb && Wide(profile)
    case WebSearcher => f.websearcher && (f.brave || hasSerpapi)
    case Social => f.forumscout && Wide(profile)
    case Scientific => f.scientific && Wide(profile)
    case Pdf => f.pdf && Wide(profile)
  }

  /** The one tool when it is offered, else nothing. */
  function Only(f: Flags, profile: string, hasSerpapi: bool, t: Tool): seq<Tool> {
    if Offered(f, profile, hasSerpapi, t) then [t] else []
  }

  /** `_build_tools`, given whether a SerpAPI key is present: each tool is
      appended in turn when its condition holds. */
  function Select(f: Flags, profile: string, hasSerpapi: bool): seq<Tool> {
    Only(f, profile, hasSerpapi, Exec)
      + Only(f, profile, hasSerpapi, TaskList)
      + Only(f, profile, hasSerpapi, Brave)
      + Only(f, profile, hasSerpapi, GoogleWeb)
      + Only(f, profile, hasSerpapi, BingWeb)
      + Only(f, profile, hasSerpapi, WebSearcher)
      + Only(f, profile, hasSerpapi, Social)
      + Only(f, profile, hasSerpapi, Scientific)
      + Only(f, profile, hasSerpapi, Pdf)
  }

  predicate Ascending(ts: seq<Tool>) {
    forall i, j :: 0 <= i < j < |ts| ==> Rank(ts[i]) < Rank(ts[j])
  }

  predicate Below(ts: seq<Tool>, n: nat) {
    forall i :: 0 <= i < |ts| ==> Rank(ts[i]) < n
  }

  /** Appending a tool that ranks after everything so far keeps the order. */
  lemma AppendInOrder(ts: seq<Tool>, f: Flags, profile: string, hasSerpapi: bool, t: Tool)
    requires Ascending(ts) && Below(ts, Rank(t))
    ensures Ascending(ts + Only(f, profile, hasSerpapi, t))
    ensures Below(ts + Only(f, profile, hasSerpapi, t), Rank(t) + 1)
  {
    var r := ts + Only(f, profile, hasSerpapi, t);
    forall i, j | 0 <= i < j < |r|
      ensures Rank(r[i]) < Rank(r[j])
    {
      if j < |ts| {
        assert r[i] == ts[i] && r[j] == ts[j];
      } else {
        assert r[i] == ts[i];
      }
    }
    forall i | 0 <= i < |r|
      ensures Rank(r[i]) < Rank(t) + 1
    {
      if i < |ts| {
        assert r[i] == ts[i];
      }
    }
  }

  /** Appending an optional tool adds exactly that tool, when offered. */
  lemma AppendMembers(ts: seq<Tool>, f: Flags, profile: string, hasSerpapi: bool, t: Tool, u: Tool)
    ensures u in ts + Only(f, profile, hasSerpapi, t) <==> u in ts || (u == t && Offered(f, profile, hasSerpapi, t))
  {
  }

  /** The selection holds a tool exactly when that tool's condition holds. */
  lemma SelectMembers(f: Flags, profile: string, hasSerpapi: bool, u: Tool)
    ensures u in Select(f, profile, hasSerpapi) <==> Offered(f, profile, hasSerpapi, u)
  {
    var o := Only(f, profile, hasSerpapi, Exec);
    AppendMembers([], f, profile, hasSerpapi, Exec, u);
    assert [] + o == o;
    AppendMembers(o, f, profile, hasSerpapi, TaskList, u);
    o := o + Only(f, profile, hasSerpapi, TaskList);
    AppendMembers(o, f, profile, hasSerpapi, Brave, u);
    o := o + Only(f, profile, hasSerpapi, Brave);
    AppendMembers(o, f, profile, hasSerpapi, GoogleWeb, u);
    o := o + Only(f, profile, hasSerpapi, GoogleWeb);
    AppendMembers(o, f, profile, hasSerpapi, BingWeb, u);
    o := o + Only(f, profile, hasSerpapi, BingWeb);
    AppendMembers(o, f, profile, hasSerpapi, WebSearcher, u);
    o := o + Only(f, profile, hasSerpapi, WebSearcher);
    AppendMembers(o, f, profile, hasSerpapi, Social, u);
    o := o + Only(f, profile, hasSerpapi, Social);
    AppendMembers(o, f, profile, hasSerpapi, Scientific, u);
    o := o + Only(f, profile, hasSerpapi, Scientific);
    AppendMembers(o, f, profile, hasSerpapi, Pdf, u);
    o := o + Only(f, profile, hasSerpapi, Pdf);
    assert o == Select(f, profile, hasSerpapi);
  }

  /** The selection lists each tool at most once, in the fixed order exec,
      task list, Brave, Google web, Bing web, web searcher, social,
      scientific, PDF. */
  lemma SelectOrdered(f: Flags, profile: string, hasSerpapi: bool)
    ensures Ascending(Select(f, profile, hasSerpapi))
  {
    var o := Only(f, profile, hasSerpapi, Exec);
    assert Ascending(o) && Below(o, 1);
    AppendInOrder(o, f, profile, hasSerpapi, TaskList);
    o := o + Only(f, profile, hasSerpapi, TaskList);
    AppendInOrder(o, f, profile, hasSerpapi, Brave);
    o := o + Only(f, profile, hasSerpapi, Brave);
    AppendInOrder(o, f, profile, hasSerpapi, GoogleWeb);
    o := o + Only(f, profile, hasSerpapi, GoogleWeb);
    AppendInOrder(o, f, profile, hasSerpapi, BingWeb);
    o := o + Only(f, profile, hasSerpapi, BingWeb);
    AppendInOrder(o, f, profile, hasSerpapi, WebSearcher);
    o := o + Only(f, profile, hasSerpapi, WebSearcher);
    AppendInOrder(o, f, profile, hasSerpapi, Social);
    o := o + Only(f, profile, hasSerpapi, Social);
    AppendInOrder(o, f, profile, hasSerpapi, Scientific);
    o := o + Only(f, profile, hasSerpapi, Scientific);
    AppendInOrder(o, f, profile, hasSerpapi, Pdf);
    o := o + Only(f, profile, hasSerpapi, Pdf);
    assert o == Select(f, profile, hasSerpapi);
  }

  /** The task list is always offered; exec comes first exactly when it is
      enabled, and the task list first otherwise. */
  lemma SelectStarts(f: Flags, profile: string, hasSerpapi: bool)
    ensures var r := Select(f, profile, hasSerpapi);
      && TaskList in r
      && |r| > 0
      && (r[0] == Exec <==> f.exec)
      && (!f.exec ==> r[0] == TaskList)
  {
    var r := Select(f, profile, hasSerpapi);
    SelectMembers(f, profile, hasSerpapi, TaskList);
    if f.exec {
      assert r[0] == Exec;
    } else {
      assert r[0] == TaskList;
    }
  }

  /** Outside the wide profiles there is no Bing web, social, scientific or PDF tool. */
  lemma NarrowProfile(f: Flags, profile: string, hasSerpapi: bool)
    requires !Wide(profile)
    ensures var r := Select(f, profile, hasSerpapi);
      BingWeb !in r && Social !in r && Scientific !in r && Pdf !in r
  {
    SelectMembers(f, profile, hasSerpapi, BingWeb);
    SelectMembers(f, profile, hasSerpapi, Social);
    SelectMembers(f, profile, hasSerpapi, Scientific);
    SelectMembers(f, profile, hasSerpapi, Pdf);
  }

  /** This toolset's key test: the parsed key list is not empty. */
  predicate HasSerpapi(serpapiKey: string) {
    SerpapiKeys.HasKeys(SerpapiKeys.Text(serpapiKey))
  }

  /** `Toolset._build_tools`: exactly the offered tools, in registration order. */
  function BuildTools(f: Flags, profile: string, serpapiKey: string): (r: seq<Tool>)
    ensures forall t :: t in r <==> Offered(f, profile, HasSerpapi(serpapiKey), t)
    ensures Ascending(r)
  {
    var r := Select(f, profile, HasSerpapi(serpapiKey));
    assert forall t :: t in r <==> Offered(f, profile, HasSerpapi(serpapiKey), t) by {
      forall t ensures t in r <==> Offered(f, profile, HasSerpapi(serpapiKey), t) {
        SelectMembers(f, profile, HasSerpapi(serpapiKey), t);
      }
    }
    SelectOrdered(f, profile, HasSerpapi(serpapiKey));
    r
  }

  /** Google web search is offered exactly when a key parses and the switch is on. */
  lemma GoogleWebRule(f: Flags, profile: string, serpapiKey: string)
    ensures GoogleWeb in BuildTools(f, profile, serpapiKey) <==> |SerpapiKeys.ParseKeys(SerpapiKeys.Text(serpapiKey))| > 0 && f.googleWeb
  {
    SelectMembers(f, profile, HasSerpapi(serpapiKey), GoogleWeb);
  }
}

=== FILE: wrappers.dfy ===
/** Optional values, the model's stand-in for Python's `None`. */
module Wrappers {

  datatype Option<+T> = None | Some(value: T) {

    /** The wrapped value, or `default` when there is none. */
    function GetOr(default: T): T {
      match this
      case Some(v) => v
      case None => default
    }
  }
}
